=== FILE: README.md ===
# Emigrant statistics dashboard: chart-data shaping

This project models the data-shaping core of a web dashboard of Filipino
emigrant statistics, and proves properties of the model. The dashboard
parses CSV tables (by age group, civil status, education, sex, occupation,
region and province of origin, and destination country) and turns them into
chart structures:

- **Pivots.** Category-major tables become year-major records.
- **Period sums.** Year records are summed into fixed 5-year or 3-year periods.
- **Education merge.** Fourteen raw education labels are merged into eight levels.
- **Totals.** Per-category totals drive a treemap and a ranked bar chart.
- **Destination tiers.** Each destination country is placed in one of five concentration tiers, each with a colour.
- **Province totals.** Provinces are totalled under a normalised name for a choropleth.

Around these sit the small pure rules of the pages:

- the region shorthand labels and the single-year view of the origin page;
- the forecast chart's merge of history and predictions;
- the role/permission table of the authentication context;
- the column order and add-year gating of the data manager;
- the registration form's password checks;
- the two tab-label formatters.

Each hook's `complete` callback is a pure function from a parsed table to
what the hook publishes:

- A parsed table is the header keys in `Object.keys` order plus the rows, each a map from header to cell text.
- A missing cell is a key the row lacks.
- The province hook loops over each row's own keys, so its rows come with their own `Object.keys` list (`OriginProvince.KeyedRow`).
- An empty parse is the early return, `None`.

Other conventions:

- `parseInt(s, 10)` is `JsNumber.ParseInt`, returning `Option<int>`; `None` stands for `NaN`.
- `x || 0` and `isNaN(v) ? 0 : v` are the same defaulting read, `Table.CellInt`.
- `Array.find` returns the first match, so with duplicate years the first record wins.
- A JavaScript object built by assignment is an association list kept in insertion order; a re-assigned key keeps its place. This is `Object.keys` order for keys that are not integer-like (see Left out).

Modules follow the source:

| module | source |
|---|---|
| `Table`, `Periods`, `Totals` | the pivot, period and totals code shared by the hooks |
| `AgeData`, `CivilStatus`, `EducationData`, `SexData`, `OccupationData`, `OriginData`, `MajorDestination`, `AllDestination`, `OriginProvince` | one `useParse*` hook each |
| `ProvinceName` | `normalizeName` |
| `Choropleth` | the world choropleth |
| `OriginChoropleth` | the province choropleth |
| `OriginCharts` | the region-of-origin chart page |
| `PredictionCharts` | the forecast chart |
| `Auth` | the authentication context |
| `ManageData` | the data manager |
| `Register` | the registration form |
| `TabLabels` | the two tab components |
| `Basics`, `JsNumber` | the JavaScript string and number primitives |

## Model

| member | source | states |
|---|---|---|
| JsNumber.ParseInt | src/hooks/useParseAgeData.ts:48 | `parseInt(s, 10)` skips whitespace, takes a sign and the longest digit run; text without a digit is `NaN` |
| JsNumber.IntToString | src/hooks/useParseAgeData.ts:67 | `String(n)`: digits, with a leading minus for a negative number |
| JsNumber.NatToString | src/hooks/useParseAgeData.ts:67 | the decimal digits of a natural number have its value and no leading zero |
| JsNumber.FourDigitRendering | src/hooks/useParseAgeData.ts:67 | a four-digit year is rendered as its four digits |
| JsNumber.ParseIntRoundTrip | src/hooks/useParseAgeData.ts:48 | `parseInt(String(n), 10) == n` for an integer `n`; the model's integers are unbounded (see Left out) |
| JsNumber.ParseIntReadsRendering | src/hooks/useParseAgeData.ts:52 | leading whitespace and a non-digit tail do not change the number `parseInt` reads back |
| JsNumber.ParseIntSkipsSpaces | src/hooks/useParseAgeData.ts:52 | leading whitespace does not change what `parseInt` reads |
| JsNumber.ParseIntOfDigits | src/hooks/useParseAgeData.ts:52 | a digit string followed by a non-digit parses to the digits' value |
| JsNumber.ParseIntOfNegativeDigits | src/routes/manageData.tsx:215 | a minus sign before digits parses to the negated value |
| JsNumber.ParseIntOfPlusDigits | src/hooks/useParseAgeData.ts:48 | a plus sign before digits is dropped: "+5" reads 5 |
| JsNumber.ParseIntOfNonDigit | src/hooks/useParseAgeData.ts:48 | after the whitespace, a first character that is neither sign nor digit gives `NaN`, whatever digits follow ("Q1 2019") |
| JsNumber.ParseIntOfBareSign | src/hooks/useParseAgeData.ts:48 | a sign with no digit right after it gives `NaN` |
| Basics.Trim | src/hooks/useParseOriginProvinceData.ts:7 | `trim()` returns the infix of the input with only whitespace cut from either end, and no whitespace is left at either end |
| Basics.ToUpper | src/hooks/useParseOriginProvinceData.ts:6 | `toUpperCase()` maps each character to its upper case, keeping the length |
| Basics.Without | src/hooks/useParseCivilStatusData.ts:50 | `keys.filter(key => key !== k)` keeps every other key and drops `k` |
| Basics.WithoutIsFilter | src/hooks/useParseCivilStatusData.ts:50 | dropping `k` is `filter(key => key !== k)`: the kept keys in their order |
| Basics.WithoutAppend | src/hooks/useParseCivilStatusData.ts:50 | a key after the others is kept, at the end, exactly when it is not `k` |
| Basics.WithoutCounts | src/hooks/useParseCivilStatusData.ts:50 | every key other than `k` is kept as often as it occurs, and `k` never |
| Basics.Max | src/components/charts/predictionCharts.tsx:69 | `Math.max(...xs)` is an element and bounds every element from above |
| Basics.Min | src/components/charts/predictionCharts.tsx:76 | `Math.min(...xs)` is an element and bounds every element from below |
| Table.FirstWithYear | src/hooks/useParseAgeData.ts:75 | `find` stops at the first record with the year; no earlier record has it, and `undefined` means none has it |
| Table.Vocabulary | src/hooks/useParseAgeData.ts:40 | `map(row => row[col]).filter(Boolean)`: exactly the non-empty labels, none empty |
| Table.VocabularyAppend | src/hooks/useParseAgeData.ts:40 | a further row appends its label, when non-empty, at the end: labels keep row order and repetitions |
| Table.PivotColumn | src/hooks/useParseAgeData.ts:50-54 | a pivoted record has a field for each labelled row; the last row with a label decides its value |
| Table.Pivot | src/hooks/useParseAgeData.ts:44-57 | one record per header key other than the label column, in key order, with `Year = parseInt(key, 10)` |
| Table.PivotCells | src/hooks/useParseAgeData.ts:47-54 | a pivoted record has the vocabulary as its fields, and a uniquely labelled row's cell is read as `parseInt` or 0 |
| Table.PivotFieldsAreVocabulary | src/hooks/useParseOccupationData.ts:48-58 | every pivoted record carries exactly the vocabulary as fields |
| Table.FixedFieldRecord | src/hooks/useParseCivilStatusData.ts:55-63 | a year-major record: the year with no default, each fixed field `parseInt` or 0 |
| Table.FixedFieldRecords | src/hooks/useParseCivilStatusData.ts:54-66 | one record per row, in row order |
| Periods.Bounds | src/hooks/useParseAgeData.ts:65-66 | the period loop: each bound starts at or after `start`, ends at or before `end`, and the first is `(start, min(start+len-1, end))` |
| Periods.BoundsShape | src/hooks/useParseAgeData.ts:65-66 | bound `i` is `(start + i*len, min(start + i*len + len - 1, end))`, and there are `ceil((end-start+1)/len)` of them |
| Periods.FiveYearBounds | src/hooks/useParseAgeData.ts:62-66 | the 5-year calendar has eight periods, 1981-1985 through 2016-2020 |
| Periods.ThreeYearBounds | src/hooks/useParseCivilStatusData.ts:70-74 | the 3-year calendar has eleven periods, 1988-1990 through 2018-2020 |
| Periods.BoundaryYearStrings | src/hooks/useParseAgeData.ts:67 | the boundary years render as their four digits |
| Periods.FiveYearLabels | src/hooks/useParseAgeData.ts:67 | the first and last 5-year labels are "1981 - 1985" and "2016 - 2020" |
| Periods.ThreeYearLabels | src/hooks/useParseCivilStatusData.ts:75 | the first and last 3-year labels are "1988 - 1990" and "2018 - 2020" |
| Periods.Zeros | src/hooks/useParseCivilStatusData.ts:76-84 | a period starts with every fixed field at 0 |
| Periods.PeriodValues | src/hooks/useParseCivilStatusData.ts:86-99 | a period record: each category is its sum over the period's years; other initial fields keep their 0 |
| Periods.Aggregate | src/hooks/useParseAgeData.ts:61-85 | one period record per bound, in order |
| Periods.AggregateSums | src/hooks/useParseAgeData.ts:71-81 | period `i` sums each category over exactly the years of bound `i` |
| Periods.SumYearsSplit | src/hooks/useParseAgeData.ts:74-79 | splitting a year range splits its sum |
| Periods.BoundsPartition | src/hooks/useParseAgeData.ts:65-66 | the sums over the periods add up to the sum over the whole year range |
| Periods.AggregateConserves | src/hooks/useParseAgeData.ts:65-85 | summed over all periods, a category gives its year-by-year sum over the whole range |
| Periods.RecordsSumOneYear | src/hooks/useParseAgeData.ts:75-78 | with distinct years, the records dated in one year sum to the value `find` reads for it |
| Periods.SumYearsIsRecordsSum | src/hooks/useParseAgeData.ts:74-79 | with distinct years, summing year by year with `find` equals summing the records in the range |
| Periods.AggregateConservesRecords | src/hooks/useParseAgeData.ts:65-85 | with distinct years, the periods of a category add up to its sum over the records dated in the range |
| Periods.SumYearsAbsentField | src/hooks/useParseCivilStatusData.ts:93-95 | a field no record carries sums to 0 |
| Periods.NoYearSumsZero | src/hooks/useParseAgeData.ts:76 | a year no record is dated in contributes 0 |
| AgeData.ParseAgeData | src/hooks/useParseAgeData.ts:37-89 | no output for an empty parse; else the age-group vocabulary, the pivot and its 5-year periods |
| AgeData.AgePeriodLabels | src/hooks/useParseAgeData.ts:62-67 | exactly eight periods, labelled `1981+5i - 1985+5i` |
| AgeData.AgePeriodKeys | src/hooks/useParseAgeData.ts:68-82 | each period has exactly the age groups as fields |
| AgeData.AgePeriodSums | src/hooks/useParseAgeData.ts:71-81 | period `i` holds each group's sum over years `1981+5i .. 1985+5i` |
| AgeData.AgePeriodsConserve | src/hooks/useParseAgeData.ts:65-85 | with distinct years, a group's periods add up to its sum over records dated 1981..2020 |
| CivilStatus.ParseCivilStatusData | src/hooks/useParseCivilStatusData.ts:47-106 | no output for an empty parse; else the header categories, one six-field record per row and the 3-year periods |
| CivilStatus.CivilPeriodLabels | src/hooks/useParseCivilStatusData.ts:70-75 | exactly eleven periods, labelled `1988+3i - 1990+3i` |
| CivilStatus.CivilPeriodKeys | src/hooks/useParseCivilStatusData.ts:76-99 | each period carries the six statuses and every header category |
| CivilStatus.CivilPeriodSums | src/hooks/useParseCivilStatusData.ts:87-99 | period `i` holds each category's sum over years `1988+3i .. 1990+3i` |
| CivilStatus.CivilMissingStatusIsZero | src/hooks/useParseCivilStatusData.ts:76-84 | a status missing from the header stays 0 in every period |
| CivilStatus.CivilUnknownCategoryIsZero | src/hooks/useParseCivilStatusData.ts:54-63 | a header category outside the six statuses sums to 0 in every period (except a name inherited from `Object.prototype`, see Left out) |
| CivilStatus.CivilPeriodsConserve | src/hooks/useParseCivilStatusData.ts:73-102 | with distinct years, a category's periods add up to its sum over records dated 1988..2020 |
| EducationData.MergeRecord | src/hooks/useParseEducationData.ts:81-97 | a merged record keeps the year; each level is the sum of its raw labels, a missing one counting 0 |
| EducationData.MergeRecords | src/hooks/useParseEducationData.ts:81 | one merged record per pivoted record, in order |
| EducationData.ParseEducationData | src/hooks/useParseEducationData.ts:53-127 | no output for an empty parse; else the eight levels, the merged pivot and its 3-year periods |
| EducationData.Flatten | src/hooks/useParseEducationData.ts:22-35 | the model of the raw labels behind the merged levels; what it promises is stated by FlattenLevels and SourceLabelsDistinct |
| EducationData.FlattenLevels | src/hooks/useParseEducationData.ts:22-35 | the merge reads exactly the fourteen raw labels, in mapping order |
| EducationData.SourceLabelsDistinct | src/hooks/useParseEducationData.ts:22-35 | no raw label feeds two levels |
| EducationData.MergeConserves | src/hooks/useParseEducationData.ts:84-94 | the eight merged values add up to the fourteen raw values |
| EducationData.MergeIgnoresOtherLabels | src/hooks/useParseEducationData.ts:81-97 | a raw label outside the mapping does not affect any merged level |
| EducationData.EducationPeriodLabels | src/hooks/useParseEducationData.ts:101-106 | exactly eleven periods, labelled `1988+3i - 1990+3i` |
| EducationData.EducationPeriodKeys | src/hooks/useParseEducationData.ts:107-121 | each period has exactly the eight levels as fields |
| EducationData.EducationPeriodSums | src/hooks/useParseEducationData.ts:110-121 | period `i` holds each level's sum over years `1988+3i .. 1990+3i` |
| EducationData.EducationPeriodsConserve | src/hooks/useParseEducationData.ts:104-124 | with distinct years, a level's periods add up to its sum over merged records dated 1988..2020 |
| SexData.Pyramid | src/hooks/useParseSexData.ts:131-136 | one pyramid row per period, with its label and sums; the negative male bar cancels the male bar |
| SexData.Scatter | src/hooks/useParseSexData.ts:140-141 | one point per record, `x` the year, `y` the field |
| SexData.Trend | src/hooks/useParseSexData.ts:147-155 | two trend points, at 1981 and 2020, both on the fitted line |
| SexData.ParseSexData | src/hooks/useParseSexData.ts:81-163 | no output for an empty parse; else the categories, the MALE/FEMALE records, the 5-year periods, the pyramid of those periods, one scatter per sex over the records and one trend per sex from its fitted line |
| SexData.SexPeriodLabels | src/hooks/useParseSexData.ts:100-105 | exactly eight periods, labelled `1981+5i - 1985+5i` |
| SexData.SexPeriodKeys | src/hooks/useParseSexData.ts:106-125 | each period carries MALE, FEMALE and every header category |
| SexData.SexPeriodSums | src/hooks/useParseSexData.ts:113-125 | period `i` holds each category's sum over years `1981+5i .. 1985+5i` |
| SexData.SexPyramidRows | src/hooks/useParseSexData.ts:131-136 | pyramid row `i` shows minus the male sum of period `i`, or 0 without a MALE column |
| SexData.SexUnknownCategoryIsZero | src/hooks/useParseSexData.ts:88-125 | a header category other than MALE and FEMALE sums to 0 in every period (except a name inherited from `Object.prototype`, see Left out) |
| SexData.SexScatterReadsRows | src/hooks/useParseSexData.ts:88-96 | each scatter point is its row's parsed year and count |
| SexData.TrendKeepsSlope | src/hooks/useParseSexData.ts:147-155 | the segment between the two trend points has the fitted slope |
| SexData.SexPeriodsConserve | src/hooks/useParseSexData.ts:103-128 | with distinct years, a category's periods add up to its sum over records dated 1981..2020 |
| Totals.AddRecord | src/hooks/useParseOccupationData.ts:69-71 | the inner totals loop adds a field for every vocabulary entry |
| Totals.Accumulate | src/hooks/useParseOccupationData.ts:68-72 | the outer totals loop keeps the totals object's keys |
| Totals.AddRecordValue | src/hooks/useParseOccupationData.ts:69-71 | one record adds its value once per listing of the label |
| Totals.AccumulateValue | src/hooks/useParseOccupationData.ts:68-72 | after all records each label holds its column sum once per listing |
| Totals.CategoryTotals | src/hooks/useParseOccupationData.ts:63-72 | the totals object: a label listed `n` times totals `n` times its column sum |
| Totals.TotalOfSingleListing | src/hooks/useParseOccupationData.ts:63-72 | a label listed once totals its column sum |
| Totals.ColumnSumOfPivot | src/hooks/useParseOccupationData.ts:48-72 | over the pivot, a uniquely labelled row's column sum is the sum of its year cells |
| OccupationData.Treemap | src/hooks/useParseOccupationData.ts:74-77 | one treemap cell per vocabulary entry, in order, valued by the total |
| OccupationData.ParseOccupationData | src/hooks/useParseOccupationData.ts:37-79 | no output for an empty parse; else the vocabulary, the pivot and the treemap |
| OccupationData.TreemapCellIsRowTotal | src/hooks/useParseOccupationData.ts:63-77 | a treemap cell is the sum of its row's year cells, once per listing |
| OriginData.SortByTotalDesc | src/hooks/useParseOriginData.ts:73-76 | the model of `sort((a, b) => b.total - a.total)`; what it promises is stated by SortPermutes, SortIsDescending, SortKeepsTies and SortIsStableDescending |
| OriginData.SortPermutes | src/hooks/useParseOriginData.ts:73-76 | the sort rearranges the bars and nothing else |
| OriginData.SortIsDescending | src/hooks/useParseOriginData.ts:76 | the sort orders the bars by total, largest first |
| OriginData.SortKeepsTies | src/hooks/useParseOriginData.ts:76 | bars with equal totals keep their order |
| OriginData.SortIsStableDescending | src/hooks/useParseOriginData.ts:73-76 | the sort is a stable permutation into descending order |
| OriginData.Bars | src/hooks/useParseOriginData.ts:73-75 | one bar per region entry, in order, valued by the total |
| OriginData.ParseOriginData | src/hooks/useParseOriginData.ts:37-79 | no output for an empty parse; else the vocabulary, the pivot over every row and the sorted bars |
| OriginData.OriginBarsRanked | src/hooks/useParseOriginData.ts:73-76 | the published bars are the region bars, largest first, ties in vocabulary order |
| OriginData.BarIsRowTotal | src/hooks/useParseOriginData.ts:61-70 | a region's bar total is the sum of its row's year cells, once per listing |
| MajorDestination.ParseMajorDestinationData | src/hooks/useParseMajorDestinationData.ts:40-66 | no output for an empty parse; else the countries and one eleven-field record per row, in row order, each country's value the `parseInt` or 0 of its cell |
| MajorDestination.MajorDestinationReadsCells | src/hooks/useParseMajorDestinationData.ts:49-60 | a cell holding whitespace, a rendered number and a non-digit tail reads as that number; a cell without digits or a missing column reads 0; the rendered year reads back |
| AllDestination.Classify | src/hooks/useParseAllDestinationData.ts:50-66 | the tier is the highest whose inclusive threshold the total reaches |
| AllDestination.CountryEntry | src/hooks/useParseAllDestinationData.ts:34-68 | a row's entry keeps its country and the `parseInt` or 0 sum, with the tier's category and colour |
| AllDestination.ParseAllDestinationData | src/hooks/useParseAllDestinationData.ts:28-70 | no output for an empty parse; else one entry per row, summing the columns other than COUNTRY |
| AllDestination.ClassifyMonotone | src/hooks/useParseAllDestinationData.ts:50-66 | a larger total never gets a lower tier |
| AllDestination.ClassifyBoundaries | src/hooks/useParseAllDestinationData.ts:50-62 | each threshold is inclusive: one below it stays in the tier under it |
| AllDestination.ColorIdentifiesTier | src/hooks/useParseAllDestinationData.ts:50-66 | colours and categories identify the tier one to one |
| ProvinceName.LeadingSpaces | src/hooks/useParseOriginProvinceData.ts:8-9 | `\s*`: the longest whitespace prefix |
| ProvinceName.FirstClose | src/hooks/useParseOriginProvinceData.ts:8 | `[^)]*\)`: the first `)` |
| ProvinceName.ParenMatch | src/hooks/useParseOriginProvinceData.ts:8 | a match is never empty; without one, no `)` follows the opening `(` |
| ProvinceName.CollapseSpaces | src/hooks/useParseOriginProvinceData.ts:9 | the result is empty only for empty input, and starts with whitespace exactly when the input does |
| ProvinceName.StripParensNoGroup | src/hooks/useParseOriginProvinceData.ts:8 | no `(...)` group survives the parenthesis pass |
| ProvinceName.CollapseSingleSpaced | src/hooks/useParseOriginProvinceData.ts:9 | after collapsing, the only whitespace is single spaces |
| ProvinceName.NormalizeName | src/hooks/useParseOriginProvinceData.ts:4-10 | the model of `normalizeName`; what it promises is stated by NormalizeNameShape, NormalizeNameKeepsNormalized and NormalizeNameIdempotent |
| ProvinceName.NormalizeNameShape | src/hooks/useParseOriginProvinceData.ts:4-10 | a normalised name is upper-case, trimmed, single-spaced and free of `(...)` groups |
| ProvinceName.NormalizeNameKeepsNormalized | src/hooks/useParseOriginProvinceData.ts:4-10 | a name already in that shape is its own normal form |
| ProvinceName.NormalizeNameIdempotent | src/hooks/useParseOriginProvinceData.ts:4-10 | normalising twice is normalising once |
| ProvinceName.StripParensExample | src/hooks/useParseOriginProvinceData.ts:8 | "A (B) C" becomes "A C": the note and its surrounding whitespace become one space |
| ProvinceName.StripParensKeepsUnclosed | src/hooks/useParseOriginProvinceData.ts:8 | a `(` with no later `)` is kept |
| ProvinceName.ParenMatchExample | src/hooks/useParseOriginProvinceData.ts:8 | the match takes the leading space, the group and the trailing space |
| OriginProvince.PutLookup | src/hooks/useParseOriginProvinceData.ts:41 | `t[name] = sum` replaces the key's value and changes no other key |
| OriginProvince.PutKeys | src/hooks/useParseOriginProvinceData.ts:41 | `t[name] = sum` adds the key and no other |
| OriginProvince.SumExceptIsRowSum | src/hooks/useParseOriginProvinceData.ts:35-40 | skipping unparseable cells equals counting them as 0 |
| OriginProvince.ProvinceSumIsRowSum | src/hooks/useParseOriginProvinceData.ts:35-40 | a row's total is its `parseInt` or 0 sum over the keys other than PROVINCE and REGION |
| OriginProvince.ParseOriginProvinceData | src/hooks/useParseOriginProvinceData.ts:25-47 | the totals object of the rows, each summed over its own keys, with min and max attained and bounding every total, both 0 without totals |
| OriginProvince.ProvinceTotals | src/hooks/useParseOriginProvinceData.ts:29-42 | the model of the totals loop; what it promises is stated by ProvinceSumIsRowSum, ProvinceTotalsDistinct, ProvinceTotalsKeys, ProvinceTotalsNormalized and ProvinceTotalsLastRowWins |
| OriginProvince.ProvinceTotalsDistinct | src/hooks/useParseOriginProvinceData.ts:29-42 | no province name appears twice |
| OriginProvince.ProvinceTotalsKeys | src/hooks/useParseOriginProvinceData.ts:29-42 | a name is present exactly when some row normalises to it and it is not "NCR" |
| OriginProvince.ProvinceTotalsNormalized | src/hooks/useParseOriginProvinceData.ts:32 | every totals key is in normal form |
| OriginProvince.ProvinceTotalsLastRowWins | src/hooks/useParseOriginProvinceData.ts:41 | the last row with a name decides its total; totals are not added |
| OriginProvince.CollectLastWins | src/hooks/useParseOriginProvinceData.ts:29-42 | the last write to a key is the value read back |
| OriginProvince.ShortRowExample | src/hooks/useParseOriginProvinceData.ts:35-40 | under header PROVINCE,2019,2020 the line "Abra,5" totals 5 and "Aurora,1,2" totals 3 |
| Choropleth.TierIndex | src/components/charts/choroplethMap.tsx:19-23 | the index is 4/3/2/1/0 at the thresholds and lies in the colour domain 0..4 |
| Choropleth.NivoData | src/components/charts/choroplethMap.tsx:17-31 | one datum per country, total kept, id the ISO code or else the name |
| Choropleth.ScaleMatchesTiers | src/components/charts/choroplethMap.tsx:71-122 | the index is the hook's tier rank, the scale colour is the hook's colour, and the legend lists the same colours |
| Choropleth.NivoColorsMatchHook | src/components/charts/choroplethMap.tsx:18-31 | each country is painted with the colour the hook gave it |
| OriginChoropleth.Transform | src/components/charts/originChoropleth.tsx:21-29 | a missing collection gives no features; else one feature per province feature |
| OriginChoropleth.ProvincesAppend | src/components/charts/originChoropleth.tsx:22-25 | filtering a concatenation filters each part |
| OriginChoropleth.TransformKeepsProvinces | src/components/charts/originChoropleth.tsx:21-29 | exactly the province features, in order, fields kept, id the normalised PROVINCE |
| OriginChoropleth.TransformIdsNormalized | src/components/charts/originChoropleth.tsx:27 | every feature id is in normal form |
| OriginChoropleth.MapData | src/components/charts/originChoropleth.tsx:40-44 | one datum per totals entry |
| OriginChoropleth.MapDataMatchesTotals | src/components/charts/originChoropleth.tsx:40-44 | a datum named `k` with value `v` exists exactly when the totals hold `v` for `k`; value equals total |
| OriginChoropleth.ProvinceMapDistinct | src/components/charts/originChoropleth.tsx:40-44 | no province is drawn twice |
| OriginChoropleth.ProvinceMapNamed | src/components/charts/originChoropleth.tsx:40-44 | every datum is named after a row, in normal form, and never "NCR" |
| OriginChoropleth.DatumOfTotals | src/components/charts/originChoropleth.tsx:40-73 | with distinct names, a feature meets a datum exactly when its id is a totals name, and the datum shows the total stored under that name |
| OriginChoropleth.FeatureMeetsRow | src/components/charts/originChoropleth.tsx:21-73 | a province feature meets the datum named by its normalised PROVINCE name, which exists exactly when some row (not NCR) has that name, and shows the total stored under it |
| OriginCharts.RunLength | src/components/charts/originCharts.tsx:41 | the longest prefix in one character class |
| OriginCharts.Backtrack | src/components/charts/originCharts.tsx:41 | the greedy token with backtracking is never empty and never longer than allowed |
| OriginCharts.BacktrackIsMaximal | src/components/charts/originCharts.tsx:41 | backtracking never helps: the match takes the whole run when the dash follows it, else fails |
| OriginCharts.RegionTokenIsUpperRun | src/components/charts/originCharts.tsx:41 | the three alternatives capture the same token as `[A-Z]+` alone |
| OriginCharts.RegionMatch | src/components/charts/originCharts.tsx:41-44 | the captured token is non-empty and shorter than the name |
| OriginCharts.FirstAcronym | src/components/charts/originCharts.tsx:35 | the leftmost `(` + capitals + `)`; none before it |
| OriginCharts.AcronymText | src/components/charts/originCharts.tsx:35-37 | the captured acronym is a non-empty run of capitals |
| OriginCharts.ContainsFrom | src/components/charts/originCharts.tsx:47-51 | `includes` is true exactly when the pattern occurs |
| OriginCharts.Shorthand | src/components/charts/originCharts.tsx:33-56 | the model of `getRegionShorthand`; what it promises is stated by ShorthandNoLonger, ShorthandPrefersAcronym and ShorthandFallbacks |
| OriginCharts.ShorthandNoLonger | src/components/charts/originCharts.tsx:33-56 | a shorthand is never longer than the name |
| OriginCharts.ShorthandPrefersAcronym | src/components/charts/originCharts.tsx:35-38 | the leftmost parenthesised acronym wins over every other rule |
| OriginCharts.ShorthandFallbacks | src/components/charts/originCharts.tsx:40-55 | without an acronym: "Region X -" names give "Region X", then the IV A and IV B spellings are hyphenated, and any other name is kept |
| OriginCharts.YearTexts | src/components/charts/originCharts.tsx:30 | the year picker shows each record's year, in order |
| OriginCharts.IndexOf | src/components/charts/originCharts.tsx:61 | the first position holding a value |
| OriginCharts.FindYear | src/components/charts/originCharts.tsx:61 | the model of the `find` on `String(d.YEAR) === String(selectedYear)`; what it promises is stated by YearTextInjective, SingleYearIsValueAt and OfferedYearsHaveData |
| OriginCharts.YearTextInjective | src/components/charts/originCharts.tsx:61 | two years render equally exactly when they are equal |
| OriginCharts.SingleYearData | src/components/charts/originCharts.tsx:58-69 | nothing for "All Years" or an unknown year; else one bar per configured region, in order, with its shorthand |
| OriginCharts.SingleYearIsValueAt | src/components/charts/originCharts.tsx:61-68 | picking a year shows each region's value in the first record of that year |
| OriginCharts.OfferedYearsHaveData | src/components/charts/originCharts.tsx:30-68 | every year the picker offers shows one bar per configured region |
| OriginCharts.Toggle | src/components/charts/originCharts.tsx:72-76 | toggling flips the region's membership and keeps every other region's |
| OriginCharts.ToggleTwice | src/components/charts/originCharts.tsx:72-76 | toggling an unselected region twice restores the selection |
| OriginCharts.WithShorthand | src/components/charts/originCharts.tsx:101-104 | one labelled bar per bar |
| OriginCharts.WithShorthandKeepsBars | src/components/charts/originCharts.tsx:101-104 | dropping the label gives back the bars in order |
| PredictionCharts.Features | src/components/charts/predictionCharts.tsx:45-48 | no features without history; else the first record's keys other than "Year", in their order and with their repetitions |
| PredictionCharts.HistoricalPoints | src/components/charts/predictionCharts.tsx:52-55 | each record kept, flagged as history |
| PredictionCharts.PredictedPoints | src/components/charts/predictionCharts.tsx:57-61 | each prediction flagged as predicted, with its fields other than "Year" |
| PredictionCharts.Combined | src/components/charts/predictionCharts.tsx:51-64 | history then predictions; a point is a prediction exactly when it comes after the history |
| PredictionCharts.PredictedYear | src/components/charts/predictionCharts.tsx:58 | a prediction without a "Year" field sits at its own year |
| PredictionCharts.CombinedSplits | src/components/charts/predictionCharts.tsx:90-91 | filtering by the flag gives back the history and the predictions |
| PredictionCharts.LastHistoricalYear | src/components/charts/predictionCharts.tsx:67-70 | null without history; else the latest historical year |
| PredictionCharts.YearRange | src/components/charts/predictionCharts.tsx:73-79 | (0, 0) for an empty series; else the earliest and latest years |
| PredictionCharts.RangeSpansLastHistorical | src/components/charts/predictionCharts.tsx:67-79 | the title's range contains the reference line |
| PredictionCharts.NoDataWithoutHistory | src/components/charts/predictionCharts.tsx:81 | without history the chart shows "No data" |
| PredictionCharts.Bridge | src/components/charts/predictionCharts.tsx:94-96 | with a truthy last year, the positionally last historical point then the predictions; else the predictions |
| PredictionCharts.BridgeStartsAtReferenceLine | src/components/charts/predictionCharts.tsx:67-96 | with history in year order the bridge point is at the reference line |
| PredictionCharts.BridgeFollowsPosition | src/components/charts/predictionCharts.tsx:94-96 | out of year order the bridge point is not at the reference line |
| PredictionCharts.SummaryColumns | src/components/charts/predictionCharts.tsx:207 | the first six features at most, as a prefix |
| PredictionCharts.MoreColumn | src/components/charts/predictionCharts.tsx:212-213 | a "+k more" column exactly with more than six features |
| PredictionCharts.MoreLabelReadsBack | src/components/charts/predictionCharts.tsx:213 | "+k more" reads back as `k` |
| PredictionCharts.SummaryAccountsForAll | src/components/charts/predictionCharts.tsx:207-213 | shown columns plus the hidden count equal the feature count |
| PredictionCharts.SummaryRowOf | src/components/charts/predictionCharts.tsx:218-226 | a row has the prediction's year, one cell per shown column (absent values as "-") and the "..." cell with hidden columns |
| Auth.HasPermission | src/context/authContext.tsx:178-182 | false without a profile or for a role the table lacks |
| Auth.HasRole | src/context/authContext.tsx:167-175 | false without a profile; an array means membership, one role means equality |
| Auth.HasRoleSingleton | src/context/authContext.tsx:167-175 | asking with a one-element array is asking for that role |
| Auth.Permissions | src/context/authContext.tsx:46-50 | the model of `rolePermissions[role]`, empty for a role the table does not name; what it promises is stated by PermissionsByRank and PermissionsNested |
| Auth.PermissionsByRank | src/context/authContext.tsx:46-50 | a profile has a permission exactly when its role ranks at least as high as the permission needs |
| Auth.PermissionsNested | src/context/authContext.tsx:46-50 | viewer's permissions are editor's, editor's are admin's; delete and manage_users are admin's alone |
| Auth.StoredRole | src/context/authContext.tsx:66 | a missing or empty stored role becomes "viewer" |
| Auth.FetchProfile | src/context/authContext.tsx:58-77 | no profile without a document; else the stored email and display name with the given uid, the stored role when non-empty and "viewer" otherwise |
| Auth.SignUpProfile | src/context/authContext.tsx:80-91 | a new profile keeps the account's uid and email, is a viewer, and takes the given non-empty display name, else the account's non-empty one, else none |
| Auth.DefaultRoleOnlyReads | src/context/authContext.tsx:66 | a new account and a roleless stored profile may only read |
| ManageData.StringLeTotal | src/routes/manageData.tsx:37 | the default string order is total |
| ManageData.StringLeTransitive | src/routes/manageData.tsx:37 | the default string order is transitive |
| ManageData.Insert | src/routes/manageData.tsx:37 | insertion adds exactly one element |
| ManageData.Sort | src/routes/manageData.tsx:37 | `sort()` keeps every key, as often as it occurs |
| ManageData.SortSorted | src/routes/manageData.tsx:37 | `sort()` orders the keys |
| ManageData.OrderedColumns | src/routes/manageData.tsx:28-38 | no columns without data; a non-empty predefined order verbatim; else the first record's keys other than "Year" |
| ManageData.DynamicColumns | src/routes/manageData.tsx:36-37 | without an order: sorted, no "Year", every other key as often as in the first record |
| ManageData.PageAllowedRoles | src/routes/manageData.tsx:465 | the page, closed without a profile or `canEdit`, is open to editors and admins only |
| ManageData.DeleteAllOnlyAdmin | src/routes/manageData.tsx:504-515 | delete-all is offered only to an admin with data |
| ManageData.OnYearChange | src/routes/manageData.tsx:214-218 | empty input clears the field and any other input stores its parsed value (`NaN` included); a check starts exactly for a parsed year above 0 |
| ManageData.CheckOnlyForEntered | src/routes/manageData.tsx:214-218 | a check only runs for an entered year |
| ManageData.AddEnabledExactly | src/routes/manageData.tsx:644 | add is enabled exactly when a year is entered, nothing is checking or loading, and the year is not known to exist |
| ManageData.AddNewYear | src/routes/manageData.tsx:242-252 | no year is invalid; an existing year is refused with its message; any other is added |
| ManageData.NeverAddsExisting | src/routes/manageData.tsx:248-252 | an existing year is never added |
| ManageData.NegativeYearAdded | src/routes/manageData.tsx:214-252 | "-5" starts no check, enables the button and is added |
| Register.HandleSubmit | src/routes/register.tsx:20-37 | sign-up is called, with the error cleared, only when the checks pass; otherwise an error is shown |
| Register.SubmitReportsFirstProblem | src/routes/register.tsx:22-32 | the handler reports the first broken rule and signs up exactly when none is broken |
| Register.SignUpExactlyWhenValid | src/routes/register.tsx:24-37 | sign-up exactly for matching passwords of six or more characters; a mismatch is reported first |
| Register.LengthBoundary | src/routes/register.tsx:29-32 | six characters pass, five do not |
| Register.SignUpError | src/routes/register.tsx:40 | a failed sign-up shows its message, or the fallback when it has none |
| TabLabels.ReplaceFirst | src/components/chartTabs.tsx:12 | `replace('_', ' ')` keeps the length |
| TabLabels.CapitalizeWords | src/components/chartTabs.tsx:12 | `\b\w` upper-casing keeps the length, upper-cases every word start and leaves every other character unchanged |
| TabLabels.FormatChartName | src/components/chartTabs.tsx:11-13 | the label is as long as the key |
| TabLabels.ChartNameOneWord | src/components/chartTabs.tsx:11-13 | a lower-case word without underscore is labelled with its first letter upper-cased |
| TabLabels.ChartNameSplit | src/components/chartTabs.tsx:11-13 | "a_b" for lower-case words is labelled "A B", each word with its first letter upper-cased |
| TabLabels.ChartNameRoundTrip | src/components/chartTabs.tsx:11-13 | lower-casing the label and turning spaces back into underscores gives the snake_case key |
| TabLabels.ChartNameFirstUnderscore | src/components/chartTabs.tsx:12 | only the first underscore becomes a space; later ones remain |
| TabLabels.SpaceBeforeCapitals | src/components/dataTypeTabs.tsx:14 | never shortens the key; the first character is kept or, for a capital, preceded by a space; every capital of the result follows a space |
| TabLabels.SpaceBeforeCapitalsAppend | src/components/dataTypeTabs.tsx:14 | a further character is appended as is, after a space when it is a capital |
| TabLabels.SpaceBeforeCapitalsUnspaced | src/components/dataTypeTabs.tsx:14 | the pass only inserts spaces |
| TabLabels.CapitalizeFirst | src/components/dataTypeTabs.tsx:15 | `^.` upper-cases the first character unless it is a line break, and changes nothing else |
| TabLabels.FormatDataTypeName | src/components/dataTypeTabs.tsx:11-17 | the model of `formatDataTypeName`; what it promises is stated by DataTypeNameExact and DataTypeNameRoundTrip |
| TabLabels.DataTypeNameRoundTrip | src/components/dataTypeTabs.tsx:11-17 | a camelCase key's label is its upper-cased first letter followed by the spaced rest; removing the spaces gives the key with its first letter upper-cased |
| TabLabels.DataTypeNameExact | src/components/dataTypeTabs.tsx:11-17 | the label of a camelCase key is its upper-cased first letter followed by the rest with a space before each capital |

## Left out

- CSV download and tokenising, React state, effects and rendering, and Firebase Auth/Firestore calls are not modelled. The hooks are modelled from the parsed rows on. The store's answers (profile document, year existence) are parameters.
- The prediction service and the prediction page's fetching are left out: they are network I/O.
- The least-squares fit of the sex hook is left out because it is floating point. `SexData.Trend` takes slope and intercept as real parameters.
- Prediction values are modelled as integers; in the source they are floating point.
- `parseFloat` form inputs are left out (floating point).
- `toLocaleString` is left out. The summary row keeps the number a cell shows, not its formatting.
- Colours used only for drawing, tooltips and axis formatting are left out.
- Header order is an input. `Object.keys` lists integer-like keys first in ascending order; the model takes the order as given.
- Objects built by assignment keep insertion order for every key in the model. JavaScript lists integer-like keys (such as "2019") first, in ascending order, and only then the others in insertion order. So `OriginProvince.ProvinceTotals`, and the `OriginChoropleth.MapData` built from it, give the JavaScript order only when no province name is integer-like; the totals' values and key set do not depend on the order.
- A category label equal to the record's own field name is not modelled: `Year` in the age and occupation pivots, `YEAR` in the origin pivot, `Period` in the period records. In the source, such a row's assignment overwrites that field, so `find` then compares against the row's cell, or the period label is replaced. The model keeps the year and the period label apart from the category values.
- The year field calls `parseInt(value)` without a radix; the model reads it as `parseInt(value, 10)`. The two differ only on "0x" text, which the `type="number"` input (src/routes/manageData.tsx:555) does not produce.
- `toIso3` and `COLUMN_ORDERS` are parameters; `src/utils/countryMapping` and `src/utils/columnOrders` are not part of this model.
- The year filter that the choropleth components pass to their hooks is not modelled; the hook versions modelled here take no year.
- The GeoJSON loader is not modelled; features are given directly.
- Whitespace, letter case and `\w` are ASCII only. Password length counts characters, not UTF-16 code units.
- Names of `Object.prototype` members (such as "constructor", "toString", "__proto__") are not modelled, whether as roles, CSV headers or row labels. A role the table does not name has no permissions. In the source, a header or label "__proto__" is dropped on assignment (src/hooks/useParseAgeData.ts:53, src/hooks/useParseCivilStatusData.ts:98), so the records lack a field the model gives them.
- CivilStatus.CivilUnknownCategoryIsZero: holds only for a header that is not the name of an `Object.prototype` member. For "constructor" or "toString" the record lookup reads the inherited function, which is truthy, so `sum +=` makes the period value a string (src/hooks/useParseCivilStatusData.ts:93-94).
- SexData.SexUnknownCategoryIsZero: holds only for a header that is not the name of an `Object.prototype` member; for "constructor" or "toString" the inherited function is added to the sum (src/hooks/useParseSexData.ts:119-120).
- The initial `selectedRegions` effect of the origin page is not modelled; `Toggle` starts from any selection.
- The sign-up call's effects (account creation, navigation, loading flag) are not modelled. `Register.HandleSubmit` stops at the arguments of the call, and `Register.SignUpError` gives the message shown when it throws.
- The profile's creation date is not modelled.
- Loading available columns and the `parseFloat` field edits of the data manager are not modelled.
- TabLabels.FormatChartName: its contract states only that the label is as long as the key. The exact label of a key of one or two lower-case words is stated by `TabLabels.ChartNameOneWord` and `TabLabels.ChartNameSplit`.
- TabLabels.ChartNameRoundTrip: compares the label with the key up to letter case. The exact label is stated by `TabLabels.ChartNameSplit`.
- TabLabels.DataTypeNameRoundTrip: its second clause compares the label with the key up to spaces; its first clause gives the exact label.
- JsNumber.ParseIntRoundTrip: integers are unbounded. JavaScript numbers are doubles, exact only up to 2^53 in magnitude, and `String(n)` switches to exponent notation from 1e21, so the round trip holds in the source only for integers in that range; the counts the dashboard reads are far inside it.
- OriginProvince.ParseOriginProvinceData: each row's keys are an input. The parser lists a short line's header fields only up to its last cell, and gives a long line an extra-fields key whose array value `parseInt` reads through its comma-joined text; the model takes that text as the cell.
- SexData.Pyramid: reads a missing MALE or FEMALE field as 0. In the source both fields always exist, since every period starts them at 0.
- OriginCharts.Backtrack: its contract bounds the length. That the dash accepts the length is stated by `OriginCharts.BacktrackIsMaximal`.
- ManageData.NegativeYearAdded: records that a negative year passes the add path. This is the page's behaviour as written and is not treated as a defect.

=== FILE: age_data.dfy ===
/** The age hook: one CSV row per age group with one column per year is
    pivoted into one record per year, then grouped into the eight 5-year
    periods 1981-1985 ... 2016-2020 for the stacked bar chart. */
module AgeData {
  import opened Basics
  import opened JsNumber
  import opened Table
  import opened Periods

  const AgeGroupColumn := "AGE_GROUP"
  const StartYear := 1981
  const EndYear := 2020
  const PeriodLength := 5

  /** What the hook publishes: the pivoted records, the period records and
      the age-group vocabulary. */
  datatype AgeData = AgeData(chartData: seq<YearRecord>, groupedChartData: seq<Period>, ageGroups: seq<string>)

  /** The grouping step: fixed 5-year periods from 1981 to 2020 over the
      pivoted records, one sum per age group. */
  function AgePeriods(records: seq<YearRecord>, groups: seq<string>): seq<Period>
  {
    Aggregate(records, groups, map[], StartYear, EndYear, PeriodLength)
  }

  /** The `complete` callback of the age hook. `None` is the early return on
      an empty parse, which publishes nothing. */
  function ParseAgeData(t: Table): (r: Option<AgeData>)
    ensures r.None? <==> |t.rows| == 0
    ensures r.Some? ==> r.value.ageGroups == Vocabulary(t.rows, AgeGroupColumn)
    ensures r.Some? ==> r.value.chartData == Pivot(t, AgeGroupColumn, SkipBlank)
    ensures r.Some? ==> r.value.groupedChartData == AgePeriods(r.value.chartData, r.value.ageGroups)
  {
    if |t.rows| == 0 then None
    else
      var groups := Vocabulary(t.rows, AgeGroupColumn);
      var records := Pivot(t, AgeGroupColumn, SkipBlank);
      Some(AgeData(records, AgePeriods(records, groups), groups))
  }

  /** The grouped records: exactly eight, labelled "1981 - 1985" through
      "2016 - 2020"; period `i` covers the years `1981 + 5i .. 1985 + 5i`. */
  lemma AgePeriodLabels(records: seq<YearRecord>, groups: seq<string>)
    ensures var ps := AgePeriods(records, groups);
      && |ps| == 8
      && ps[0].periodLabel == "1981 - 1985"
      && ps[7].periodLabel == "2016 - 2020"
      && (forall i :: 0 <= i < 8 ==> ps[i].periodLabel == Label(1981 + 5 * i, 1985 + 5 * i))
  {
    FiveYearBounds();
    FiveYearLabels();
  }

  /** Every period has exactly the age groups as fields. */
  lemma AgePeriodKeys(records: seq<YearRecord>, groups: seq<string>)
    ensures var ps := AgePeriods(records, groups);
      forall i :: 0 <= i < |ps| ==> ps[i].values.Keys == set g | g in groups
  {
  }

  /** Period `i` holds, for every age group, the sum of that group over the
      years `1981 + 5i .. 1985 + 5i`. */
  lemma AgePeriodSums(records: seq<YearRecord>, groups: seq<string>)
    ensures var ps := AgePeriods(records, groups);
      && |ps| == 8
      && (forall i, g :: 0 <= i < 8 && g in groups ==> ValueOr0(ps[i].values, g) == SumYears(records, g, 1981 + 5 * i, 1985 + 5 * i))
  {
    var ps := AgePeriods(records, groups);
    FiveYearBounds();
    AggregateSums(records, groups, map[], StartYear, EndYear, PeriodLength);
    forall i, g | 0 <= i < 8 && g in groups
      ensures ValueOr0(ps[i].values, g) == SumYears(records, g, 1981 + 5 * i, 1985 + 5 * i)
    {
      assert Bounds(StartYear, EndYear, PeriodLength)[i] == (1981 + 5 * i, 1985 + 5 * i);
    }
  }

  /** Conservation for the age chart: with distinct years, an age group's
      period values add up to its sum over the records dated 1981..2020;
      records of other years are ignored. */
  lemma AgePeriodsConserve(records: seq<YearRecord>, groups: seq<string>, g: string)
    requires DistinctYears(records) && g in groups
    ensures PeriodsTotal(AgePeriods(records, groups), g) == RecordsSum(records, g, StartYear, EndYear)
  {
    AggregateConservesRecords(records, groups, map[], StartYear, EndYear, PeriodLength, g);
  }
}

=== FILE: all_destination.dfy ===
/** The all-destination hook: every country row is totalled over the year
    columns and classified into one of five concentration tiers, each with a
    fixed label and map colour. */
module AllDestination {
  import opened Basics
  import opened Table
  import opened Totals

  const CountryColumn := "COUNTRY"

  /** The concentration tiers, lowest first. */
  datatype Tier = Nil | Slight | Moderate | Significant | Extreme

  /** Position of a tier from 0 (Nil) to 4 (Extreme). */
  function Rank(t: Tier): nat
  {
    match t
    case Nil => 0
    case Slight => 1
    case Moderate => 2
    case Significant => 3
    case Extreme => 4
  }

  /** The smallest total a tier admits (lower bounds are inclusive). */
  function Threshold(t: Tier): int
    requires t != Nil
  {
    match t
    case Slight => 10000
    case Moderate => 100000
    case Significant => 500000
    case Extreme => 1000000
  }

  /** The next tier up. */
  function Up(t: Tier): Tier
    requires t != Extreme
  {
    match t
    case Nil => Slight
    case Slight => Moderate
    case Moderate => Significant
    case Significant => Extreme
  }

  function Category(t: Tier): string
  {
    match t
    case Extreme => "Extreme Concentration"
    case Significant => "Significant Concentration"
    case Moderate => "Moderate Concentration"
    case Slight => "Slight Concentration"
    case Nil => "Nil Concentration"
  }

  function Color(t: Tier): string
  {
    match t
    case Extreme => "#5EEAD4"
    case Significant => "#2DD4BF"
    case Moderate => "#0D9488"
    case Slight => "#155E75"
    case Nil => "#1E293B"
  }

  /** The if/else-if ladder: the highest tier whose threshold the total
      reaches. */
  function Classify(total: int): (r: Tier)
    ensures r != Nil ==> total >= Threshold(r)
    ensures r != Extreme ==> total < Threshold(Up(r))
  {
    if total >= 1000000 then Extreme
    else if total >= 500000 then Significant
    else if total >= 100000 then Moderate
    else if total >= 10000 then Slight
    else Nil
  }

  /** One classified country. `country` is `None` when the row has no
      COUNTRY cell. */
  datatype CountryData = CountryData(country: Option<string>, total: int, category: string, color: string)

  /** The totalling and classification of one row. */
  function CountryEntry(row: Row, yearCols: seq<string>): (r: CountryData)
    ensures r.country == Cell(row, CountryColumn) && r.total == RowSum(row, yearCols)
    ensures r.category == Category(Classify(r.total)) && r.color == Color(Classify(r.total))
  {
    var total := RowSum(row, yearCols);
    var tier := Classify(total);
    CountryData(Cell(row, CountryColumn), total, Category(tier), Color(tier))
  }

  /** The `complete` callback; `None` is the early return on an empty parse.
      The summed columns are the first row's keys other than COUNTRY. */
  function ParseAllDestinationData(t: Table): (r: Option<seq<CountryData>>)
    ensures r.None? <==> |t.rows| == 0
    ensures r.Some? ==> |r.value| == |t.rows|
    ensures r.Some? ==> forall i :: 0 <= i < |t.rows| ==> r.value[i] == CountryEntry(t.rows[i], Without(t.keys, CountryColumn))
  {
    if |t.rows| == 0 then None
    else
      var cols := Without(t.keys, CountryColumn);
      Some(seq(|t.rows|, i requires 0 <= i < |t.rows| => CountryEntry(t.rows[i], cols)))
  }

  /** The classification is monotone: a larger total never lands in a lower
      tier. */
  lemma ClassifyMonotone(a: int, b: int)
    requires a <= b
    ensures Rank(Classify(a)) <= Rank(Classify(b))
  {
  }

  /** The tier boundaries, each lower bound inclusive. */
  lemma ClassifyBoundaries()
    ensures Classify(999999) == Significant && Classify(1000000) == Extreme
    ensures Classify(499999) == Moderate && Classify(500000) == Significant
    ensures Classify(99999) == Slight && Classify(100000) == Moderate
    ensures Classify(9999) == Nil && Classify(10000) == Slight
  {
  }

  /** Tiers and colours correspond one to one, so a colour identifies the
      tier and with it the category. */
  lemma ColorIdentifiesTier(s: Tier, t: Tier)
    ensures Color(s) == Color(t) <==> s == t
    ensures Category(s) == Category(t) <==> s == t
  {
  }
}

=== FILE: auth.dfy ===
/** The access rules of the authentication context: the fixed role to
    permission table, the two checks the pages call, and the role a profile
    gets when none is stored and when an account is created. */
module Auth {
  import opened Basics

  const Admin := "admin"
  const Editor := "editor"
  const Viewer := "viewer"

  const Read := "read"
  const Write := "write"
  const Delete := "delete"
  const ManageUsers := "manage_users"
  const UploadData := "upload_data"

  /** `rolePermissions`: the table's entry for a role, `None` for a role
      the table does not name. */
  function RolePermissions(role: string): Option<seq<string>>
  {
    if role == Admin then Some([Read, Write, Delete, ManageUsers, UploadData])
    else if role == Editor then Some([Read, Write, UploadData])
    else if role == Viewer then Some([Read])
    else None
  }

  /** `rolePermissions[role] || []`. */
  function Permissions(role: string): seq<string>
  {
    RolePermissions(role).GetOr([])
  }

  /** The signed-in user's profile. The role is a string as stored, so it
      may be one the table does not name; the creation date is not
      modelled. */
  datatype Profile = Profile(uid: string, email: string, role: string, displayName: Option<string>)

  /** `hasPermission`: false without a profile, else whether the role's
      permissions include `permission`. */
  function HasPermission(profile: Option<Profile>, permission: string): (b: bool)
    ensures profile.None? ==> !b
    ensures profile.Some? && RolePermissions(profile.value.role).None? ==> !b
  {
    match profile
    case None => false
    case Some(p) => permission in Permissions(p.role)
  }

  /** The argument of `hasRole`: one role, or an array of roles. */
  datatype RoleQuery = One(role: string) | AnyOf(roles: seq<string>)

  /** `hasRole`: false without a profile; an array asks for membership,
      a single role for equality. */
  function HasRole(profile: Option<Profile>, q: RoleQuery): (b: bool)
    ensures profile.None? ==> !b
    ensures profile.Some? && q.One? ==> (b <==> profile.value.role == q.role)
    ensures profile.Some? && q.AnyOf? ==> (b <==> exists i :: 0 <= i < |q.roles| && q.roles[i] == profile.value.role)
  {
    match profile
    case None => false
    case Some(p) =>
      match q
      case One(r) => p.role == r
      case AnyOf(rs) => p.role in rs
  }

  /** Asking for a one-element array is asking for that role. */
  lemma HasRoleSingleton(profile: Option<Profile>, r: string)
    ensures HasRole(profile, AnyOf([r])) == HasRole(profile, One(r))
  {
  }

  /** The rank of a role in the hierarchy, 0 for a role outside it. */
  function Rank(role: string): nat
  {
    if role == Admin then 3 else if role == Editor then 2 else if role == Viewer then 1 else 0
  }

  /** The least rank holding a permission, 0 for a permission nobody holds. */
  function Required(permission: string): nat
  {
    if permission == Read then 1
    else if permission == Write || permission == UploadData then 2
    else if permission == Delete || permission == ManageUsers then 3
    else 0
  }

  /** The table is a hierarchy: a profile has a permission exactly when its
      role ranks at least as high as the permission requires, and unknown
      permissions are held by no one. */
  lemma PermissionsByRank(profile: Option<Profile>, permission: string)
    ensures HasPermission(profile, permission) <==>
              profile.Some? && 0 < Required(permission) <= Rank(profile.value.role)
  {
  }

  /** Nesting: whatever a viewer may do an editor may do, and whatever an
      editor may do an admin may do; delete and manage_users are the
      admin's alone. */
  lemma PermissionsNested(permission: string, role: string)
    ensures permission in Permissions(Viewer) ==> permission in Permissions(Editor)
    ensures permission in Permissions(Editor) ==> permission in Permissions(Admin)
    ensures (permission == Delete || permission == ManageUsers) ==>
              (permission in Permissions(role) <==> role == Admin)
  {
  }

  /** A stored profile document; its role may be missing or empty. */
  datatype StoredProfile = StoredProfile(email: string, role: Option<string>, displayName: Option<string>)

  /** `data.role || 'viewer'`. */
  function StoredRole(role: Option<string>): (r: string)
    ensures r != ""
    ensures role.Some? && role.value != "" ==> r == role.value
    ensures role.None? || role.value == "" ==> r == Viewer
  {
    match role
    case None => Viewer
    case Some(s) => if s == "" then Viewer else s
  }

  /** `fetchUserProfile`: no profile when the document does not exist,
      else the stored fields with the role defaulted. A read that fails is
      the same as a missing document. */
  function FetchProfile(uid: string, stored: Option<StoredProfile>): (r: Option<Profile>)
    ensures r.None? <==> stored.None?
    ensures r.Some? ==> r.value.uid == uid && r.value.email == stored.value.email
                        && r.value.displayName == stored.value.displayName
    ensures r.Some? ==> r.value.role == StoredRole(stored.value.role)
    ensures r.Some? && stored.value.role.Some? && stored.value.role.value != "" ==> r.value.role == stored.value.role.value
    ensures r.Some? && (stored.value.role.None? || stored.value.role.value == "") ==> r.value.role == Viewer
  {
    match stored
    case None => None
    case Some(d) => Some(Profile(uid, d.email, StoredRole(d.role), d.displayName))
  }

  /** `createUserProfile(user, displayName, 'viewer')` as `signUp` calls it:
      the given display name, else the account's own, else none. */
  function SignUpProfile(uid: string, email: string, displayName: Option<string>, accountName: Option<string>): (r: Profile)
    ensures r.uid == uid && r.email == email && r.role == Viewer
    ensures displayName.Some? && displayName.value != "" ==> r.displayName == displayName
    ensures !(displayName.Some? && displayName.value != "") && accountName.Some? && accountName.value != "" ==>
              r.displayName == accountName
    ensures !(displayName.Some? && displayName.value != "") && !(accountName.Some? && accountName.value != "") ==>
              r.displayName.None?
  {
    var name := if displayName.Some? && displayName.value != "" then displayName
                else if accountName.Some? && accountName.value != "" then accountName
                else None;
    Profile(uid, email, Viewer, name)
  }

  /** A new account and a stored profile without a role may only read. */
  lemma DefaultRoleOnlyReads(uid: string, email: string, displayName: Option<string>, accountName: Option<string>,
                             doc: StoredProfile, permission: string)
    requires doc.role.None? || doc.role == Some("")
    ensures HasPermission(Some(SignUpProfile(uid, email, displayName, accountName)), permission) <==> permission == Read
    ensures HasPermission(FetchProfile(uid, Some(doc)), permission) <==> permission == Read
  {
    PermissionsByRank(Some(SignUpProfile(uid, email, displayName, accountName)), permission);
    PermissionsByRank(FetchProfile(uid, Some(doc)), permission);
  }
}

=== FILE: basics.dfy ===
/** Small value types and ASCII string helpers shared by every module of the
    model: the optional value JavaScript expresses with `undefined`/`null`/`NaN`,
    the character classes of JavaScript's `\s` and `\w` restricted to ASCII,
    and sums over sequences. */
module Basics {

  datatype Option<+T> = None | Some(value: T) {
    /** The value, or `default` when absent (JavaScript's `x || default`
        for a value that can only be falsy when absent). */
    function GetOr(default: T): T {
      match this
      case Some(v) => v
      case None => default
    }
  }

  /** JavaScript's `\s` and the characters `trim()` removes, restricted to ASCII. */
  predicate IsSpace(c: char) {
    c == ' ' || c == '\t' || c == '\n' || c == '\r' || c == '\U{B}' || c == '\U{C}'
  }

  predicate IsDigit(c: char) { '0' <= c <= '9' }
  predicate IsUpper(c: char) { 'A' <= c <= 'Z' }
  predicate IsLower(c: char) { 'a' <= c <= 'z' }

  /** JavaScript's `\w`: `[A-Za-z0-9_]`. */
  predicate IsWordChar(c: char) { IsUpper(c) || IsLower(c) || IsDigit(c) || c == '_' }

  /** `toUpperCase` on one ASCII character. */
  function UpperChar(c: char): (r: char)
    ensures !IsLower(r)
    ensures IsLower(c) ==> IsUpper(r)
    ensures !IsLower(c) ==> r == c
  {
    if IsLower(c) then (c as int - 32) as char else c
  }

  /** `toUpperCase` on an ASCII string. */
  function ToUpper(s: string): (r: string)
    ensures |r| == |s|
    ensures forall i :: 0 <= i < |s| ==> r[i] == UpperChar(s[i])
  {
    if |s| == 0 then "" else [UpperChar(s[0])] + ToUpper(s[1..])
  }

  /** Drops leading whitespace. */
  function TrimStart(s: string): (r: string)
    ensures |r| <= |s| && r == s[|s| - |r|..]
    ensures |r| > 0 ==> !IsSpace(r[0])
    ensures forall i :: 0 <= i < |s| - |r| ==> IsSpace(s[i])
  {
    if |s| > 0 && IsSpace(s[0]) then TrimStart(s[1..]) else s
  }

  /** Drops trailing whitespace. */
  function TrimEnd(s: string): (r: string)
    ensures |r| <= |s| && r == s[..|r|]
    ensures |r| > 0 ==> !IsSpace(r[|r| - 1])
    ensures forall i :: |r| <= i < |s| ==> IsSpace(s[i])
  {
    if |s| > 0 && IsSpace(s[|s| - 1]) then TrimEnd(s[..|s| - 1]) else s
  }

  /** `r` is the infix of `s` at `a` and only whitespace lies around it. */
  predicate InfixAt(s: string, r: string, a: nat)
  {
    a + |r| <= |s| && r == s[a..a + |r|]
    && (forall i :: 0 <= i < a ==> IsSpace(s[i]))
    && (forall i :: a + |r| <= i < |s| ==> IsSpace(s[i]))
  }

  /** JavaScript's `trim()` (ASCII whitespace): the infix of `s` left when
      the whitespace at both ends is removed. */
  function Trim(s: string): (r: string)
    ensures |r| > 0 ==> !IsSpace(r[0]) && !IsSpace(r[|r| - 1])
    ensures exists a :: InfixAt(s, r, a)
  {
    var t := TrimStart(s);
    var r := TrimEnd(t);
    assert InfixAt(s, r, |s| - |t|) by {
      assert s[|s| - |t|..][..|r|] == s[|s| - |t|..|s| - |t| + |r|];
      forall i | |s| - |t| + |r| <= i < |s| ensures IsSpace(s[i]) {
        assert s[i] == t[i - (|s| - |t|)];
      }
    }
    r
  }

  /** `xs.filter(x => x !== k)`. */
  function Without(xs: seq<string>, k: string): (r: seq<string>)
    ensures k !in r
    ensures forall x :: x in r <==> x in xs && x != k
    ensures |r| <= |xs|
  {
    if |xs| == 0 then []
    else if xs[0] == k then Without(xs[1..], k)
    else [xs[0]] + Without(xs[1..], k)
  }

  /** `filter` with the predicate `x !== k`. */
  function IsNot(k: string): string -> bool
  {
    x => x != k
  }

  /** `Without` is the JavaScript filter: it keeps the other keys in their
      order, each as often as it occurs. */
  lemma {:induction false} WithoutIsFilter(xs: seq<string>, k: string)
    ensures Without(xs, k) == Filter(xs, IsNot(k))
  {
    if |xs| > 0 {
      WithoutIsFilter(xs[1..], k);
    }
  }

  /** Appending a key appends it to the result unless it is `k`. */
  lemma WithoutAppend(xs: seq<string>, x: string, k: string)
    ensures Without(xs + [x], k) == Without(xs, k) + (if x == k then [] else [x])
  {
    WithoutIsFilter(xs + [x], k);
    WithoutIsFilter(xs, k);
    FilterAppend(xs, [x], IsNot(k));
    assert Filter([x], IsNot(k)) == (if x == k then [] else [x]) + Filter([x][1..], IsNot(k));
  }

  /** Every key other than `k` keeps its number of occurrences; `k` has
      none. */
  lemma {:induction false} WithoutCounts(xs: seq<string>, k: string)
    ensures forall x :: x != k ==> multiset(Without(xs, k))[x] == multiset(xs)[x]
    ensures multiset(Without(xs, k))[k] == 0
  {
    if |xs| > 0 {
      WithoutCounts(xs[1..], k);
      assert xs == [xs[0]] + xs[1..];
    }
  }

  /** Number of occurrences of `x` in `xs`. */
  function Count<T(==)>(xs: seq<T>, x: T): nat
  {
    if |xs| == 0 then 0 else Count(xs[..|xs| - 1], x) + (if xs[|xs| - 1] == x then 1 else 0)
  }

  /** Sum of a sequence of integers, left to right. */
  function Sum(xs: seq<int>): int
  {
    if |xs| == 0 then 0 else Sum(xs[..|xs| - 1]) + xs[|xs| - 1]
  }

  /** Largest element of a non-empty sequence (`Math.max(...xs)`). */
  function Max(xs: seq<int>): (m: int)
    requires |xs| > 0
    ensures m in xs
    ensures forall i :: 0 <= i < |xs| ==> xs[i] <= m
  {
    if |xs| == 1 then xs[0]
    else var m' := Max(xs[1..]); if xs[0] >= m' then xs[0] else m'
  }

  /** Smallest element of a non-empty sequence (`Math.min(...xs)`). */
  function Min(xs: seq<int>): (m: int)
    requires |xs| > 0
    ensures m in xs
    ensures forall i :: 0 <= i < |xs| ==> m <= xs[i]
  {
    if |xs| == 1 then xs[0]
    else var m' := Min(xs[1..]); if xs[0] <= m' then xs[0] else m'
  }

  /** Lookup in an integer-valued record, `0` when the key is absent
      (`record[k] || 0`). */
  function ValueOr0(m: map<string, int>, k: string): int
  {
    if k in m then m[k] else 0
  }

  lemma ConcatAssoc<T>(a: seq<T>, b: seq<T>, c: seq<T>)
    ensures a + (b + c) == (a + b) + c
  {
  }

  /** `xs.filter(keep)`. */
  function Filter<T>(xs: seq<T>, keep: T -> bool): seq<T>
  {
    if |xs| == 0 then []
    else (if keep(xs[0]) then [xs[0]] else []) + Filter(xs[1..], keep)
  }

  /** Filtering a concatenation filters each part. */
  lemma {:induction false} FilterAppend<T>(a: seq<T>, b: seq<T>, keep: T -> bool)
    ensures Filter(a + b, keep) == Filter(a, keep) + Filter(b, keep)
  {
    if |a| == 0 {
      assert a + b == b;
    } else {
      var h := if keep(a[0]) then [a[0]] else [];
      assert (a + b)[0] == a[0];
      assert (a + b)[1..] == a[1..] + b;
      assert Filter(a + b, keep) == h + Filter(a[1..] + b, keep);
      FilterAppend(a[1..], b, keep);
      ConcatAssoc(h, Filter(a[1..], keep), Filter(b, keep));
    }
  }

  /** The filter keeps exactly the elements satisfying `keep`: every kept
      element satisfies it and comes from the input, and every input
      element satisfying it is kept. */
  lemma {:induction false} FilterExactly<T>(xs: seq<T>, keep: T -> bool)
    ensures forall i :: 0 <= i < |Filter(xs, keep)| ==> keep(Filter(xs, keep)[i]) && Filter(xs, keep)[i] in xs
    ensures forall j :: 0 <= j < |xs| && keep(xs[j]) ==> xs[j] in Filter(xs, keep)
  {
    if |xs| > 0 {
      var tail := Filter(xs[1..], keep);
      var head: seq<T> := if keep(xs[0]) then [xs[0]] else [];
      var ys := Filter(xs, keep);
      FilterExactly(xs[1..], keep);
      assert ys == head + tail;
      forall i | 0 <= i < |ys| ensures keep(ys[i]) && ys[i] in xs {
        if i >= |head| {
          assert ys[i] == tail[i - |head|];
          assert tail[i - |head|] in xs[1..];
        }
      }
      forall j | 0 <= j < |xs| && keep(xs[j]) ensures xs[j] in ys {
        if j > 0 {
          assert xs[1..][j - 1] == xs[j];
          assert xs[j] in tail;
        }
      }
    }
  }

  /** A filter that keeps every element keeps the whole sequence. */
  lemma {:induction false} FilterAll<T>(xs: seq<T>, keep: T -> bool)
    requires forall i :: 0 <= i < |xs| ==> keep(xs[i])
    ensures Filter(xs, keep) == xs
  {
    if |xs| > 0 {
      FilterAll(xs[1..], keep);
      assert [xs[0]] + xs[1..] == xs;
    }
  }

  /** A filter that keeps no element yields nothing. */
  lemma {:induction false} FilterNone<T>(xs: seq<T>, keep: T -> bool)
    requires forall i :: 0 <= i < |xs| ==> !keep(xs[i])
    ensures Filter(xs, keep) == []
  {
    if |xs| > 0 {
      FilterNone(xs[1..], keep);
    }
  }
}

=== FILE: choropleth.dfy ===
/** The world choropleth: each classified country becomes a map datum whose
    value is a tier index in the colour domain 0..4, drawn with a five-colour
    scale and explained by a five-entry legend. */
module Choropleth {
  import opened Basics
  import opened AllDestination

  /** The `colors` scale: entry `k` paints value `k`. */
  const Colors: seq<string> := ["#1E293B", "#155E75", "#0D9488", "#2DD4BF", "#5EEAD4"]

  /** The legend under the map, top to bottom. */
  const Legend: seq<(string, string)> := [("#5EEAD4", "Extreme (≥1M)"), ("#2DD4BF", "Significant (≥500K)"),
                                          ("#0D9488", "Moderate (≥100K)"), ("#155E75", "Slight (≥10K)"),
                                          ("#1E293B", "Nil (<10K)")]

  /** One datum handed to the map: feature id, tier index and total. */
  datatype MapDatum = MapDatum(id: Option<string>, value: int, total: int)

  /** The tier index ladder of `nivoData`. */
  function TierIndex(total: int): (k: int)
    ensures 0 <= k <= 4
    ensures k == 4 <==> total >= 1000000
    ensures k >= 3 <==> total >= 500000
    ensures k >= 2 <==> total >= 100000
    ensures k >= 1 <==> total >= 10000
  {
    if total >= 1000000 then 4
    else if total >= 500000 then 3
    else if total >= 100000 then 2
    else if total >= 10000 then 1
    else 0
  }

  /** `toIso3(country) || country`: the ISO code when the lookup gives a
      non-empty one, else the country name itself. The lookup table is not
      part of this model; it is a parameter, with `""` for no code. */
  function FeatureId(toIso3: Option<string> -> string, country: Option<string>): Option<string>
  {
    if toIso3(country) != "" then Some(toIso3(country)) else country
  }

  /** `mapData.map(...)`: one datum per classified country, in order. */
  function NivoData(toIso3: Option<string> -> string, items: seq<CountryData>): (r: seq<MapDatum>)
    ensures |r| == |items|
    ensures forall i :: 0 <= i < |items| ==> r[i].total == items[i].total
    ensures forall i :: 0 <= i < |items| ==> r[i].id == FeatureId(toIso3, items[i].country)
    ensures forall i :: 0 <= i < |items| ==> 0 <= r[i].value < |Colors|
  {
    seq(|items|, i requires 0 <= i < |items| =>
      MapDatum(FeatureId(toIso3, items[i].country), TierIndex(items[i].total), items[i].total))
  }

  /** The map's tier index is the hook's tier rank, so the colour the scale
      picks is the colour the hook assigned, and the legend lists the tiers
      from index 4 down to index 0 with the same colours. */
  lemma ScaleMatchesTiers(total: int)
    ensures TierIndex(total) == Rank(Classify(total))
    ensures Colors[TierIndex(total)] == Color(Classify(total))
    ensures forall k :: 0 <= k < 5 ==> Colors[k] == Legend[4 - k].0
  {
  }

  /** Every datum of a classified country is painted with that country's
      hook colour. */
  lemma NivoColorsMatchHook(toIso3: Option<string> -> string, items: seq<CountryData>)
    requires forall i :: 0 <= i < |items| ==> items[i].color == Color(Classify(items[i].total))
    ensures var d := NivoData(toIso3, items);
      forall i :: 0 <= i < |items| ==> Colors[d[i].value] == items[i].color
  {
    forall i | 0 <= i < |items| ensures Colors[NivoData(toIso3, items)[i].value] == items[i].color {
      ScaleMatchesTiers(items[i].total);
    }
  }
}

=== FILE: civil_status.dfy ===
/** The civil-status hook: a year-major table (one row per year, one column
    per status) is read into records with six fixed status fields, then
    grouped into the eleven 3-year periods 1988-1990 ... 2018-2020. */
module CivilStatus {
  import opened Basics
  import opened Table
  import opened Periods

  const YearColumn := "YEAR"
  const StartYear := 1988
  const EndYear := 2020
  const PeriodLength := 3

  /** The fixed fields of a civil-status record and of a period record. */
  const Statuses: seq<string> := ["Single", "Married", "Widowed", "Separated", "Divorced", "Not Reported"]

  /** What the hook publishes: the yearly records, the period records and
      the header categories (every header but YEAR). */
  datatype CivilStatusData = CivilStatusData(chartData: seq<YearRecord>, groupedChartData: seq<Period>,
                                             civilStatusCategories: seq<string>)

  /** The grouping step: periods start with every status at 0, then each
      header category is overwritten with its sum. */
  function CivilPeriods(records: seq<YearRecord>, cats: seq<string>): seq<Period>
  {
    Aggregate(records, cats, Zeros(Statuses), StartYear, EndYear, PeriodLength)
  }

  /** The `complete` callback; `None` is the early return on an empty parse. */
  function ParseCivilStatusData(t: Table): (r: Option<CivilStatusData>)
    ensures r.None? <==> |t.rows| == 0
    ensures r.Some? ==> r.value.civilStatusCategories == Without(t.keys, YearColumn)
    ensures r.Some? ==> r.value.chartData == FixedFieldRecords(t.rows, YearColumn, Statuses)
    ensures r.Some? ==> r.value.groupedChartData == CivilPeriods(r.value.chartData, r.value.civilStatusCategories)
  {
    if |t.rows| == 0 then None
    else
      var cats := Without(t.keys, YearColumn);
      var records := FixedFieldRecords(t.rows, YearColumn, Statuses);
      Some(CivilStatusData(records, CivilPeriods(records, cats), cats))
  }

  /** Exactly eleven periods, labelled "1988 - 1990" through "2018 - 2020";
      period `i` covers the years `1988 + 3i .. 1990 + 3i`. */
  lemma CivilPeriodLabels(records: seq<YearRecord>, cats: seq<string>)
    ensures var ps := CivilPeriods(records, cats);
      && |ps| == 11
      && ps[0].periodLabel == "1988 - 1990"
      && ps[10].periodLabel == "2018 - 2020"
      && (forall i :: 0 <= i < 11 ==> ps[i].periodLabel == Label(1988 + 3 * i, 1990 + 3 * i))
  {
    ThreeYearBounds();
    ThreeYearLabels();
  }

  /** Every period carries the six statuses and every header category. */
  lemma CivilPeriodKeys(records: seq<YearRecord>, cats: seq<string>)
    ensures var ps := CivilPeriods(records, cats);
      forall i :: 0 <= i < |ps| ==> ps[i].values.Keys == (set s | s in Statuses) + (set c | c in cats)
  {
  }

  /** Period `i` holds, for every header category, its sum over the years
      `1988 + 3i .. 1990 + 3i`. */
  lemma CivilPeriodSums(records: seq<YearRecord>, cats: seq<string>)
    ensures var ps := CivilPeriods(records, cats);
      && |ps| == 11
      && (forall i, c :: 0 <= i < 11 && c in cats ==> ValueOr0(ps[i].values, c) == SumYears(records, c, 1988 + 3 * i, 1990 + 3 * i))
  {
    var ps := CivilPeriods(records, cats);
    ThreeYearBounds();
    AggregateSums(records, cats, Zeros(Statuses), StartYear, EndYear, PeriodLength);
    forall i, c | 0 <= i < 11 && c in cats
      ensures ValueOr0(ps[i].values, c) == SumYears(records, c, 1988 + 3 * i, 1990 + 3 * i)
    {
      assert Bounds(StartYear, EndYear, PeriodLength)[i] == (1988 + 3 * i, 1990 + 3 * i);
    }
  }

  /** A status the header does not list keeps its initial 0 in every period. */
  lemma CivilMissingStatusIsZero(records: seq<YearRecord>, cats: seq<string>, s: string)
    requires s in Statuses && s !in cats
    ensures var ps := CivilPeriods(records, cats);
      forall i :: 0 <= i < |ps| ==> ps[i].values[s] == 0
  {
  }

  /** A header category that is not one of the six statuses never reaches a
      record, so every period sums it to 0. Names inherited from
      `Object.prototype` are outside the model. */
  lemma CivilUnknownCategoryIsZero(rows: seq<Row>, cats: seq<string>, c: string)
    requires c in cats && c !in Statuses
    ensures var ps := CivilPeriods(FixedFieldRecords(rows, YearColumn, Statuses), cats);
      forall i :: 0 <= i < |ps| ==> ps[i].values[c] == 0
  {
    var records := FixedFieldRecords(rows, YearColumn, Statuses);
    var ps := CivilPeriods(records, cats);
    forall i | 0 <= i < |ps| ensures ps[i].values[c] == 0 {
      var b := Bounds(StartYear, EndYear, PeriodLength)[i];
      SumYearsAbsentField(records, c, b.0, b.1);
    }
  }

  /** With distinct years, a category's period values add up to its sum over
      the records dated 1988..2020. */
  lemma CivilPeriodsConserve(records: seq<YearRecord>, cats: seq<string>, c: string)
    requires DistinctYears(records) && c in cats
    ensures PeriodsTotal(CivilPeriods(records, cats), c) == RecordsSum(records, c, StartYear, EndYear)
  {
    AggregateConservesRecords(records, cats, Zeros(Statuses), StartYear, EndYear, PeriodLength, c);
  }
}

=== FILE: education_data.dfy ===
/** The education hook: a category-major table (one row per attainment
    label, one column per year) is pivoted into yearly records, the fourteen
    raw labels are merged into eight aggregated levels, and the merged
    records are grouped into the eleven 3-year periods 1988-1990 ...
    2018-2020. */
module EducationData {
  import opened Basics
  import opened Table
  import opened Periods

  const LevelColumn := "EDUCATIONAL ATTAINMENT"
  const StartYear := 1988
  const EndYear := 2020
  const PeriodLength := 3

  /** The merged levels, in order: the six mapping keys, then the two labels
      that are kept as they are. */
  const MappedLevels: seq<string> := ["Non-Formal Education", "Elementary", "High School", "Vocational", "College", "Post Graduate"]
  const UnmappedLevels: seq<string> := ["Not of Schooling Age", "Not Reported / No Response"]
  const AggregatedLevels: seq<string> := MappedLevels + UnmappedLevels

  /** The raw labels a merged level adds up; an unmapped level reads only
      itself. The trailing space of "Non-Formal Education " is part of the
      label the mapping expects. */
  function Constituents(level: string): seq<string>
  {
    if level == "Non-Formal Education" then ["No Formal Education", "Non-Formal Education "]
    else if level == "Elementary" then ["Elementary Level", "Elementary Graduate"]
    else if level == "High School" then ["High School Level", "High School Graduate"]
    else if level == "Vocational" then ["Vocational Level", "Vocational Graduate"]
    else if level == "College" then ["College Level", "College Graduate"]
    else if level == "Post Graduate" then ["Post Graduate Level", "Post Graduate"]
    else [level]
  }

  /** `sources.reduce((sum, s) => sum + (values[s] || 0), 0)`. */
  function SourceSum(values: map<string, int>, sources: seq<string>): int
  {
    if |sources| == 0 then 0 else ValueOr0(values, sources[0]) + SourceSum(values, sources[1..])
  }

  /** A merged yearly record: the same year, and for each aggregated level
      the sum of its raw labels (a missing label counts 0). */
  function MergeRecord(rec: YearRecord): (r: YearRecord)
    ensures r.year == rec.year
    ensures r.values.Keys == set l | l in AggregatedLevels
    ensures forall l :: l in AggregatedLevels ==> r.values[l] == SourceSum(rec.values, Constituents(l))
  {
    YearRecord(rec.year, map l | l in AggregatedLevels :: SourceSum(rec.values, Constituents(l)))
  }

  function MergeRecords(records: seq<YearRecord>): (r: seq<YearRecord>)
    ensures |r| == |records|
    ensures forall i :: 0 <= i < |records| ==> r[i] == MergeRecord(records[i])
  {
    seq(|records|, i requires 0 <= i < |records| => MergeRecord(records[i]))
  }

  /** The grouping step over the merged records and the aggregated levels. */
  function EducationPeriods(merged: seq<YearRecord>): seq<Period>
  {
    Aggregate(merged, AggregatedLevels, map[], StartYear, EndYear, PeriodLength)
  }

  /** What the hook publishes: the merged records, the period records and
      the aggregated level list (which replaces the raw label list set a
      moment earlier in the same callback). */
  datatype EducationData = EducationData(chartData: seq<YearRecord>, groupedChartData: seq<Period>, educationLevels: seq<string>)

  /** The `complete` callback; `None` is the early return on an empty parse. */
  function ParseEducationData(t: Table): (r: Option<EducationData>)
    ensures r.None? <==> |t.rows| == 0
    ensures r.Some? ==> r.value.educationLevels == AggregatedLevels
    ensures r.Some? ==> r.value.chartData == MergeRecords(Pivot(t, LevelColumn, SkipBlank))
    ensures r.Some? ==> r.value.groupedChartData == EducationPeriods(r.value.chartData)
  {
    if |t.rows| == 0 then None
    else
      var merged := MergeRecords(Pivot(t, LevelColumn, SkipBlank));
      Some(EducationData(merged, EducationPeriods(merged), AggregatedLevels))
  }

  /** Every raw label the merge reads, level by level. */
  function Flatten(levels: seq<string>): seq<string>
  {
    if |levels| == 0 then [] else Constituents(levels[0]) + Flatten(levels[1..])
  }

  const SourceLabels: seq<string> := [
    "No Formal Education", "Non-Formal Education ",
    "Elementary Level", "Elementary Graduate",
    "High School Level", "High School Graduate",
    "Vocational Level", "Vocational Graduate",
    "College Level", "College Graduate",
    "Post Graduate Level", "Post Graduate",
    "Not of Schooling Age", "Not Reported / No Response"]

  lemma FlattenCons(levels: seq<string>, k: nat)
    requires k < |levels|
    ensures Flatten(levels[k..]) == Constituents(levels[k]) + Flatten(levels[k + 1..])
  {
    assert levels[k..][1..] == levels[k + 1..];
  }

  lemma FlattenLastFour()
    ensures Flatten(AggregatedLevels[4..]) == SourceLabels[8..]
  {
    var levels := AggregatedLevels;
    assert Flatten(levels[8..]) == [];
    FlattenCons(levels, 7);
    FlattenCons(levels, 6);
    FlattenCons(levels, 5);
    FlattenCons(levels, 4);
  }

  lemma FlattenLastSix()
    ensures Flatten(AggregatedLevels[2..]) == SourceLabels[4..]
  {
    var levels := AggregatedLevels;
    FlattenLastFour();
    FlattenCons(levels, 3);
    FlattenCons(levels, 2);
  }

  /** The merge reads exactly the fourteen raw labels, in this order. */
  lemma FlattenLevels()
    ensures Flatten(AggregatedLevels) == SourceLabels
  {
    var levels := AggregatedLevels;
    FlattenLastSix();
    FlattenCons(levels, 1);
    FlattenCons(levels, 0);
  }

  /** No raw label feeds two levels. */
  lemma SourceLabelsDistinct()
    ensures forall i, j :: 0 <= i < j < |SourceLabels| ==> SourceLabels[i] != SourceLabels[j]
  {
  }

  /** Sum over a list of levels of their merged values. */
  function LevelTotal(values: map<string, int>, levels: seq<string>): int
  {
    if |levels| == 0 then 0 else ValueOr0(values, levels[0]) + LevelTotal(values, levels[1..])
  }

  lemma {:induction false} SourceSumAppend(values: map<string, int>, a: seq<string>, b: seq<string>)
    ensures SourceSum(values, a + b) == SourceSum(values, a) + SourceSum(values, b)
  {
    if |a| > 0 {
      assert (a + b)[1..] == a[1..] + b;
      SourceSumAppend(values, a[1..], b);
    } else {
      assert a + b == b;
    }
  }

  lemma {:induction false} LevelTotalOfMerge(rec: YearRecord, levels: seq<string>)
    requires forall l :: l in levels ==> l in AggregatedLevels
    ensures LevelTotal(MergeRecord(rec).values, levels) == SourceSum(rec.values, Flatten(levels))
  {
    if |levels| > 0 {
      LevelTotalOfMerge(rec, levels[1..]);
      SourceSumAppend(rec.values, Constituents(levels[0]), Flatten(levels[1..]));
    }
  }

  /** The merge conserves the year's total: the eight merged values add up
      to the fourteen raw labels' values, none counted twice. */
  lemma MergeConserves(rec: YearRecord)
    ensures LevelTotal(MergeRecord(rec).values, AggregatedLevels) == SourceSum(rec.values, SourceLabels)
  {
    LevelTotalOfMerge(rec, AggregatedLevels);
    FlattenLevels();
  }

  lemma {:induction false} SourceSumIgnores(values: map<string, int>, sources: seq<string>, s: string, x: int)
    requires s !in sources
    ensures SourceSum(values[s := x], sources) == SourceSum(values, sources)
  {
    if |sources| > 0 {
      SourceSumIgnores(values, sources[1..], s, x);
    }
  }

  /** A raw label outside the fourteen (for instance "Non-Formal Education"
      without the trailing space) has no effect on the merged record. */
  lemma MergeIgnoresOtherLabels(rec: YearRecord, s: string, x: int)
    requires s !in SourceLabels
    ensures forall l :: l in AggregatedLevels ==>
              MergeRecord(YearRecord(rec.year, rec.values[s := x])).values[l] == MergeRecord(rec).values[l]
  {
    FlattenLevels();
    forall l | l in AggregatedLevels
      ensures MergeRecord(YearRecord(rec.year, rec.values[s := x])).values[l] == MergeRecord(rec).values[l]
    {
      assert forall c :: c in Constituents(l) ==> c in SourceLabels;
      SourceSumIgnores(rec.values, Constituents(l), s, x);
    }
  }

  /** Exactly eleven periods, labelled "1988 - 1990" through "2018 - 2020". */
  lemma EducationPeriodLabels(merged: seq<YearRecord>)
    ensures var ps := EducationPeriods(merged);
      && |ps| == 11
      && ps[0].periodLabel == "1988 - 1990"
      && ps[10].periodLabel == "2018 - 2020"
      && (forall i :: 0 <= i < 11 ==> ps[i].periodLabel == Label(1988 + 3 * i, 1990 + 3 * i))
  {
    ThreeYearBounds();
    ThreeYearLabels();
  }

  /** Every period carries exactly the eight aggregated levels. */
  lemma EducationPeriodKeys(merged: seq<YearRecord>)
    ensures var ps := EducationPeriods(merged);
      forall i :: 0 <= i < |ps| ==> ps[i].values.Keys == set l | l in AggregatedLevels
  {
  }

  /** Period `i` holds, for every aggregated level, its sum over the years
      `1988 + 3i .. 1990 + 3i`. */
  lemma EducationPeriodSums(merged: seq<YearRecord>)
    ensures var ps := EducationPeriods(merged);
      && |ps| == 11
      && (forall i, l :: 0 <= i < 11 && l in AggregatedLevels ==>
            ValueOr0(ps[i].values, l) == SumYears(merged, l, 1988 + 3 * i, 1990 + 3 * i))
  {
    var ps := EducationPeriods(merged);
    ThreeYearBounds();
    AggregateSums(merged, AggregatedLevels, map[], StartYear, EndYear, PeriodLength);
    forall i, l | 0 <= i < 11 && l in AggregatedLevels
      ensures ValueOr0(ps[i].values, l) == SumYears(merged, l, 1988 + 3 * i, 1990 + 3 * i)
    {
      assert Bounds(StartYear, EndYear, PeriodLength)[i] == (1988 + 3 * i, 1990 + 3 * i);
    }
  }

  /** With distinct years, a level's period values add up to its sum over the
      merged records dated 1988..2020. */
  lemma EducationPeriodsConserve(merged: seq<YearRecord>, l: string)
    requires DistinctYears(merged) && l in AggregatedLevels
    ensures PeriodsTotal(EducationPeriods(merged), l) == RecordsSum(merged, l, StartYear, EndYear)
  {
    AggregateConservesRecords(merged, AggregatedLevels, map[], StartYear, EndYear, PeriodLength, l);
  }
}

=== FILE: js_number.dfy ===
/** JavaScript's `parseInt(s, 10)` and `String(n)` on integers, the two number
    conversions every hook relies on. `parseInt` yields `NaN` when no digit
    follows the optional whitespace and sign; the model returns `None` there. */
module JsNumber {
  import opened Basics

  predicate AllDigits(d: string) {
    forall i :: 0 <= i < |d| ==> IsDigit(d[i])
  }

  function DigitValue(c: char): nat
    requires IsDigit(c)
  {
    c as int - '0' as int
  }

  function DigitChar(n: nat): (c: char)
    requires n < 10
    ensures IsDigit(c) && DigitValue(c) == n
  {
    ('0' as int + n) as char
  }

  /** Value of a decimal digit string, most significant digit first. */
  function DigitsValue(d: string): nat
    requires AllDigits(d)
  {
    if |d| == 0 then 0 else DigitsValue(d[..|d| - 1]) * 10 + DigitValue(d[|d| - 1])
  }

  /** The longest prefix of `s` made of decimal digits. */
  function DigitPrefix(s: string): (d: string)
    ensures |d| <= |s| && d == s[..|d|]
    ensures AllDigits(d)
    ensures |d| < |s| ==> !IsDigit(s[|d|])
  {
    if |s| > 0 && IsDigit(s[0]) then [s[0]] + DigitPrefix(s[1..]) else ""
  }

  /** The maximal run of leading digits as a number; `None` when it is empty. */
  function ParseDigits(u: string): Option<nat>
  {
    var d := DigitPrefix(u);
    if |d| == 0 then None else Some(DigitsValue(d))
  }

  /** Optional sign followed by the maximal run of digits. */
  function ParseSigned(t: string): Option<int>
  {
    if |t| > 0 && t[0] == '-' then
      match ParseDigits(t[1..])
      case None => None
      case Some(v) => Some(-(v as int))
    else if |t| > 0 && t[0] == '+' then
      match ParseDigits(t[1..])
      case None => None
      case Some(v) => Some(v as int)
    else
      match ParseDigits(t)
      case None => None
      case Some(v) => Some(v as int)
  }

  /** `parseInt(s, 10)`: skip leading whitespace, take an optional sign, then
      the maximal run of digits; `None` (JavaScript's `NaN`) when that run is
      empty. Whatever follows the digits is ignored. */
  function ParseInt(s: string): (r: Option<int>)
    ensures (forall i :: 0 <= i < |s| ==> !IsDigit(s[i])) ==> r == None
  {
    var t := TrimStart(s);
    var u := if |t| > 0 && (t[0] == '-' || t[0] == '+') then t[1..] else t;
    assert |DigitPrefix(u)| > 0 ==> IsDigit(s[|s| - |u|]);
    ParseSigned(t)
  }

  /** `parseInt(cell, 10) || 0`, equally `isNaN(v) ? 0 : v`: the permissive
      reading every hook applies to a data cell. An absent cell (`undefined`)
      does not parse. */
  function IntOrZero(cell: Option<string>): int
  {
    match cell
    case None => 0
    case Some(s) => ParseInt(s).GetOr(0)
  }

  /** Decimal digits of a natural number, without leading zeros. */
  function NatToString(n: nat): (s: string)
    ensures |s| > 0 && AllDigits(s)
    ensures DigitsValue(s) == n
    ensures |s| > 1 ==> s[0] != '0'
    decreases n
  {
    if n < 10 then [DigitChar(n)]
    else
      var p := NatToString(n / 10);
      var s := p + [DigitChar(n % 10)];
      assert s[..|s| - 1] == p;
      s
  }

  /** `String(n)` for an integer `n`. */
  function IntToString(n: int): (s: string)
    ensures |s| > 0
    ensures n >= 0 ==> AllDigits(s)
    ensures n < 0 ==> s[0] == '-' && AllDigits(s[1..])
  {
    if n < 0 then "-" + NatToString(-n) else NatToString(n)
  }

  /** The rendering of a four-digit year, digit by digit. */
  lemma FourDigitRendering(n: int)
    requires 1000 <= n < 10000
    ensures IntToString(n) == [DigitChar(n / 1000), DigitChar(n / 100 % 10), DigitChar(n / 10 % 10), DigitChar(n % 10)]
  {
    assert NatToString(n / 1000) == [DigitChar(n / 1000)];
    assert n / 100 / 10 == n / 1000;
    assert NatToString(n / 100) == NatToString(n / 100 / 10) + [DigitChar(n / 100 % 10)];
    assert n / 10 / 10 == n / 100;
    assert NatToString(n / 10) == NatToString(n / 10 / 10) + [DigitChar(n / 10 % 10)];
  }

  lemma DigitPrefixOfDigits(d: string, rest: string)
    requires AllDigits(d)
    requires |rest| > 0 ==> !IsDigit(rest[0])
    ensures DigitPrefix(d + rest) == d
  {
    if |d| > 0 {
      assert (d + rest)[1..] == d[1..] + rest;
      DigitPrefixOfDigits(d[1..], rest);
    } else {
      assert d + rest == rest;
    }
  }

  lemma TrimStartOfSpaces(w: string, t: string)
    requires forall i :: 0 <= i < |w| ==> IsSpace(w[i])
    requires |t| > 0 ==> !IsSpace(t[0])
    ensures TrimStart(w + t) == t
  {
    if |w| > 0 {
      assert (w + t)[1..] == w[1..] + t;
      TrimStartOfSpaces(w[1..], t);
    } else {
      assert w + t == t;
    }
  }

  /** Leading whitespace does not change what `parseInt` reads. */
  lemma ParseIntSkipsSpaces(w: string, t: string)
    requires forall i :: 0 <= i < |w| ==> IsSpace(w[i])
    requires |t| > 0 ==> !IsSpace(t[0])
    ensures ParseInt(w + t) == ParseInt(t)
  {
    TrimStartOfSpaces(w, t);
    TrimStartOfSpaces("", t);
    assert "" + t == t;
    assert TrimStart(w + t) == TrimStart(t);
  }

  lemma ParseDigitsOfDigits(p: string, rest: string)
    requires |p| > 0 && AllDigits(p)
    requires |rest| > 0 ==> !IsDigit(rest[0])
    ensures ParseDigits(p + rest) == Some(DigitsValue(p))
  {
    DigitPrefixOfDigits(p, rest);
  }

  lemma ParseSignedOfNatural(p: string, rest: string)
    requires |p| > 0 && AllDigits(p)
    requires |rest| > 0 ==> !IsDigit(rest[0])
    ensures ParseSigned(p + rest) == Some(DigitsValue(p) as int)
  {
    var t := p + rest;
    ParseDigitsOfDigits(p, rest);
    assert t[0] == p[0];
  }

  lemma ParseSignedOfNegative(t: string, v: nat)
    requires |t| > 0 && t[0] == '-'
    requires ParseDigits(t[1..]) == Some(v)
    ensures ParseSigned(t) == Some(-(v as int))
  {
  }

  /** Text that starts with a non-space is parsed from its first character. */
  lemma ParseIntUntrimmed(t: string)
    requires |t| > 0 && !IsSpace(t[0])
    ensures ParseInt(t) == ParseSigned(t)
  {
    TrimStartOfSpaces("", t);
    assert "" + t == t;
  }

  /** `parseInt` of a digit string followed by a non-digit. */
  lemma ParseIntOfDigits(p: string, rest: string)
    requires |p| > 0 && AllDigits(p)
    requires |rest| > 0 ==> !IsDigit(rest[0])
    ensures ParseInt(p + rest) == Some(DigitsValue(p) as int)
  {
    var t := p + rest;
    assert t[0] == p[0];
    ParseIntUntrimmed(t);
    ParseSignedOfNatural(p, rest);
  }

  /** `parseInt` of a minus sign, a digit string, then a non-digit. */
  lemma ParseIntOfNegativeDigits(t: string, p: string, rest: string)
    requires |p| > 0 && AllDigits(p)
    requires |rest| > 0 ==> !IsDigit(rest[0])
    requires |t| > 0 && t[0] == '-' && t[1..] == p + rest
    ensures ParseInt(t) == Some(-(DigitsValue(p) as int))
  {
    ParseIntUntrimmed(t);
    ParseDigitsOfDigits(p, rest);
    ParseSignedOfNegative(t, DigitsValue(p));
  }

  /** `parseInt` of a plus sign, a digit string, then a non-digit: the sign
      is dropped. */
  lemma ParseIntOfPlusDigits(t: string, p: string, rest: string)
    requires |p| > 0 && AllDigits(p)
    requires |rest| > 0 ==> !IsDigit(rest[0])
    requires |t| > 0 && t[0] == '+' && t[1..] == p + rest
    ensures ParseInt(t) == Some(DigitsValue(p) as int)
  {
    ParseIntUntrimmed(t);
    ParseDigitsOfDigits(p, rest);
  }

  /** After the whitespace, a character that is neither a sign nor a digit
      makes `parseInt` give `NaN`, whatever digits come later (so
      `parseInt("Q1 2019")` is `NaN`). */
  lemma ParseIntOfNonDigit(w: string, t: string)
    requires forall i :: 0 <= i < |w| ==> IsSpace(w[i])
    requires |t| > 0 && !IsSpace(t[0]) && !IsDigit(t[0]) && t[0] != '-' && t[0] != '+'
    ensures ParseInt(w + t) == None
  {
    ParseIntSkipsSpaces(w, t);
    ParseIntUntrimmed(t);
  }

  /** A sign that no digit follows also gives `NaN` (`parseInt("-")`,
      `parseInt("+x1")`). */
  lemma ParseIntOfBareSign(w: string, t: string)
    requires forall i :: 0 <= i < |w| ==> IsSpace(w[i])
    requires |t| > 0 && (t[0] == '-' || t[0] == '+') && (|t| == 1 || !IsDigit(t[1]))
    ensures ParseInt(w + t) == None
  {
    ParseIntSkipsSpaces(w, t);
    ParseIntUntrimmed(t);
    assert |t[1..]| > 0 ==> t[1..][0] == t[1];
  }

  lemma ParseIntOfRendering(n: int, rest: string)
    requires |rest| > 0 ==> !IsDigit(rest[0])
    ensures ParseInt(IntToString(n) + rest) == Some(n)
  {
    if n < 0 {
      var p := NatToString(-n);
      var t := IntToString(n) + rest;
      assert t == "-" + p + rest;
      assert t[1..] == p + rest;
      ParseIntOfNegativeDigits(t, p, rest);
    } else {
      ParseIntOfDigits(NatToString(n), rest);
    }
  }

  /** `parseInt` reads back the decimal rendering of any integer, whatever
      whitespace precedes it and whatever non-digit text follows it (so
      `parseInt("1981")` is 1981 and `parseInt(" 12abc")` is 12). */
  lemma {:induction false} ParseIntReadsRendering(w: string, n: int, rest: string)
    requires forall i :: 0 <= i < |w| ==> IsSpace(w[i])
    requires |rest| > 0 ==> !IsDigit(rest[0])
    ensures ParseInt(w + IntToString(n) + rest) == Some(n)
  {
    var t := IntToString(n) + rest;
    assert w + IntToString(n) + rest == w + t;
    ParseIntSkipsSpaces(w, t);
    ParseIntOfRendering(n, rest);
  }

  /** The plain round trip `parseInt(String(n), 10) == n`. */
  lemma ParseIntRoundTrip(n: int)
    ensures ParseInt(IntToString(n)) == Some(n)
  {
    var s := IntToString(n);
    assert s + [] == s;
    ParseIntOfRendering(n, []);
  }
}

=== FILE: major_destination.dfy ===
/** The major-destination hook: a year-major table is read into one record
    per row with the YEAR and eleven fixed country columns. */
module MajorDestination {
  import opened Basics
  import opened JsNumber
  import opened Table

  const YearColumn := "YEAR"

  /** The fixed country fields of every record, in declaration order. */
  const Destinations: seq<string> := ["USA", "CANADA", "JAPAN", "AUSTRALIA", "ITALY", "NEW ZEALAND",
                                      "UNITED KINGDOM", "GERMANY", "SOUTH KOREA", "SPAIN", "OTHERS"]

  /** What the hook publishes. */
  datatype MajorDestinationData = MajorDestinationData(chartData: seq<YearRecord>, countries: seq<string>)

  /** The `complete` callback; `None` is the early return on an empty parse. */
  function ParseMajorDestinationData(t: Table): (r: Option<MajorDestinationData>)
    ensures r.None? <==> |t.rows| == 0
    ensures r.Some? ==> r.value.countries == Without(t.keys, YearColumn)
    ensures r.Some? ==> r.value.chartData == FixedFieldRecords(t.rows, YearColumn, Destinations)
    ensures r.Some? ==> |r.value.chartData| == |t.rows|
    ensures r.Some? ==> forall i :: 0 <= i < |t.rows| ==>
              && r.value.chartData[i].year == CellYear(t.rows[i], YearColumn)
              && r.value.chartData[i].values.Keys == set c | c in Destinations
    ensures r.Some? ==> forall i, c :: 0 <= i < |t.rows| && c in Destinations ==>
              r.value.chartData[i].values[c] == CellInt(t.rows[i], c)
  {
    if |t.rows| == 0 then None
    else Some(MajorDestinationData(FixedFieldRecords(t.rows, YearColumn, Destinations), Without(t.keys, YearColumn)))
  }

  /** A country cell is read as `parseInt`: leading whitespace is skipped
      and a rendered number followed by anything but a digit ("12abc",
      " 7") reads back as that number; a cell without any digit (or a
      missing column) reads as 0. The year cell is read the same way, with
      no default. */
  lemma MajorDestinationReadsCells(t: Table, i: nat, c: string, w: string, n: int, rest: string, y: int)
    requires i < |t.rows| && c in Destinations
    ensures var rec := ParseMajorDestinationData(t).value.chartData[i];
      && (((forall j :: 0 <= j < |w| ==> IsSpace(w[j])) && (|rest| > 0 ==> !IsDigit(rest[0])) &&
           Cell(t.rows[i], c) == Some(w + IntToString(n) + rest)) ==> rec.values[c] == n)
      && ((c !in t.rows[i] || forall j :: 0 <= j < |t.rows[i][c]| ==> !IsDigit(t.rows[i][c][j])) ==> rec.values[c] == 0)
      && (Cell(t.rows[i], YearColumn) == Some(IntToString(y)) ==> rec.year == Some(y))
  {
    if (forall j :: 0 <= j < |w| ==> IsSpace(w[j])) && (|rest| > 0 ==> !IsDigit(rest[0])) {
      ParseIntReadsRendering(w, n, rest);
    }
    ParseIntRoundTrip(y);
  }
}

=== FILE: manage_data.dfy ===
/** The data-manager page: the column order of its table, the permission
    gates around it, and the rules for adding the data of a new year. */
module ManageData {
  import opened Basics
  import opened JsNumber
  import opened Auth

  const YearKey := "Year"

  // ---------------------------------------------------------------------
  // Column order

  /** JavaScript's default `sort` order on strings: by character code,
      position by position, a proper prefix first. */
  predicate StringLe(a: string, b: string)
  {
    |a| == 0 || (|b| > 0 && (a[0] < b[0] || (a[0] == b[0] && StringLe(a[1..], b[1..]))))
  }

  lemma {:induction false} StringLeTotal(a: string, b: string)
    ensures StringLe(a, b) || StringLe(b, a)
  {
    if |a| > 0 && |b| > 0 && a[0] == b[0] {
      StringLeTotal(a[1..], b[1..]);
    }
  }

  lemma {:induction false} StringLeTransitive(a: string, b: string, c: string)
    requires StringLe(a, b) && StringLe(b, c)
    ensures StringLe(a, c)
  {
    if |a| > 0 && a[0] == b[0] && b[0] == c[0] {
      StringLeTransitive(a[1..], b[1..], c[1..]);
    }
  }

  /** Each string is at most its successor. */
  predicate Sorted(xs: seq<string>)
  {
    forall i :: 0 < i < |xs| ==> StringLe(xs[i - 1], xs[i])
  }

  /** Adjacent order is the order of every pair. */
  lemma {:induction false} SortedPairwise(xs: seq<string>, i: nat, j: nat)
    requires Sorted(xs) && i <= j < |xs|
    ensures StringLe(xs[i], xs[j])
    decreases j - i
  {
    if i == j {
      StringLeTotal(xs[i], xs[j]);
    } else {
      SortedPairwise(xs, i, j - 1);
      StringLeTransitive(xs[i], xs[j - 1], xs[j]);
    }
  }

  /** Puts `x` before the first element it does not follow. */
  function Insert(x: string, xs: seq<string>): (r: seq<string>)
    ensures |r| == |xs| + 1
    ensures multiset(r) == multiset(xs) + multiset{x}
    ensures |r| > 0 && (r[0] == x || (|xs| > 0 && r[0] == xs[0]))
  {
    if |xs| == 0 then [x]
    else if StringLe(x, xs[0]) then [x] + xs
    else
      var t := Insert(x, xs[1..]);
      assert xs == [xs[0]] + xs[1..];
      [xs[0]] + t
  }

  lemma {:induction false} InsertSorted(x: string, xs: seq<string>)
    requires Sorted(xs)
    ensures Sorted(Insert(x, xs))
  {
    if |xs| > 0 && !StringLe(x, xs[0]) {
      var t := Insert(x, xs[1..]);
      InsertSorted(x, xs[1..]);
      StringLeTotal(x, xs[0]);
      assert Insert(x, xs) == [xs[0]] + t;
      assert t[0] == x || t[0] == xs[1];
      forall i | 0 < i < |Insert(x, xs)|
        ensures StringLe(Insert(x, xs)[i - 1], Insert(x, xs)[i])
      {
        if i > 1 {
          assert Insert(x, xs)[i - 1] == t[i - 2] && Insert(x, xs)[i] == t[i - 1];
        }
      }
    }
  }

  /** `keys.sort()`: insertion sort by the default string order. */
  function Sort(xs: seq<string>): (r: seq<string>)
    ensures |r| == |xs|
    ensures multiset(r) == multiset(xs)
  {
    if |xs| == 0 then []
    else
      var r := Insert(xs[0], Sort(xs[1..]));
      assert xs == [xs[0]] + xs[1..];
      r
  }

  lemma {:induction false} SortSorted(xs: seq<string>)
    ensures Sorted(Sort(xs))
  {
    if |xs| > 0 {
      SortSorted(xs[1..]);
      InsertSorted(xs[0], Sort(xs[1..]));
    }
  }

  /** A stored record as the page holds it: its keys in `Object.keys`
      order. */
  datatype Record = Record(keys: seq<string>)

  /** `getOrderedColumns`: nothing without data; the predefined order of the
      data type when it has a non-empty one; else the first record's keys
      other than "Year", sorted. The predefined orders are a parameter. */
  function OrderedColumns(order: Option<seq<string>>, data: seq<Record>): (r: seq<string>)
    ensures |data| == 0 ==> r == []
    ensures |data| > 0 && order.Some? && |order.value| > 0 ==> r == order.value
    ensures |data| > 0 && !(order.Some? && |order.value| > 0) ==>
              multiset(r) == multiset(Without(data[0].keys, YearKey))
  {
    if |data| == 0 then []
    else if order.Some? && |order.value| > 0 then order.value
    else Sort(Without(data[0].keys, YearKey))
  }

  /** Without a predefined order the columns are the first record's keys
      other than "Year", each as often as it occurs there, in sorted order. */
  lemma DynamicColumns(data: seq<Record>)
    requires |data| > 0
    ensures var r := OrderedColumns(None, data);
      Sorted(r) && YearKey !in r &&
      forall k :: k != YearKey ==> multiset(r)[k] == multiset(data[0].keys)[k]
  {
    var w := Without(data[0].keys, YearKey);
    SortSorted(w);
    WithoutCounts(data[0].keys, YearKey);
    assert YearKey !in multiset(OrderedColumns(None, data));
  }

  // ---------------------------------------------------------------------
  // Permission gates

  /** `!userProfile || !canEdit` denies the page. */
  predicate PageAllowed(profile: Option<Profile>)
  {
    profile.Some? && HasPermission(profile, Write)
  }

  /** The page is open to editors and admins and to no one else. */
  lemma PageAllowedRoles(profile: Option<Profile>)
    ensures PageAllowed(profile) <==> profile.Some? && (profile.value.role == Editor || profile.value.role == Admin)
  {
    PermissionsByRank(profile, Write);
  }

  /** The delete-all button sits inside the `canEdit` block and needs
      `canDelete` and at least one record. */
  predicate DeleteAllOffered(profile: Option<Profile>, records: nat)
  {
    HasPermission(profile, Write) && HasPermission(profile, Delete) && records > 0
  }

  /** Only an admin is offered delete-all, and only when there is data. */
  lemma DeleteAllOnlyAdmin(profile: Option<Profile>, records: nat)
    ensures DeleteAllOffered(profile, records) <==> profile.Some? && profile.value.role == Admin && records > 0
  {
    PermissionsByRank(profile, Write);
    PermissionsByRank(profile, Delete);
  }

  // ---------------------------------------------------------------------
  // Adding a year

  /** The year field's state: `''`, or the number `parseInt` made of the
      input (`None` is `NaN`). */
  datatype YearInput = Blank | Number(n: Option<int>)

  /** `!newYear` is false: a number that is neither 0 nor `NaN`. */
  predicate Entered(y: YearInput)
  {
    y.Number? && y.n.Some? && y.n.value != 0
  }

  /** What `handleYearChange` leaves: the new field state and whether it
      starts an existence check (for a parsed year above 0). */
  datatype YearChange = YearChange(newYear: YearInput, checks: bool)

  function OnYearChange(value: string): (r: YearChange)
    ensures value == "" ==> r.newYear == Blank
    ensures value != "" ==> r.newYear == Number(ParseInt(value))
    ensures r.checks <==> ParseInt(value).Some? && ParseInt(value).value > 0
  {
    var year := ParseInt(value);
    YearChange(if value == "" then Blank else Number(year), year.Some? && year.value > 0)
  }

  /** A check runs only for an entered year. */
  lemma CheckOnlyForEntered(value: string)
    ensures OnYearChange(value).checks ==> Entered(OnYearChange(value).newYear)
  {
    if OnYearChange(value).checks {
      assert value != "";
    }
  }

  /** The "Add Year" button's `disabled` negated. */
  predicate AddEnabled(loading: bool, checking: bool, newYear: YearInput, yearExists: bool)
  {
    !(loading || checking || !Entered(newYear) || yearExists)
  }

  /** The button is enabled exactly when a year is entered, no check is
      running, the year is not known to exist and nothing is loading. */
  lemma AddEnabledExactly(loading: bool, checking: bool, newYear: YearInput, yearExists: bool)
    ensures AddEnabled(loading, checking, newYear, yearExists) <==>
              !loading && !checking && !yearExists && newYear.Number? && newYear.n.Some? && newYear.n.value != 0
  {
  }

  /** What `handleAddNewYear` does. */
  datatype AddOutcome = Invalid(message: string) | Refused(message: string) | Added(year: int)

  const InvalidYearMessage := "Please enter a valid year"

  function ExistsMessage(year: int): string
  {
    "Year " + IntToString(year) + " already exists! Please edit it in the table below instead."
  }

  /** `handleAddNewYear`: an empty, zero or `NaN` year is invalid; a year the
      store already holds is refused; any other is added. `stored` is the
      answer of the store, a parameter. */
  function AddNewYear(newYear: YearInput, stored: int -> bool): (r: AddOutcome)
    ensures r.Invalid? <==> !Entered(newYear)
    ensures r.Invalid? ==> r.message == InvalidYearMessage
    ensures r.Refused? <==> Entered(newYear) && stored(newYear.n.value)
    ensures r.Refused? ==> r.message == ExistsMessage(newYear.n.value)
    ensures r.Added? ==> Entered(newYear) && r.year == newYear.n.value && !stored(r.year)
  {
    if !Entered(newYear) then Invalid(InvalidYearMessage)
    else if stored(newYear.n.value) then Refused(ExistsMessage(newYear.n.value))
    else Added(newYear.n.value)
  }

  /** The add path checks existence again, so a stored year is never added
      twice, whatever the button showed. */
  lemma NeverAddsExisting(newYear: YearInput, stored: int -> bool)
    ensures AddNewYear(newYear, stored).Added? ==> !stored(AddNewYear(newYear, stored).year)
  {
  }

  /** The field's check skips years at or below 0, but the add path only
      rejects 0 and `NaN`: typing "-5" enables the button and adds year -5
      when the store lacks it. */
  lemma NegativeYearAdded(stored: int -> bool)
    requires !stored(-5)
    ensures !OnYearChange("-5").checks
    ensures AddEnabled(false, false, OnYearChange("-5").newYear, false)
    ensures AddNewYear(OnYearChange("-5").newYear, stored) == Added(-5)
  {
    var d := "5";
    assert "-5"[1..] == d + "";
    assert AllDigits(d) && DigitsValue(d) == 5;
    ParseIntOfNegativeDigits("-5", d, "");
  }
}

=== FILE: occupation_data.dfy ===
/** The occupation hook: the occupation-by-year table is pivoted into one
    record per year, and every occupation of the vocabulary becomes one
    treemap cell whose value is its total over the years. */
module OccupationData {
  import opened Basics
  import opened Table
  import opened Totals

  const OccupationColumn := "Occupation"

  /** One treemap cell. */
  datatype TreemapItem = TreemapItem(name: string, value: int)

  /** What the hook publishes. */
  datatype OccupationData = OccupationData(chartData: seq<YearRecord>, occupations: seq<string>, treemapData: seq<TreemapItem>)

  /** One cell per vocabulary entry, in vocabulary order, valued by the
      accumulated totals. */
  function Treemap(records: seq<YearRecord>, vocab: seq<string>): (r: seq<TreemapItem>)
    ensures |r| == |vocab|
    ensures forall i :: 0 <= i < |r| ==> r[i].name == vocab[i]
    ensures forall i :: 0 <= i < |r| ==> r[i].value == Count(vocab, vocab[i]) * ColumnSum(records, vocab[i])
  {
    var totals := CategoryTotals(records, vocab);
    seq(|vocab|, i requires 0 <= i < |vocab| => TreemapItem(vocab[i], totals[vocab[i]]))
  }

  /** The `complete` callback; `None` is the early return on an empty parse. */
  function ParseOccupationData(t: Table): (r: Option<OccupationData>)
    ensures r.None? <==> |t.rows| == 0
    ensures r.Some? ==> r.value.occupations == Vocabulary(t.rows, OccupationColumn)
    ensures r.Some? ==> r.value.chartData == Pivot(t, OccupationColumn, SkipBlank)
    ensures r.Some? ==> r.value.treemapData == Treemap(r.value.chartData, r.value.occupations)
  {
    if |t.rows| == 0 then None
    else
      var occupations := Vocabulary(t.rows, OccupationColumn);
      var records := Pivot(t, OccupationColumn, SkipBlank);
      Some(OccupationData(records, occupations, Treemap(records, occupations)))
  }

  /** A treemap cell's value is the sum of its occupation's year cells (each
      read as `parseInt || 0`), taken from the last row with that name, and
      counted once per row listing the name. */
  lemma TreemapCellIsRowTotal(t: Table, r: nat)
    requires r < |t.rows| && RowLabel(t.rows[r], OccupationColumn, SkipBlank).Some?
    requires forall j :: r < j < |t.rows| ==> RowLabel(t.rows[j], OccupationColumn, SkipBlank) != RowLabel(t.rows[r], OccupationColumn, SkipBlank)
    ensures var d := ParseOccupationData(t).value;
      forall i :: 0 <= i < |d.treemapData| && d.occupations[i] == t.rows[r][OccupationColumn] ==>
        d.treemapData[i].value == Count(d.occupations, d.occupations[i]) * RowSum(t.rows[r], Without(t.keys, OccupationColumn))
  {
    ColumnSumOfPivot(t, OccupationColumn, SkipBlank, r);
  }
}

=== FILE: origin_charts.dfy ===
/** The region-of-origin chart page: short labels for region names, the
    year picker, the per-region bars of one selected year and the region
    checkboxes. */
module OriginCharts {
  import opened Basics
  import opened JsNumber
  import opened Table
  import opened OriginData
  import ProvinceName

  const AllYears := "All Years"
  const RegionWord := "Region"
  const EnDash := '\U{2013}'

  // ---------------------------------------------------------------------
  // getRegionShorthand

  /** Length of the longest prefix of `t` whose characters are in `cl`. */
  function RunLength(t: string, cl: CharClass): (n: nat)
    ensures n <= |t|
    ensures forall i :: 0 <= i < n ==> InClass(cl, t[i])
    ensures n < |t| ==> !InClass(cl, t[n])
  {
    if |t| > 0 && InClass(cl, t[0]) then 1 + RunLength(t[1..], cl) else 0
  }

  /** The three alternatives of the region-token group, `I+`, `[IVX]+` and
      `[A-Z]+`. */
  datatype CharClass = OnlyI | Roman | Upper

  predicate InClass(cl: CharClass, c: char)
  {
    match cl
    case OnlyI => c == 'I'
    case Roman => c == 'I' || c == 'V' || c == 'X'
    case Upper => IsUpper(c)
  }

  /** `\s*(-|–)` matches at the start of `t`. */
  predicate DashAfter(t: string)
  {
    var k := ProvinceName.LeadingSpaces(t);
    k < |t| && (t[k] == '-' || t[k] == EnDash)
  }

  /** A greedy `C+` followed by `\s*(-|–)`: try the `m` longest lengths
      first and give the first that the dash accepts. */
  function Backtrack(t: string, cl: CharClass, m: nat): (r: Option<nat>)
    requires m <= |t|
    ensures r.Some? ==> 0 < r.value <= m
    decreases m
  {
    if m == 0 then None
    else if DashAfter(t[m..]) then Some(m)
    else Backtrack(t, cl, m - 1)
  }

  /** The group `(I+|[IVX]+|[A-Z]+)` followed by `\s*(-|–)`, with the
      regular-expression engine's order: alternatives left to right, each
      greedy with backtracking. The result is the length of the token. */
  function RegionToken(t: string): Option<nat>
  {
    match Backtrack(t, OnlyI, RunLength(t, OnlyI))
    case Some(m) => Some(m)
    case None =>
      match Backtrack(t, Roman, RunLength(t, Roman))
      case Some(m) => Some(m)
      case None => Backtrack(t, Upper, RunLength(t, Upper))
  }

  /** `/^Region\s+(I+|[IVX]+|[A-Z]+)\s*(-|–)/`: the captured token. The
      spaces are taken greedily; giving some back cannot help, since the
      token never starts with a space. */
  function RegionMatch(s: string): (r: Option<string>)
    ensures r.Some? ==> |r.value| > 0 && |r.value| + |RegionWord| < |s|
  {
    if |s| < |RegionWord| || s[..|RegionWord|] != RegionWord then None
    else
      var rest := s[|RegionWord|..];
      var w := TrimStart(rest);
      if |w| == |rest| then None
      else
        match RegionToken(w)
        case None => None
        case Some(m) => Some(w[..m])
  }

  /** `(` + `[A-Z]+` + `)` at position `i`; the run is then maximal. */
  predicate AcronymAt(s: string, i: nat)
  {
    i < |s| && s[i] == '(' &&
    var k := RunLength(s[i + 1..], Upper);
    k > 0 && i + 1 + k < |s| && s[i + 1 + k] == ')'
  }

  /** `/\(([A-Z]+)\)/`: the leftmost position from `from` on where the
      pattern matches. */
  function FirstAcronym(s: string, from: nat): (r: Option<nat>)
    ensures r.Some? ==> from <= r.value && AcronymAt(s, r.value)
    ensures r.Some? ==> forall i :: from <= i < r.value ==> !AcronymAt(s, i)
    ensures r.None? ==> forall i :: from <= i < |s| ==> !AcronymAt(s, i)
    decreases |s| - from
  {
    if from >= |s| then None
    else if AcronymAt(s, from) then Some(from)
    else FirstAcronym(s, from + 1)
  }

  /** The captured run of the acronym at `i`. */
  function AcronymText(s: string, i: nat): (a: string)
    requires AcronymAt(s, i)
    ensures 0 < |a| < |s| && forall j :: 0 <= j < |a| ==> IsUpper(a[j])
  {
    s[i + 1..i + 1 + RunLength(s[i + 1..], Upper)]
  }

  /** `pat` occurs in `s` at position `i`. */
  predicate OccursAt(s: string, pat: string, i: nat)
  {
    i + |pat| <= |s| && s[i..i + |pat|] == pat
  }

  /** `s.includes(pat)`, searching from position `from`. */
  function ContainsFrom(s: string, pat: string, from: nat): (b: bool)
    ensures b <==> exists i :: from <= i && OccursAt(s, pat, i)
    decreases |s| - from
  {
    if from + |pat| > |s| then false
    else if OccursAt(s, pat, from) then true
    else ContainsFrom(s, pat, from + 1)
  }

  /** `getRegionShorthand`: an upper-case acronym in parentheses, else the
      numeral of a "Region X - ..." name, else the two CALABARZON/MIMAROPA
      spellings, else the name itself. */
  function Shorthand(s: string): string
  {
    match FirstAcronym(s, 0)
    case Some(i) => AcronymText(s, i)
    case None =>
      match RegionMatch(s)
      case Some(tok) => RegionWord + " " + tok
      case None =>
        if ContainsFrom(s, "Region IV A", 0) then "Region IV-A"
        else if ContainsFrom(s, "Region IV B", 0) then "Region IV-B"
        else s
  }

  /** Where `\s*(-|–)` matches, the first character is a space or a
      dash, so never a letter. */
  lemma DashAfterStart(u: string)
    requires DashAfter(u)
    ensures |u| > 0 && !IsUpper(u[0])
  {
  }

  /** Below the maximal run no length is accepted. */
  lemma {:induction false} BacktrackBelowRun(t: string, cl: CharClass, m: nat)
    requires m < RunLength(t, cl)
    ensures Backtrack(t, cl, m) == None
    decreases m
  {
    if m > 0 {
      BelowRunNoDash(t, cl, m);
      assert Backtrack(t, cl, m) == Backtrack(t, cl, m - 1);
      BacktrackBelowRun(t, cl, m - 1);
    }
  }

  /** Backtracking never helps: below the maximal run the next character
      is a letter, which neither `\s` nor the dash accepts, so the greedy
      match succeeds exactly when the whole run is followed by the dash. */
  lemma BacktrackIsMaximal(t: string, cl: CharClass)
    ensures var n := RunLength(t, cl);
      Backtrack(t, cl, n) == if n > 0 && DashAfter(t[n..]) then Some(n) else None
  {
    var n := RunLength(t, cl);
    if n > 0 {
      BacktrackBelowRun(t, cl, n - 1);
    }
  }

  lemma BelowRunNoDash(t: string, cl: CharClass, m: nat)
    requires m < RunLength(t, cl)
    ensures !DashAfter(t[m..])
  {
    var u := t[m..];
    assert u[0] == t[m] && InClass(cl, t[m]);
    assert IsUpper(u[0]);
    if DashAfter(u) {
      DashAfterStart(u);
    }
  }

  /** The upper-case run is the class's run followed by the upper-case run
      of what comes after it. */
  lemma {:induction false} UpperRunSplit(t: string, cl: CharClass)
    ensures RunLength(t, Upper) == RunLength(t, cl) + RunLength(t[RunLength(t, cl)..], Upper)
  {
    if |t| > 0 && InClass(cl, t[0]) {
      UpperRunSplit(t[1..], cl);
      assert t[1..][RunLength(t[1..], cl)..] == t[RunLength(t, cl)..];
    } else {
      assert t[0..] == t;
    }
  }

  /** Each class's run lies inside the upper-case run, and when the dash
      follows it the two runs coincide. */
  lemma RunInsideUpper(t: string, cl: CharClass)
    ensures RunLength(t, cl) <= RunLength(t, Upper)
    ensures DashAfter(t[RunLength(t, cl)..]) ==> RunLength(t, cl) == RunLength(t, Upper)
  {
    var k := RunLength(t, cl);
    UpperRunSplit(t, cl);
    if DashAfter(t[k..]) {
      DashAfterStart(t[k..]);
    }
  }

  /** The three alternatives together capture the same token as `[A-Z]+`
      alone: the maximal upper-case run, when the dash follows it. */
  lemma RegionTokenIsUpperRun(t: string)
    ensures RegionToken(t) ==
            (var n := RunLength(t, Upper); if n > 0 && DashAfter(t[n..]) then Some(n) else None)
  {
    BacktrackIsMaximal(t, OnlyI);
    BacktrackIsMaximal(t, Roman);
    BacktrackIsMaximal(t, Upper);
    RunInsideUpper(t, OnlyI);
    RunInsideUpper(t, Roman);
  }

  /** A label is never longer than the name it abbreviates. */
  lemma ShorthandNoLonger(s: string)
    ensures |Shorthand(s)| <= |s|
  {
    if FirstAcronym(s, 0).None? && RegionMatch(s).None? {
      if ContainsFrom(s, "Region IV A", 0) {
        var i :| 0 <= i && OccursAt(s, "Region IV A", i);
      } else if ContainsFrom(s, "Region IV B", 0) {
        var i :| 0 <= i && OccursAt(s, "Region IV B", i);
      }
    }
  }

  /** The leftmost parenthesised acronym wins over every other rule. */
  lemma ShorthandPrefersAcronym(s: string, i: nat)
    requires AcronymAt(s, i) && forall j :: 0 <= j < i ==> !AcronymAt(s, j)
    ensures Shorthand(s) == s[i + 1..i + 1 + RunLength(s[i + 1..], Upper)]
  {
    assert FirstAcronym(s, 0) == Some(i);
  }

  /** Without a parenthesised acronym the rules apply in order: a
      "Region X -" name gives "Region X"; else a name containing
      "Region IV A", then one containing "Region IV B", gets the hyphenated
      spelling; any other name is kept as it is. */
  lemma ShorthandFallbacks(s: string)
    requires forall i :: 0 <= i < |s| ==> !AcronymAt(s, i)
    ensures RegionMatch(s).Some? ==> Shorthand(s) == RegionWord + " " + RegionMatch(s).value
    ensures RegionMatch(s).None? && (exists i :: OccursAt(s, "Region IV A", i)) ==> Shorthand(s) == "Region IV-A"
    ensures RegionMatch(s).None? && (forall i :: !OccursAt(s, "Region IV A", i)) && (exists i :: OccursAt(s, "Region IV B", i)) ==>
              Shorthand(s) == "Region IV-B"
    ensures RegionMatch(s).None? && (forall i :: !OccursAt(s, "Region IV A", i) && !OccursAt(s, "Region IV B", i)) ==>
              Shorthand(s) == s
  {
    assert FirstAcronym(s, 0).None?;
  }

  // ---------------------------------------------------------------------
  // Year picker and single-year bars

  /** `String(d.YEAR)`: a year that did not parse is `NaN`. */
  function YearText(y: Option<int>): string
  {
    match y
    case None => "NaN"
    case Some(n) => IntToString(n)
  }

  /** The text of each record's year, in record order. */
  function YearTexts(records: seq<YearRecord>): (r: seq<string>)
    ensures |r| == |records|
    ensures forall i :: 0 <= i < |records| ==> r[i] == YearText(records[i].year)
  {
    seq(|records|, i requires 0 <= i < |records| => YearText(records[i].year))
  }

  /** The year picker's options: "All Years", then each record's year in
      record order. */
  function YearOptions(records: seq<YearRecord>): seq<string>
  {
    [AllYears] + YearTexts(records)
  }

  /** The first position holding `x`. */
  function IndexOf(xs: seq<string>, x: string): (r: Option<nat>)
    ensures r.Some? ==> r.value < |xs| && xs[r.value] == x
    ensures r.Some? ==> forall j :: 0 <= j < r.value ==> xs[j] != x
    ensures r.None? ==> forall j :: 0 <= j < |xs| ==> xs[j] != x
  {
    if |xs| == 0 then None
    else if xs[0] == x then Some(0)
    else match IndexOf(xs[1..], x)
      case None => None
      case Some(i) => Some(i + 1)
  }

  /** A position holding `x` with no earlier one is the one found. */
  lemma IndexOfFirst(xs: seq<string>, x: string, k: nat)
    requires k < |xs| && xs[k] == x
    requires forall j :: 0 <= j < k ==> xs[j] != x
    ensures IndexOf(xs, x) == Some(k)
  {
  }

  /** `chartData.find(d => String(d.YEAR) === String(selectedYear))`. */
  function FindYear(records: seq<YearRecord>, selected: string): Option<nat>
  {
    IndexOf(YearTexts(records), selected)
  }

  /** One bar of the single-year chart. */
  datatype YearBar = YearBar(region: string, shorthand: string, total: int)

  /** `singleYearData`: nothing for "All Years" or an unknown year, else one
      bar per configured region, in the configured order, with that year's
      value or 0. The configured order is a parameter. */
  function SingleYearData(selected: string, records: seq<YearRecord>, order: seq<string>): (r: seq<YearBar>)
    ensures selected == AllYears ==> r == []
    ensures FindYear(records, selected).None? ==> r == []
    ensures selected != AllYears && FindYear(records, selected).Some? ==>
              |r| == |order| &&
              forall i :: 0 <= i < |r| ==> r[i].total == ValueOr0(records[FindYear(records, selected).value].values, order[i])
    ensures forall i :: 0 <= i < |r| ==> r[i].region == order[i] && r[i].shorthand == Shorthand(order[i])
  {
    if selected == AllYears then []
    else
      match FindYear(records, selected)
      case None => []
      case Some(k) =>
        seq(|order|, i requires 0 <= i < |order| =>
          YearBar(order[i], Shorthand(order[i]), ValueOr0(records[k].values, order[i])))
  }

  lemma YearTextInjective(a: Option<int>, b: Option<int>)
    ensures YearText(a) == YearText(b) <==> a == b
  {
    if a.Some? && b.Some? && YearText(a) == YearText(b) {
      ParseIntRoundTrip(a.value);
      ParseIntRoundTrip(b.value);
    }
    if a.Some? && b.None? {
      assert YearText(b)[0] == 'N';
    }
    if a.None? && b.Some? {
      assert YearText(a)[0] == 'N';
    }
  }

  /** Picking a year `y` shows, for every configured region, the value the
      first record of year `y` holds for it: the same lookup the period
      sums make. */
  lemma SingleYearIsValueAt(y: int, records: seq<YearRecord>, order: seq<string>)
    requires FirstWithYear(records, y).Some?
    ensures var r := SingleYearData(IntToString(y), records, order);
      |r| == |order| && forall i :: 0 <= i < |r| ==> r[i].total == ValueAt(records, order[i], y)
  {
    var s := IntToString(y);
    assert s != AllYears by {
      assert s[0] != 'A';
    }
    var ts := YearTexts(records);
    var k := FirstWithYear(records, y).value;
    YearTextInjective(records[k].year, Some(y));
    assert ts[k] == s;
    forall j | 0 <= j < k ensures ts[j] != s {
      YearTextInjective(records[j].year, Some(y));
    }
    IndexOfFirst(ts, s, k);
  }

  /** Every year the picker offers shows a full chart: one bar per
      configured region. */
  lemma OfferedYearsHaveData(records: seq<YearRecord>, order: seq<string>, i: nat)
    requires 0 < i < |YearOptions(records)|
    ensures |SingleYearData(YearOptions(records)[i], records, order)| == |order|
  {
    var s := YearOptions(records)[i];
    assert s == YearText(records[i - 1].year);
    assert s != AllYears by {
      match records[i - 1].year
      case None => assert s[0] == 'N';
      case Some(n) => assert s[0] != 'A';
    }
    assert FindYear(records, s).Some?;
  }

  // ---------------------------------------------------------------------
  // Region checkboxes

  /** `handleRegionChange`: a selected region is removed (every copy), an
      unselected one is appended. */
  function Toggle(selected: seq<string>, region: string): (r: seq<string>)
    ensures region in selected ==> region !in r
    ensures region !in selected ==> region in r
    ensures forall x :: x != region ==> (x in r <==> x in selected)
  {
    if region in selected then Without(selected, region) else selected + [region]
  }

  /** Toggling a region that was not selected twice restores the
      selection exactly. */
  lemma ToggleTwice(selected: seq<string>, region: string)
    requires region !in selected
    ensures Toggle(Toggle(selected, region), region) == selected
  {
    WithoutAppended(selected, region);
  }

  lemma {:induction false} WithoutAppended(xs: seq<string>, k: string)
    requires k !in xs
    ensures Without(xs + [k], k) == xs
  {
    if |xs| == 0 {
      assert xs + [k] == [k];
      assert Without([k], k) == Without([], k);
    } else {
      assert (xs + [k])[0] == xs[0];
      assert (xs + [k])[1..] == xs[1..] + [k];
      WithoutAppended(xs[1..], k);
    }
  }

  // ---------------------------------------------------------------------
  // Ranked bars with labels

  /** A ranked bar with its label. */
  datatype LabelledBar = LabelledBar(region: string, total: int, shorthand: string)

  /** `barChartData.map(item => ({ ...item, shorthand }))`. */
  function WithShorthand(bars: seq<Bar>): (r: seq<LabelledBar>)
    ensures |r| == |bars|
  {
    seq(|bars|, i requires 0 <= i < |bars| => LabelledBar(bars[i].region, bars[i].total, Shorthand(bars[i].region)))
  }

  /** Dropping the label gives back the ranked bars, in the same order. */
  lemma WithShorthandKeepsBars(bars: seq<Bar>)
    ensures var r := WithShorthand(bars);
      seq(|r|, i requires 0 <= i < |r| => Bar(r[i].region, r[i].total)) == bars
    ensures forall i :: 0 <= i < |bars| ==> WithShorthand(bars)[i].shorthand == Shorthand(bars[i].region)
  {
  }
}

=== FILE: origin_choropleth.dfy ===
/** The province choropleth: GeoJSON features are narrowed to provinces and
    given the normalised province name as id, and the province totals become
    one map datum per name, so that a feature and a total meet exactly when
    their names normalise alike. */
module OriginChoropleth {
  import opened Basics
  import opened Table
  import opened ProvinceName
  import opened OriginProvince

  const TypeProperty := "ENGTYPE_1"
  const ProvinceProperty := "PROVINCE"
  const ProvinceType := "PROVINCE"

  /** A GeoJSON feature: its string properties, everything else it carries
      (`G`, passed through untouched) and the id the transform sets. */
  datatype Feature<G> = Feature(properties: map<string, string>, rest: G, id: Option<string>)

  /** `feat.properties[p] || ''`. */
  function Property<G>(f: Feature<G>, p: string): string
  {
    if p in f.properties then f.properties[p] else ""
  }

  /** The filter: the upper-cased ENGTYPE_1 is "PROVINCE" and the PROVINCE
      property is non-empty. */
  predicate IsProvince<G>(f: Feature<G>)
  {
    ToUpper(Property(f, TypeProperty)) == ProvinceType && Property(f, ProvinceProperty) != ""
  }

  /** `{ ...feat, id: normalizeName(feat.properties.PROVINCE) }`. */
  function WithId<G>(f: Feature<G>): Feature<G>
  {
    f.(id := Some(NormalizeName(Property(f, ProvinceProperty))))
  }

  /** `features.filter(...)`: the province features in order. */
  function Provinces<G>(fs: seq<Feature<G>>): seq<Feature<G>>
  {
    Filter(fs, IsProvince)
  }

  /** The `transform` handed to the GeoJSON loader: the province features,
      each given its id. `None` is a collection (or a `features` field)
      that is missing, read as `[]`. */
  function Transform<G>(fc: Option<seq<Feature<G>>>): (r: seq<Feature<G>>)
    ensures fc.None? ==> r == []
    ensures fc.Some? ==> |r| == |Provinces(fc.value)|
  {
    match fc
    case None => []
    case Some(fs) =>
      var ps := Provinces(fs);
      seq(|ps|, i requires 0 <= i < |ps| => WithId(ps[i]))
  }

  /** Filtering two feature lists one after the other is filtering their
      concatenation, so the transform can run on the collection in any
      split. */
  lemma ProvincesAppend<G>(a: seq<Feature<G>>, b: seq<Feature<G>>)
    ensures Provinces(a + b) == Provinces(a) + Provinces(b)
  {
    FilterAppend(a, b, IsProvince);
  }

  /** The transform keeps exactly the province features, in order of
      appearance, each with its properties and the rest of its fields
      unchanged and its id set to its normalised PROVINCE name. */
  lemma TransformKeepsProvinces<G>(fs: seq<Feature<G>>)
    ensures var r, ps := Transform(Some(fs)), Provinces(fs);
      && |r| == |ps|
      && (forall i :: 0 <= i < |ps| ==> IsProvince(ps[i]) && ps[i] in fs)
      && (forall j :: 0 <= j < |fs| && IsProvince(fs[j]) ==> fs[j] in ps)
      && (forall i :: 0 <= i < |r| ==>
            r[i].properties == ps[i].properties && r[i].rest == ps[i].rest
            && r[i].id == Some(NormalizeName(Property(ps[i], ProvinceProperty))))
  {
    FilterExactly(fs, IsProvince);
  }

  /** Every id the transform sets is already in normal form. */
  lemma TransformIdsNormalized<G>(fs: seq<Feature<G>>)
    ensures forall i :: 0 <= i < |Transform(Some(fs))| ==>
              Transform(Some(fs))[i].id.Some? && Normalized(Transform(Some(fs))[i].id.value)
  {
    var r, ps := Transform(Some(fs)), Provinces(fs);
    forall i | 0 <= i < |r| ensures r[i].id.Some? && Normalized(r[i].id.value) {
      NormalizeNameShape(Property(ps[i], ProvinceProperty));
    }
  }

  /** One choropleth datum: the province name, the value the colour scale
      reads and the total the tooltip shows. */
  datatype ProvinceDatum = ProvinceDatum(id: string, value: int, total: int)

  /** `Object.entries(totals).map(([name, total]) => ({ id: name, value:
      total, total }))`. */
  function MapData(es: Entries): (r: seq<ProvinceDatum>)
    ensures |r| == |es|
  {
    seq(|es|, i requires 0 <= i < |es| => ProvinceDatum(es[i].0, es[i].1, es[i].1))
  }

  lemma {:induction false} LookupFound(es: Entries, i: nat)
    requires DistinctKeys(es) && i < |es|
    ensures Lookup(es, es[i].0) == Some(es[i].1)
  {
    if i > 0 {
      assert es[0].0 != es[i].0;
      assert es[1..][i - 1] == es[i];
      LookupFound(es[1..], i - 1);
    }
  }

  lemma {:induction false} LookupWitness(es: Entries, k: string, v: int)
    requires Lookup(es, k) == Some(v)
    ensures exists i :: 0 <= i < |es| && es[i] == (k, v)
  {
    if es[0].0 != k {
      LookupWitness(es[1..], k, v);
      var i :| 0 <= i < |es[1..]| && es[1..][i] == (k, v);
      assert es[i + 1] == (k, v);
    }
  }

  /** With distinct keys, the map data holds a datum named `k` with value
      `v` exactly when the totals object maps `k` to `v`, and then its
      shown total is `v` as well. */
  lemma MapDataMatchesTotals(es: Entries, k: string, v: int)
    requires DistinctKeys(es)
    ensures (exists i :: 0 <= i < |es| && MapData(es)[i].id == k && MapData(es)[i].value == v)
            <==> Lookup(es, k) == Some(v)
    ensures forall i :: 0 <= i < |es| ==> MapData(es)[i].total == MapData(es)[i].value
  {
    var r := MapData(es);
    if Lookup(es, k) == Some(v) {
      LookupWitness(es, k, v);
      var i :| 0 <= i < |es| && es[i] == (k, v);
      assert r[i].id == k && r[i].value == v;
    }
    if exists i :: 0 <= i < |es| && r[i].id == k && r[i].value == v {
      var i :| 0 <= i < |es| && r[i].id == k && r[i].value == v;
      LookupFound(es, i);
    }
  }

  /** No province name appears twice in the map data. */
  lemma ProvinceMapDistinct(rows: seq<KeyedRow>)
    ensures var d := MapData(ProvinceTotals(rows));
      forall i, j :: 0 <= i < j < |d| ==> d[i].id != d[j].id
  {
    ProvinceTotalsDistinct(rows);
  }

  /** Every datum is named after some row, in normal form, and is never
      "NCR". */
  lemma ProvinceMapNamed(rows: seq<KeyedRow>)
    ensures var d := MapData(ProvinceTotals(rows));
      forall i :: 0 <= i < |d| ==>
        d[i].id != Ncr && Normalized(d[i].id) && exists r :: 0 <= r < |rows| && NamedAs(rows[r].cells, d[i].id)
  {
    var es := ProvinceTotals(rows);
    var d := MapData(es);
    ProvinceTotalsKeys(rows);
    ProvinceTotalsNormalized(rows);
    forall i | 0 <= i < |d|
      ensures d[i].id != Ncr && Normalized(d[i].id) && exists r :: 0 <= r < |rows| && NamedAs(rows[r].cells, d[i].id)
    {
      assert Keys(es)[i] == d[i].id;
      assert d[i].id in Keys(es);
    }
  }

  /** The choropleth's default join of a feature with the data: the first
      datum whose id is the feature's id, or none. */
  function DatumOf<G>(f: Feature<G>, d: seq<ProvinceDatum>): (r: Option<ProvinceDatum>)
    ensures r.Some? ==> r.value in d && f.id == Some(r.value.id)
    ensures r.None? ==> forall i :: 0 <= i < |d| ==> f.id != Some(d[i].id)
  {
    if |d| == 0 then None
    else if f.id == Some(d[0].id) then Some(d[0])
    else DatumOf(f, d[1..])
  }

  /** With distinct keys, a feature meets a datum exactly when its id is a
      key of the totals, and the datum carries the total under that key. */
  lemma DatumOfTotals<G>(f: Feature<G>, es: Entries)
    requires DistinctKeys(es)
    ensures var m := DatumOf(f, MapData(es));
      && (m.Some? <==> f.id.Some? && f.id.value in Keys(es))
      && (m.Some? ==> Lookup(es, m.value.id) == Some(m.value.value) && m.value.total == m.value.value)
  {
    var d := MapData(es);
    var m := DatumOf(f, d);
    if m.Some? {
      var i :| 0 <= i < |d| && d[i] == m.value;
      assert Keys(es)[i] == m.value.id;
      LookupFound(es, i);
    } else if f.id.Some? {
      assert f.id.value !in Keys(es) by {
        forall i | 0 <= i < |es| ensures Keys(es)[i] != f.id.value {
          assert d[i].id == es[i].0;
        }
      }
    }
  }

  /** The join the map draws: a feature given its id by the transform meets
      the datum under its normalised PROVINCE name `k`, which exists exactly
      when some row is named `k` and `k` is not "NCR", and whose value and
      shown total are the total the hook stored under `k`. */
  lemma FeatureMeetsRow<G>(f: Feature<G>, rows: seq<KeyedRow>)
    ensures var es, k := ProvinceTotals(rows), NormalizeName(Property(f, ProvinceProperty));
      var m := DatumOf(WithId(f), MapData(es));
      && (m.Some? <==> k != Ncr && exists r :: 0 <= r < |rows| && NamedAs(rows[r].cells, k))
      && (m.Some? ==> m.value.id == k && Lookup(es, k) == Some(m.value.value) && m.value.total == m.value.value)
  {
    var es, k := ProvinceTotals(rows), NormalizeName(Property(f, ProvinceProperty));
    ProvinceTotalsDistinct(rows);
    DatumOfTotals(WithId(f), es);
    ProvinceTotalsKeys(rows);
    assert k in Keys(es) <==> k != Ncr && exists r :: 0 <= r < |rows| && NamedAs(rows[r].cells, k);
  }
}

=== FILE: origin_data.dfy ===
/** The region-of-origin hook: the region-by-year table is pivoted into one
    record per year, every region of the vocabulary is totalled over the
    years, and the resulting bars are sorted by total, largest first. */
module OriginData {
  import opened Basics
  import opened Table
  import opened Totals

  const RegionColumn := "REGION"

  /** One bar of the bar chart. */
  datatype Bar = Bar(region: string, total: int)

  /** What the hook publishes. */
  datatype OriginData = OriginData(chartData: seq<YearRecord>, barChartData: seq<Bar>, regions: seq<string>)

  predicate SortedDesc(s: seq<Bar>)
  {
    forall i, j :: 0 <= i < j < |s| ==> s[i].total >= s[j].total
  }

  /** The bars with a given total, in sequence order. */
  function WithTotal(s: seq<Bar>, v: int): seq<Bar>
  {
    if |s| == 0 then [] else (if s[0].total == v then [s[0]] else []) + WithTotal(s[1..], v)
  }

  /** Places `x` after every bar whose total is at least its own. */
  function Insert(x: Bar, s: seq<Bar>): seq<Bar>
  {
    if |s| == 0 then [x]
    else if s[0].total >= x.total then [s[0]] + Insert(x, s[1..])
    else [x] + s
  }

  /** `bars.sort((a, b) => b.total - a.total)`: the stable sort JavaScript
      engines implement, here as insertion in input order. */
  function SortByTotalDesc(xs: seq<Bar>): seq<Bar>
  {
    if |xs| == 0 then [] else Insert(xs[|xs| - 1], SortByTotalDesc(xs[..|xs| - 1]))
  }

  lemma {:induction false} InsertPermutes(x: Bar, s: seq<Bar>)
    ensures multiset(Insert(x, s)) == multiset(s) + multiset{x}
  {
    if |s| > 0 && s[0].total >= x.total {
      InsertPermutes(x, s[1..]);
      assert s == [s[0]] + s[1..];
    }
  }

  /** The sort rearranges the bars and nothing else. */
  lemma {:induction false} SortPermutes(xs: seq<Bar>)
    ensures multiset(SortByTotalDesc(xs)) == multiset(xs)
  {
    if |xs| > 0 {
      SortPermutes(xs[..|xs| - 1]);
      InsertPermutes(xs[|xs| - 1], SortByTotalDesc(xs[..|xs| - 1]));
      assert xs == xs[..|xs| - 1] + [xs[|xs| - 1]];
    }
  }

  lemma {:induction false} InsertSorted(x: Bar, s: seq<Bar>)
    requires SortedDesc(s)
    ensures SortedDesc(Insert(x, s))
  {
    if |s| > 0 && s[0].total >= x.total {
      InsertSorted(x, s[1..]);
      var r := Insert(x, s);
      forall i, j | 0 <= i < j < |r| ensures r[i].total >= r[j].total {
        if i == 0 && j > 0 {
          InsertPermutes(x, s[1..]);
          assert r[j] in multiset(Insert(x, s[1..]));
          assert r[j] in multiset(s[1..]) || r[j] == x;
          if r[j] != x {
            var m :| 0 <= m < |s[1..]| && s[1..][m] == r[j];
            assert s[m + 1] == r[j];
          }
        }
      }
    }
  }

  lemma BelowHasNoTotal(s: seq<Bar>, v: int)
    requires forall i :: 0 <= i < |s| ==> s[i].total < v
    ensures WithTotal(s, v) == []
  {
  }

  /** The step where `x` moves past the first bar. */
  lemma InsertWithTotalPast(x: Bar, s: seq<Bar>, v: int)
    requires |s| > 0 && s[0].total >= x.total
    requires WithTotal(Insert(x, s[1..]), v) == WithTotal(s[1..], v) + (if x.total == v then [x] else [])
    ensures WithTotal(Insert(x, s), v) == WithTotal(s, v) + (if x.total == v then [x] else [])
  {
    var tail := if x.total == v then [x] else [];
    var head := if s[0].total == v then [s[0]] else [];
    var rest := Insert(x, s[1..]);
    assert Insert(x, s) == [s[0]] + rest;
    assert ([s[0]] + rest)[1..] == rest;
    assert WithTotal([s[0]] + rest, v) == head + WithTotal(rest, v);
    assert WithTotal(s, v) == head + WithTotal(s[1..], v);
    ConcatAssoc(head, WithTotal(s[1..], v), tail);
  }

  /** The step where `x` lands in front of a bar with a smaller total. */
  lemma InsertWithTotalFront(x: Bar, s: seq<Bar>, v: int)
    requires SortedDesc(s)
    requires |s| > 0 && s[0].total < x.total
    ensures WithTotal(Insert(x, s), v) == WithTotal(s, v) + (if x.total == v then [x] else [])
  {
    assert Insert(x, s) == [x] + s;
    assert ([x] + s)[1..] == s;
    assert WithTotal([x] + s, v) == (if x.total == v then [x] else []) + WithTotal(s, v);
    if x.total == v {
      BelowHasNoTotal(s, v);
    }
  }

  lemma {:induction false} InsertWithTotal(x: Bar, s: seq<Bar>, v: int)
    requires SortedDesc(s)
    ensures WithTotal(Insert(x, s), v) == WithTotal(s, v) + (if x.total == v then [x] else [])
  {
    if |s| == 0 {
      assert Insert(x, s) == [x];
      assert WithTotal([x], v) == (if x.total == v then [x] else []) + WithTotal([x][1..], v);
    } else if s[0].total >= x.total {
      assert SortedDesc(s[1..]);
      InsertWithTotal(x, s[1..], v);
      InsertWithTotalPast(x, s, v);
    } else {
      InsertWithTotalFront(x, s, v);
    }
  }

  lemma {:induction false} WithTotalAppend(a: seq<Bar>, b: seq<Bar>, v: int)
    ensures WithTotal(a + b, v) == WithTotal(a, v) + WithTotal(b, v)
  {
    if |a| > 0 {
      assert (a + b)[1..] == a[1..] + b;
      WithTotalAppend(a[1..], b, v);
    } else {
      assert a + b == b;
    }
  }

  /** The sort orders the bars by total, largest first. */
  lemma {:induction false} SortIsDescending(xs: seq<Bar>)
    ensures SortedDesc(SortByTotalDesc(xs))
  {
    if |xs| > 0 {
      SortIsDescending(xs[..|xs| - 1]);
      InsertSorted(xs[|xs| - 1], SortByTotalDesc(xs[..|xs| - 1]));
    }
  }

  /** The sort is stable: the bars of any one total keep their order. */
  lemma {:induction false} SortKeepsTies(xs: seq<Bar>, v: int)
    ensures WithTotal(SortByTotalDesc(xs), v) == WithTotal(xs, v)
  {
    if |xs| > 0 {
      var init := xs[..|xs| - 1];
      var x := xs[|xs| - 1];
      var tail := if x.total == v then [x] else [];
      var sorted := SortByTotalDesc(init);
      SortKeepsTies(init, v);
      SortIsDescending(init);
      InsertWithTotal(x, sorted, v);
      assert SortByTotalDesc(xs) == Insert(x, sorted);
      assert xs == init + [x];
      WithTotalAppend(init, [x], v);
      WithTotalOfOne(x, v);
    }
  }

  lemma WithTotalOfOne(x: Bar, v: int)
    ensures WithTotal([x], v) == if x.total == v then [x] else []
  {
    assert WithTotal([x], v) == (if x.total == v then [x] else []) + WithTotal([x][1..], v);
  }

  /** The sort is a permutation that orders the bars by total, largest
      first, and keeps bars of equal total in their original order: the
      contract of a stable descending sort. */
  lemma SortIsStableDescending(xs: seq<Bar>)
    ensures multiset(SortByTotalDesc(xs)) == multiset(xs)
    ensures SortedDesc(SortByTotalDesc(xs))
    ensures forall v :: WithTotal(SortByTotalDesc(xs), v) == WithTotal(xs, v)
  {
    SortPermutes(xs);
    SortIsDescending(xs);
    forall v ensures WithTotal(SortByTotalDesc(xs), v) == WithTotal(xs, v) {
      SortKeepsTies(xs, v);
    }
  }

  /** One bar per vocabulary entry, in vocabulary order, before sorting. */
  function Bars(records: seq<YearRecord>, vocab: seq<string>): (r: seq<Bar>)
    ensures |r| == |vocab|
    ensures forall i :: 0 <= i < |r| ==> r[i].region == vocab[i]
    ensures forall i :: 0 <= i < |r| ==> r[i].total == Count(vocab, vocab[i]) * ColumnSum(records, vocab[i])
  {
    var totals := CategoryTotals(records, vocab);
    seq(|vocab|, i requires 0 <= i < |vocab| => Bar(vocab[i], totals[vocab[i]]))
  }

  /** The `complete` callback; `None` is the early return on an empty parse.
      The pivot stores every row under `String(row.REGION)`, blank or not. */
  function ParseOriginData(t: Table): (r: Option<OriginData>)
    ensures r.None? <==> |t.rows| == 0
    ensures r.Some? ==> r.value.regions == Vocabulary(t.rows, RegionColumn)
    ensures r.Some? ==> r.value.chartData == Pivot(t, RegionColumn, Stringify)
    ensures r.Some? ==> r.value.barChartData == SortByTotalDesc(Bars(r.value.chartData, r.value.regions))
  {
    if |t.rows| == 0 then None
    else
      var regions := Vocabulary(t.rows, RegionColumn);
      var records := Pivot(t, RegionColumn, Stringify);
      Some(OriginData(records, SortByTotalDesc(Bars(records, regions)), regions))
  }

  /** The published bars: one per vocabulary entry, largest total first,
      ties in vocabulary order. */
  lemma OriginBarsRanked(t: Table)
    requires |t.rows| > 0
    ensures var d := ParseOriginData(t).value;
      && SortedDesc(d.barChartData)
      && multiset(d.barChartData) == multiset(Bars(d.chartData, d.regions))
      && (forall v :: WithTotal(d.barChartData, v) == WithTotal(Bars(d.chartData, d.regions), v))
  {
    var d := ParseOriginData(t).value;
    SortIsStableDescending(Bars(d.chartData, d.regions));
  }

  /** A region's bar total is the sum of its year cells (`parseInt || 0`),
      read from the last row with that region, once per row listing it. */
  lemma BarIsRowTotal(t: Table, r: nat)
    requires r < |t.rows| && RowLabel(t.rows[r], RegionColumn, SkipBlank).Some?
    requires forall j :: r < j < |t.rows| ==> RowLabel(t.rows[j], RegionColumn, Stringify) != RowLabel(t.rows[r], RegionColumn, Stringify)
    ensures var d := ParseOriginData(t).value;
      var k := t.rows[r][RegionColumn];
      forall b :: b in d.barChartData && b.region == k ==>
        b.total == Count(d.regions, k) * RowSum(t.rows[r], Without(t.keys, RegionColumn))
  {
    var d := ParseOriginData(t).value;
    var bars := Bars(d.chartData, d.regions);
    ColumnSumOfPivot(t, RegionColumn, Stringify, r);
    SortIsStableDescending(bars);
    forall b | b in d.barChartData
      ensures b in bars
    {
      assert b in multiset(d.barChartData);
    }
  }
}

=== FILE: origin_province.dfy ===
/** The province-of-origin hook: each CSV row names a province (or, failing
    that, a region), the name is normalised, Metro Manila's "NCR" row is
    skipped, and the row's parsed cells are summed into a totals object keyed
    by the normalised name; the smallest and largest totals scale the map. */
module OriginProvince {
  import opened Basics
  import opened JsNumber
  import opened Table
  import opened Totals
  import opened ProvinceName

  const ProvinceColumn := "PROVINCE"
  const RegionColumn := "REGION"
  const Ncr := "NCR"

  /** One parsed row as the object the hook receives: `keys` is what
      `Object.keys(row)` lists for this row, which for a short line is fewer
      than the header's fields and for a long one ends with the extra-fields
      key; `cells` maps each key to its text. */
  datatype KeyedRow = KeyedRow(keys: seq<string>, cells: Row)

  /** A JavaScript object with string keys, as its entries in insertion
      order. */
  type Entries = seq<(string, int)>

  predicate DistinctKeys(es: Entries)
  {
    forall i, j :: 0 <= i < j < |es| ==> es[i].0 != es[j].0
  }

  function Lookup(es: Entries, k: string): Option<int>
  {
    if |es| == 0 then None
    else if es[0].0 == k then Some(es[0].1)
    else Lookup(es[1..], k)
  }

  /** The keys in insertion order (`Object.keys`). */
  function Keys(es: Entries): (r: seq<string>)
    ensures |r| == |es| && forall i :: 0 <= i < |es| ==> r[i] == es[i].0
  {
    if |es| == 0 then [] else [es[0].0] + Keys(es[1..])
  }

  /** `t[k] = v`: an existing key keeps its position and takes the new
      value; a new key is appended. */
  function Put(es: Entries, k: string, v: int): Entries
  {
    if |es| == 0 then [(k, v)]
    else if es[0].0 == k then [(k, v)] + es[1..]
    else [es[0]] + Put(es[1..], k, v)
  }

  /** Writing adds the key and no other. */
  lemma {:induction false} PutKeys(es: Entries, k: string, v: int)
    ensures forall x :: x in Keys(Put(es, k, v)) <==> x in Keys(es) || x == k
  {
    if |es| > 0 && es[0].0 != k {
      PutKeys(es[1..], k, v);
      assert Put(es, k, v)[1..] == Put(es[1..], k, v);
    } else if |es| > 0 {
      assert Put(es, k, v)[1..] == es[1..];
    }
  }

  /** The writing of an entry: the key reads back the new value and every
      other key is untouched. */
  lemma {:induction false} PutLookup(es: Entries, k: string, v: int, k': string)
    ensures Lookup(Put(es, k, v), k') == if k' == k then Some(v) else Lookup(es, k')
  {
    if |es| > 0 && es[0].0 != k {
      PutLookup(es[1..], k, v, k');
    }
  }

  lemma {:induction false} PutDistinct(es: Entries, k: string, v: int)
    requires DistinctKeys(es)
    ensures DistinctKeys(Put(es, k, v))
  {
    if |es| > 0 {
      var r := Put(es, k, v);
      if es[0].0 == k {
        forall m | 0 <= m < |r| ensures r[m].0 == es[m].0 {
          if m > 0 {
            assert r[m] == es[1..][m - 1] == es[m];
          }
        }
      } else {
        var rest := Put(es[1..], k, v);
        PutDistinct(es[1..], k, v);
        PutKeys(es[1..], k, v);
        forall i | 0 <= i < |es| - 1 ensures Keys(es[1..])[i] != es[0].0 {
          assert Keys(es[1..])[i] == es[i + 1].0;
        }
        forall i, j | 0 <= i < j < |r| ensures r[i].0 != r[j].0 {
          if i == 0 {
            assert r[j] == rest[j - 1];
            var x := rest[j - 1].0;
            assert Keys(rest)[j - 1] == x;
            if x in Keys(es[1..]) {
              var t :| 0 <= t < |Keys(es[1..])| && Keys(es[1..])[t] == x;
              assert x != es[0].0;
            }
          } else {
            assert r[i] == rest[i - 1] && r[j] == rest[j - 1];
          }
        }
      }
    }
  }

  /** `(row.PROVINCE || row.REGION || '')`: the first non-empty of the two
      cells. */
  function RawName(row: Row): string
  {
    if ProvinceColumn in row && row[ProvinceColumn] != "" then row[ProvinceColumn]
    else if RegionColumn in row && row[RegionColumn] != "" then row[RegionColumn]
    else ""
  }

  /** The loop over the row's keys: the cells under the names `p` and `q`
      are skipped, every other cell that parses is added and one that does
      not is skipped. */
  function SumExcept(row: Row, keys: seq<string>, p: string, q: string): int
  {
    if |keys| == 0 then 0
    else
      var k := keys[|keys| - 1];
      SumExcept(row, keys[..|keys| - 1], p, q) + (if k == p || k == q then 0 else Parsed(row, k))
  }

  /** The province hook's loop skips PROVINCE and REGION. */
  function ProvinceSum(row: Row, keys: seq<string>): int
  {
    SumExcept(row, keys, ProvinceColumn, RegionColumn)
  }

  /** `const v = parseInt(row[k], 10); if (!Number.isNaN(v)) sum += v`:
      what one cell adds. */
  function Parsed(row: Row, k: string): int
  {
    match CellYear(row, k)
    case None => 0
    case Some(v) => v
  }

  lemma ParsedIsCellInt(row: Row, k: string)
    ensures Parsed(row, k) == CellInt(row, k)
  {
  }

  /** What a row's total would be if unparseable cells counted as 0 and the
      cells under `p` and `q` were summed too, less those two cells. */
  function RowSumOutside(row: Row, keys: seq<string>, p: string, q: string): int
  {
    RowSum(row, keys)
    - Count(keys, p) * CellInt(row, p)
    - Count(keys, q) * CellInt(row, q)
  }

  /** Skipping an unparseable cell is the same as counting it as 0, so a
      row's total is its `parseInt || 0` sum over all keys with the two
      skipped columns taken back out. */
  lemma {:induction false} SumExceptIsRowSum(row: Row, keys: seq<string>, p: string, q: string)
    requires p != q
    ensures SumExcept(row, keys, p, q) == RowSumOutside(row, keys, p, q)
  {
    if |keys| > 0 {
      SumExceptIsRowSum(row, keys[..|keys| - 1], p, q);
      SumExceptStep(row, keys, p, q);
    } else {
      assert RowSum(row, keys) == 0 && Count(keys, p) == 0 && Count(keys, q) == 0;
    }
  }

  lemma SumExceptStep(row: Row, keys: seq<string>, p: string, q: string)
    requires |keys| > 0 && p != q
    requires SumExcept(row, keys[..|keys| - 1], p, q) == RowSumOutside(row, keys[..|keys| - 1], p, q)
    ensures SumExcept(row, keys, p, q) == RowSumOutside(row, keys, p, q)
  {
    var init := keys[..|keys| - 1];
    var k := keys[|keys| - 1];
    var ss, rs := SumExcept(row, init, p, q), RowSum(row, init);
    var cp, cq := Count(init, p), Count(init, q);
    var np, nq := Count(keys, p), Count(keys, q);
    var xp, xq, x := CellInt(row, p), CellInt(row, q), CellInt(row, k);
    assert RowSum(row, keys) == rs + x;
    if k == p {
      assert np == cp + 1 && nq == cq;
      SumStep(ss, rs, cp, cq, np, nq, xp, xq, x, 1, 0);
    } else if k == q {
      assert np == cp && nq == cq + 1;
      SumStep(ss, rs, cp, cq, np, nq, xp, xq, x, 0, 1);
    } else {
      assert np == cp && nq == cq;
      ParsedIsCellInt(row, k);
      SumStep(ss, rs, cp, cq, np, nq, xp, xq, x, 0, 0);
    }
  }

  lemma SumStep(ss: int, rs: int, cp: int, cq: int, np: int, nq: int, xp: int, xq: int, x: int, dp: int, dq: int)
    requires ss == rs - cp * xp - cq * xq
    requires np == cp + dp && nq == cq + dq
    ensures ss + x - dp * xp - dq * xq == (rs + x) - np * xp - nq * xq
  {
    assert np * xp == cp * xp + dp * xp;
    assert nq * xq == cq * xq + dq * xq;
  }

  /** A province row's total is its `parseInt || 0` sum over all keys,
      less the PROVINCE and REGION cells. */
  lemma ProvinceSumIsRowSum(row: Row, keys: seq<string>)
    ensures ProvinceSum(row, keys) == RowSumOutside(row, keys, ProvinceColumn, RegionColumn)
  {
    assert ProvinceColumn[0] != RegionColumn[0];
    SumExceptIsRowSum(row, keys, ProvinceColumn, RegionColumn);
  }

  /** What one row of the `forEach` writes: nothing for a row without a
      name or for the NCR row, else its sum over its own keys under its
      normalised name. */
  function RowEntry(row: KeyedRow): Option<(string, int)>
  {
    var raw := RawName(row.cells);
    if raw == "" then None
    else
      var name := NormalizeName(raw);
      if name == Ncr then None else Some((name, ProvinceSum(row.cells, row.keys)))
  }

  /** The writes in order, each replacing an earlier total of its key. */
  function Collect(items: seq<Option<(string, int)>>): Entries
  {
    if |items| == 0 then []
    else
      var prev := Collect(items[..|items| - 1]);
      match items[|items| - 1]
      case None => prev
      case Some(e) => Put(prev, e.0, e.1)
  }

  /** The writes of the rows, in order. */
  function Writes(rows: seq<KeyedRow>): (r: seq<Option<(string, int)>>)
    ensures |r| == |rows| && forall i :: 0 <= i < |rows| ==> r[i] == RowEntry(rows[i])
  {
    seq(|rows|, i requires 0 <= i < |rows| => RowEntry(rows[i]))
  }

  /** The totals object after the rows in order. */
  function ProvinceTotals(rows: seq<KeyedRow>): (r: Entries)
  {
    Collect(Writes(rows))
  }

  /** What the hook publishes. */
  datatype ProvinceData = ProvinceData(totals: Entries, min: int, max: int)

  function Values(es: Entries): (r: seq<int>)
    ensures |r| == |es| && forall i :: 0 <= i < |es| ==> r[i] == es[i].1
  {
    seq(|es|, i requires 0 <= i < |es| => es[i].1)
  }

  /** The `complete` callback. There is no early return: no rows give an
      empty totals object and both bounds 0. */
  function ParseOriginProvinceData(rows: seq<KeyedRow>): (r: ProvinceData)
    ensures r.totals == ProvinceTotals(rows)
    ensures |r.totals| == 0 ==> r.min == 0 && r.max == 0
    ensures |r.totals| > 0 ==> (exists i :: 0 <= i < |r.totals| && r.totals[i].1 == r.min)
                               && (exists i :: 0 <= i < |r.totals| && r.totals[i].1 == r.max)
    ensures forall i :: 0 <= i < |r.totals| ==> r.min <= r.totals[i].1 <= r.max
  {
    var es := ProvinceTotals(rows);
    var vs := Values(es);
    if |vs| == 0 then ProvinceData(es, 0, 0)
    else
      var lo := Min(vs);
      var hi := Max(vs);
      assert exists i :: 0 <= i < |es| && es[i].1 == lo by { var i :| 0 <= i < |vs| && vs[i] == lo; }
      assert exists i :: 0 <= i < |es| && es[i].1 == hi by { var i :| 0 <= i < |vs| && vs[i] == hi; }
      ProvinceData(es, lo, hi)
  }

  lemma {:induction false} CollectDistinct(items: seq<Option<(string, int)>>)
    ensures DistinctKeys(Collect(items))
  {
    if |items| > 0 {
      CollectDistinct(items[..|items| - 1]);
      if items[|items| - 1].Some? {
        var e := items[|items| - 1].value;
        PutDistinct(Collect(items[..|items| - 1]), e.0, e.1);
      }
    }
  }

  /** Some write in `items` is to key `k`. */
  ghost predicate HasEntry(items: seq<Option<(string, int)>>, k: string)
  {
    exists i, v :: 0 <= i < |items| && items[i] == Some((k, v))
  }

  lemma {:induction false} CollectKeys(items: seq<Option<(string, int)>>)
    ensures forall k :: k in Keys(Collect(items)) <==> HasEntry(items, k)
  {
    if |items| > 0 {
      var init := items[..|items| - 1];
      CollectKeys(init);
      if items[|items| - 1].Some? {
        var e := items[|items| - 1].value;
        PutKeys(Collect(init), e.0, e.1);
      }
      forall k | HasEntry(items, k)
        ensures k in Keys(Collect(items))
      {
        var i, v :| 0 <= i < |items| && items[i] == Some((k, v));
        if i < |items| - 1 {
          assert init[i] == Some((k, v));
        }
      }
      forall k | k in Keys(Collect(items))
        ensures HasEntry(items, k)
      {
        if k in Keys(Collect(init)) {
          var i, v :| 0 <= i < |init| && init[i] == Some((k, v));
          assert items[i] == Some((k, v));
        } else {
          assert items[|items| - 1] == Some((k, items[|items| - 1].value.1));
        }
      }
    }
  }

  lemma {:induction false} CollectLastWins(items: seq<Option<(string, int)>>, i: nat)
    requires i < |items| && items[i].Some?
    requires forall j :: i < j < |items| ==> items[j].None? || items[j].value.0 != items[i].value.0
    ensures Lookup(Collect(items), items[i].value.0) == Some(items[i].value.1)
  {
    var init := items[..|items| - 1];
    if items[|items| - 1].Some? {
      var e := items[|items| - 1].value;
      PutLookup(Collect(init), e.0, e.1, items[i].value.0);
    }
    if i < |items| - 1 {
      assert init[i] == items[i];
      CollectLastWins(init, i);
    }
  }

  /** The row is named and its name normalises to `k`. */
  predicate NamedAs(row: Row, k: string)
  {
    RawName(row) != "" && NormalizeName(RawName(row)) == k
  }

  lemma RowEntryOfNamed(row: KeyedRow, k: string)
    requires NamedAs(row.cells, k) && k != Ncr
    ensures RowEntry(row) == Some((k, ProvinceSum(row.cells, row.keys)))
  {
  }

  lemma RowEntryNamed(row: KeyedRow)
    ensures RowEntry(row).Some? ==> NamedAs(row.cells, RowEntry(row).value.0) && RowEntry(row).value.0 != Ncr
  {
  }

  /** The totals object never has a key twice. */
  lemma ProvinceTotalsDistinct(rows: seq<KeyedRow>)
    ensures DistinctKeys(ProvinceTotals(rows))
  {
    CollectDistinct(Writes(rows));
  }

  /** A key is present exactly when some row is named by it, and "NCR"
      never is. */
  lemma ProvinceTotalsKeys(rows: seq<KeyedRow>)
    ensures forall k :: k in Keys(ProvinceTotals(rows)) <==> k != Ncr && exists r :: 0 <= r < |rows| && NamedAs(rows[r].cells, k)
  {
    CollectKeys(Writes(rows));
    forall k ensures HasEntry(Writes(rows), k) <==> k != Ncr && exists r :: 0 <= r < |rows| && NamedAs(rows[r].cells, k) {
      if k != Ncr && exists r :: 0 <= r < |rows| && NamedAs(rows[r].cells, k) {
        var r :| 0 <= r < |rows| && NamedAs(rows[r].cells, k);
        NamedHasEntry(rows, r, k);
      }
      if HasEntry(Writes(rows), k) {
        EntryNamed(rows, k);
      }
    }
  }

  lemma NamedHasEntry(rows: seq<KeyedRow>, r: nat, k: string)
    requires r < |rows| && NamedAs(rows[r].cells, k) && k != Ncr
    ensures HasEntry(Writes(rows), k)
  {
    RowEntryOfNamed(rows[r], k);
    assert Writes(rows)[r] == Some((k, ProvinceSum(rows[r].cells, rows[r].keys)));
  }

  lemma EntryNamed(rows: seq<KeyedRow>, k: string)
    requires HasEntry(Writes(rows), k)
    ensures k != Ncr && exists r :: 0 <= r < |rows| && NamedAs(rows[r].cells, k)
  {
    var items := Writes(rows);
    var i, v :| 0 <= i < |items| && items[i] == Some((k, v));
    RowEntryNamed(rows[i]);
  }

  /** Every key of the totals object is in normal form. */
  lemma ProvinceTotalsNormalized(rows: seq<KeyedRow>)
    ensures forall k :: k in Keys(ProvinceTotals(rows)) ==> Normalized(k)
  {
    ProvinceTotalsKeys(rows);
    forall k | k in Keys(ProvinceTotals(rows)) ensures Normalized(k) {
      var r :| 0 <= r < |rows| && NamedAs(rows[r].cells, k);
      NormalizeNameShape(RawName(rows[r].cells));
    }
  }

  /** The last row with a given name decides its total: totals of rows
      sharing a normalised name are replaced, not added. */
  lemma ProvinceTotalsLastRowWins(rows: seq<KeyedRow>, r: nat, k: string)
    requires r < |rows| && NamedAs(rows[r].cells, k) && k != Ncr
    requires forall j :: r < j < |rows| ==> !NamedAs(rows[j].cells, k)
    ensures Lookup(ProvinceTotals(rows), k) == Some(ProvinceSum(rows[r].cells, rows[r].keys))
  {
    var items := Writes(rows);
    RowEntryOfNamed(rows[r], k);
    forall j | r < j < |items| ensures items[j].None? || items[j].value.0 != k {
      RowEntryNamed(rows[j]);
    }
    CollectLastWins(items, r);
  }

  /** A short line is summed over the cells it has: with header
      PROVINCE,2019,2020, the line "Aurora,1,2" totals 3 and the line
      "Abra,5" totals 5, its missing 2020 cell not being a key of its row. */
  lemma ShortRowExample()
    ensures ProvinceSum(map[ProvinceColumn := "Abra", "2019" := "5"], [ProvinceColumn, "2019"]) == 5
    ensures ProvinceSum(map[ProvinceColumn := "Aurora", "2019" := "1", "2020" := "2"], [ProvinceColumn, "2019", "2020"]) == 3
  {
    ShortLine(map[ProvinceColumn := "Abra", "2019" := "5"]);
    FullLine(map[ProvinceColumn := "Aurora", "2019" := "1", "2020" := "2"]);
  }

  /** A line with the name and one one-digit 2019 cell totals that digit. */
  lemma ShortLine(row: Row)
    requires "2019" in row && |row["2019"]| == 1 && IsDigit(row["2019"][0])
    ensures ProvinceSum(row, [ProvinceColumn, "2019"]) == DigitValue(row["2019"][0])
  {
    assert "2019"[0] == '2' != ProvinceColumn[0] && '2' != RegionColumn[0];
    DigitCell(row, "2019");
    SumNameCell(row);
    SumDataCell(row, [ProvinceColumn], "2019");
    assert [ProvinceColumn] + ["2019"] == [ProvinceColumn, "2019"];
  }

  lemma FullLine(row: Row)
    requires "2019" in row && row["2019"] == "1"
    requires "2020" in row && row["2020"] == "2"
    ensures ProvinceSum(row, [ProvinceColumn, "2019", "2020"]) == 3
  {
    assert "2020"[0] == '2' != ProvinceColumn[0] && '2' != RegionColumn[0];
    ShortLine(row);
    DigitCell(row, "2020");
    SumDataCell(row, [ProvinceColumn, "2019"], "2020");
    assert [ProvinceColumn, "2019"] + ["2020"] == [ProvinceColumn, "2019", "2020"];
  }

  lemma SumNameCell(row: Row)
    ensures ProvinceSum(row, [ProvinceColumn]) == 0
  {
    assert [ProvinceColumn][..0] == [];
    assert SumExcept(row, [], ProvinceColumn, RegionColumn) == 0;
  }

  /** A data cell after `keys` adds its parsed value. */
  lemma SumDataCell(row: Row, keys: seq<string>, k: string)
    requires |k| > 0 && k[0] != ProvinceColumn[0] && k[0] != RegionColumn[0]
    ensures ProvinceSum(row, keys + [k]) == ProvinceSum(row, keys) + Parsed(row, k)
  {
    assert (keys + [k])[..|keys|] == keys;
  }

  /** A one-digit cell parses to its digit. */
  lemma DigitCell(row: Row, k: string)
    requires k in row && |row[k]| == 1 && IsDigit(row[k][0])
    ensures Parsed(row, k) == DigitValue(row[k][0])
  {
    ParseIntOfDigits(row[k], "");
    assert row[k] + "" == row[k];
    assert row[k][..0] == "";
  }
}

=== FILE: periods.dfy ===
/** Grouping of year records into fixed-length periods for the stacked bar
    charts: periods start at `start` and advance by `len` while the start is
    at most `end`; each ends at `min(start + len - 1, end)`, so the last one
    is clipped. A period's value for a category is the sum, over the years
    it covers, of the first record with that year. */
module Periods {
  import opened Basics
  import opened JsNumber
  import opened Table

  /** One grouped record: its `"start - end"` label and its sums. */
  datatype Period = Period(periodLabel: string, values: map<string, int>)

  function Min2(a: int, b: int): int { if a <= b then a else b }

  /** The `(year, periodEnd)` pairs of the loop
      `for (year = start; year <= end; year += len)`. */
  function Bounds(start: int, end: int, len: nat): (r: seq<(int, int)>)
    requires len > 0
    ensures start > end ==> r == []
    ensures start <= end ==> |r| > 0 && r[0] == (start, Min2(start + len - 1, end))
    ensures forall i :: 0 <= i < |r| ==> start <= r[i].0 <= r[i].1 <= end
    decreases if start <= end then end - start + 1 else 0
  {
    if start > end then []
    else [(start, Min2(start + len - 1, end))] + Bounds(start + len, end, len)
  }

  /** `${year} - ${periodEnd}`. */
  function Label(s: int, e: int): string
  {
    IntToString(s) + " - " + IntToString(e)
  }

  /** The decimal renderings of the boundary years that appear in the
      first and last period labels of the hooks. */
  lemma BoundaryYearStrings()
    ensures IntToString(1981) == "1981" && IntToString(1985) == "1985"
    ensures IntToString(1988) == "1988" && IntToString(1990) == "1990"
    ensures IntToString(2016) == "2016" && IntToString(2018) == "2018"
    ensures IntToString(2020) == "2020"
  {
    FourDigitRendering(1981);
    FourDigitRendering(1985);
    FourDigitRendering(1988);
    FourDigitRendering(1990);
    FourDigitRendering(2016);
    FourDigitRendering(2018);
    FourDigitRendering(2020);
  }

  /** The calendar of the 5-year charts: 1981-1985 through 2016-2020. */
  lemma FiveYearBounds()
    ensures |Bounds(1981, 2020, 5)| == 8
    ensures forall i :: 0 <= i < 8 ==> Bounds(1981, 2020, 5)[i] == (1981 + 5 * i, 1985 + 5 * i)
  {
    BoundsShape(1981, 2020, 5);
  }

  lemma FiveYearLabels()
    ensures Label(1981, 1985) == "1981 - 1985"
    ensures Label(2016, 2020) == "2016 - 2020"
  {
    BoundaryYearStrings();
    assert "1981" + " - " + "1985" == "1981 - 1985";
    assert "2016" + " - " + "2020" == "2016 - 2020";
  }

  /** The calendar of the 3-year charts: 1988-1990 through 2018-2020. */
  lemma ThreeYearBounds()
    ensures |Bounds(1988, 2020, 3)| == 11
    ensures forall i :: 0 <= i < 11 ==> Bounds(1988, 2020, 3)[i] == (1988 + 3 * i, 1990 + 3 * i)
  {
    BoundsShape(1988, 2020, 3);
  }

  lemma ThreeYearLabels()
    ensures Label(1988, 1990) == "1988 - 1990"
    ensures Label(2018, 2020) == "2018 - 2020"
  {
    BoundaryYearStrings();
    assert "1988" + " - " + "1990" == "1988 - 1990";
    assert "2018" + " - " + "2020" == "2018 - 2020";
  }

  /** The running `sum` for one category over the years `lo..hi`. */
  function SumYears(records: seq<YearRecord>, k: string, lo: int, hi: int): int
    decreases if lo <= hi then hi - lo + 1 else 0
  {
    if lo > hi then 0 else SumYears(records, k, lo, hi - 1) + ValueAt(records, k, hi)
  }

  /** A record that starts every listed field at 0. */
  function Zeros(fields: seq<string>): (m: map<string, int>)
    ensures m.Keys == set f | f in fields
    ensures forall f :: f in m ==> m[f] == 0
  {
    map f | f in fields :: 0
  }

  /** A period record: the `base` fields (the fixed fields some hooks
      initialise to 0), then each category overwritten with its sum. */
  function PeriodValues(records: seq<YearRecord>, cats: seq<string>, base: map<string, int>, lo: int, hi: int): (m: map<string, int>)
    ensures m.Keys == base.Keys + (set k | k in cats)
    ensures forall k :: k in cats ==> m[k] == SumYears(records, k, lo, hi)
    ensures forall k :: k in base && k !in cats ==> m[k] == base[k]
  {
    base + map k | k in cats :: SumYears(records, k, lo, hi)
  }

  /** The period record for the bound `(lo, hi)`. */
  function PeriodAt(records: seq<YearRecord>, cats: seq<string>, base: map<string, int>, b: (int, int)): Period
  {
    Period(Label(b.0, b.1), PeriodValues(records, cats, base, b.0, b.1))
  }

  /** The grouped chart data: one period per iteration of
      `for (year = start; year <= end; year += len)`, in order; the i-th
      period covers exactly the i-th bound. */
  function Aggregate(records: seq<YearRecord>, cats: seq<string>, base: map<string, int>,
                     start: int, end: int, len: nat): (r: seq<Period>)
    requires len > 0
    ensures |r| == |Bounds(start, end, len)|
    ensures forall i :: 0 <= i < |r| ==> r[i] == PeriodAt(records, cats, base, Bounds(start, end, len)[i])
  {
    var b := Bounds(start, end, len);
    seq(|b|, i requires 0 <= i < |b| => PeriodAt(records, cats, base, b[i]))
  }

  /** The i-th period sums each category over exactly the i-th bound. */
  lemma AggregateSums(records: seq<YearRecord>, cats: seq<string>, base: map<string, int>,
                      start: int, end: int, len: nat)
    requires len > 0
    ensures forall i, k :: 0 <= i < |Bounds(start, end, len)| && k in cats ==>
              ValueOr0(Aggregate(records, cats, base, start, end, len)[i].values, k)
              == SumYears(records, k, Bounds(start, end, len)[i].0, Bounds(start, end, len)[i].1)
  {
  }

  /** The number of periods `n` is `ceil((end - start + 1) / len)`, i.e. the
      `n` periods of length `len` cover the range and `n - 1` do not; the i-th
      starts at `start + i * len` and ends at `min(start + i * len + len - 1, end)`. */
  lemma {:induction false} BoundsShape(start: int, end: int, len: nat)
    requires len > 0 && start <= end
    ensures (|Bounds(start, end, len)| - 1) * len <= end - start < |Bounds(start, end, len)| * len
    ensures forall i :: 0 <= i < |Bounds(start, end, len)| ==>
              Bounds(start, end, len)[i] == (start + i * len, Min2(start + i * len + len - 1, end))
    decreases end - start + 1
  {
    var b := Bounds(start, end, len);
    if start + len > end {
      assert b == [(start, Min2(start + len - 1, end))];
    } else {
      var rest := Bounds(start + len, end, len);
      BoundsShape(start + len, end, len);
      assert b == [b[0]] + rest;
      assert |b| == |rest| + 1;
      assert (|rest| + 1) * len == |rest| * len + len;
      forall i | 0 < i < |b|
        ensures b[i] == (start + i * len, Min2(start + i * len + len - 1, end))
      {
        assert b[i] == rest[i - 1];
        assert start + len + (i - 1) * len == start + i * len;
      }
    }
  }

  /** Splitting a year range at `mid` splits its sum. */
  lemma {:induction false} SumYearsSplit(records: seq<YearRecord>, k: string, lo: int, mid: int, hi: int)
    requires lo - 1 <= mid <= hi
    ensures SumYears(records, k, lo, hi) == SumYears(records, k, lo, mid) + SumYears(records, k, mid + 1, hi)
    decreases hi - mid
  {
    if mid < hi {
      SumYearsSplit(records, k, lo, mid, hi - 1);
    }
  }

  /** Sum of one category over a list of periods. */
  function PeriodsTotal(ps: seq<Period>, k: string): int
  {
    if |ps| == 0 then 0 else ValueOr0(ps[0].values, k) + PeriodsTotal(ps[1..], k)
  }

  /** The sums of one category over each bound, added up. */
  function BoundSums(records: seq<YearRecord>, k: string, bs: seq<(int, int)>): int
  {
    if |bs| == 0 then 0 else SumYears(records, k, bs[0].0, bs[0].1) + BoundSums(records, k, bs[1..])
  }

  /** The bounds partition the year range. */
  lemma {:induction false} BoundsPartition(records: seq<YearRecord>, k: string, start: int, end: int, len: nat)
    requires len > 0
    ensures BoundSums(records, k, Bounds(start, end, len)) == SumYears(records, k, start, end)
    decreases if start <= end then end - start + 1 else 0
  {
    if start <= end {
      var b := Bounds(start, end, len);
      assert b[1..] == Bounds(start + len, end, len);
      BoundsPartition(records, k, start + len, end, len);
      if start + len <= end {
        SumYearsSplit(records, k, start, start + len - 1, end);
      } else {
        assert SumYears(records, k, start + len, end) == 0;
      }
    }
  }

  /** A list of period records built from a list of bounds totals their sums. */
  lemma {:induction false} PeriodsTotalOfBounds(records: seq<YearRecord>, cats: seq<string>, base: map<string, int>,
                                                ps: seq<Period>, bs: seq<(int, int)>, k: string)
    requires k in cats && |ps| == |bs|
    requires forall i :: 0 <= i < |ps| ==> ps[i] == PeriodAt(records, cats, base, bs[i])
    ensures PeriodsTotal(ps, k) == BoundSums(records, k, bs)
  {
    if |ps| > 0 {
      PeriodsTotalOfBounds(records, cats, base, ps[1..], bs[1..], k);
    }
  }

  /** Period sums conserve the total: summed over all periods, a category
      equals its sum over every year from `start` to `end`; no year is
      dropped or counted twice, and the clipped last period is summed in full. */
  lemma AggregateConserves(records: seq<YearRecord>, cats: seq<string>, base: map<string, int>,
                           start: int, end: int, len: nat, k: string)
    requires len > 0 && k in cats
    ensures PeriodsTotal(Aggregate(records, cats, base, start, end, len), k) == SumYears(records, k, start, end)
  {
    PeriodsTotalOfBounds(records, cats, base, Aggregate(records, cats, base, start, end, len), Bounds(start, end, len), k);
    BoundsPartition(records, k, start, end, len);
  }

  /** No two records share a (parsed) year. */
  predicate DistinctYears(records: seq<YearRecord>)
  {
    forall i, j :: 0 <= i < j < |records| && records[i].year.Some? ==> records[i].year != records[j].year
  }

  /** Reference definition: the sum of a field over the records whose year
      lies in `lo..hi`, visiting records rather than years. */
  function RecordsSum(records: seq<YearRecord>, k: string, lo: int, hi: int): int
  {
    if |records| == 0 then 0
    else
      var r := records[0];
      (if r.year.Some? && lo <= r.year.value <= hi then ValueOr0(r.values, k) else 0)
      + RecordsSum(records[1..], k, lo, hi)
  }

  lemma {:induction false} RecordsSumSplitTop(records: seq<YearRecord>, k: string, lo: int, hi: int)
    requires lo <= hi
    ensures RecordsSum(records, k, lo, hi) == RecordsSum(records, k, lo, hi - 1) + RecordsSum(records, k, hi, hi)
  {
    if |records| > 0 {
      RecordsSumSplitTop(records[1..], k, lo, hi);
    }
  }

  lemma {:induction false} RecordsSumOneYear(records: seq<YearRecord>, k: string, y: int)
    requires DistinctYears(records)
    ensures RecordsSum(records, k, y, y) == ValueAt(records, k, y)
  {
    if |records| > 0 {
      var tail := records[1..];
      assert DistinctYears(tail) by {
        forall i, j | 0 <= i < j < |tail| && tail[i].year.Some?
          ensures tail[i].year != tail[j].year
        {
          assert tail[i] == records[i + 1] && tail[j] == records[j + 1];
        }
      }
      RecordsSumOneYear(tail, k, y);
      if records[0].year == Some(y) {
        assert FirstWithYear(records, y) == Some(0);
        assert forall j :: 0 <= j < |tail| ==> tail[j].year != Some(y) by {
          forall j | 0 <= j < |tail| ensures tail[j].year != Some(y) {
            assert tail[j] == records[j + 1];
          }
        }
        NoYearSumsZero(tail, k, y);
      } else {
        match FirstWithYear(tail, y)
        case None =>
        case Some(i) =>
          assert FirstWithYear(records, y) == Some(i + 1);
          assert records[i + 1] == tail[i];
      }
    }
  }

  lemma {:induction false} NoYearSumsZero(records: seq<YearRecord>, k: string, y: int)
    requires forall j :: 0 <= j < |records| ==> records[j].year != Some(y)
    ensures RecordsSum(records, k, y, y) == 0
  {
    if |records| > 0 {
      NoYearSumsZero(records[1..], k, y);
    }
  }

  /** When years are distinct, summing year by year (with `find`) equals
      summing the records whose year is in range. */
  lemma {:induction false} SumYearsIsRecordsSum(records: seq<YearRecord>, k: string, lo: int, hi: int)
    requires DistinctYears(records)
    ensures SumYears(records, k, lo, hi) == RecordsSum(records, k, lo, hi)
    decreases if lo <= hi then hi - lo + 1 else 0
  {
    if lo <= hi {
      SumYearsIsRecordsSum(records, k, lo, hi - 1);
      RecordsSumSplitTop(records, k, lo, hi);
      RecordsSumOneYear(records, k, hi);
    } else {
      EmptyRangeSumsZero(records, k, lo, hi);
    }
  }

  lemma {:induction false} EmptyRangeSumsZero(records: seq<YearRecord>, k: string, lo: int, hi: int)
    requires lo > hi
    ensures RecordsSum(records, k, lo, hi) == 0
  {
    if |records| > 0 {
      EmptyRangeSumsZero(records[1..], k, lo, hi);
    }
  }

  /** Conservation stated on the records: with distinct years, a category
      summed over all periods equals its sum over the records whose year
      lies in `start..end`; records outside that range are ignored. */
  lemma AggregateConservesRecords(records: seq<YearRecord>, cats: seq<string>, base: map<string, int>,
                                  start: int, end: int, len: nat, k: string)
    requires len > 0 && k in cats && DistinctYears(records)
    ensures PeriodsTotal(Aggregate(records, cats, base, start, end, len), k) == RecordsSum(records, k, start, end)
  {
    AggregateConserves(records, cats, base, start, end, len, k);
    SumYearsIsRecordsSum(records, k, start, end);
  }

  /** A category no record carries sums to 0 in every period. */
  lemma {:induction false} SumYearsAbsentField(records: seq<YearRecord>, k: string, lo: int, hi: int)
    requires forall i :: 0 <= i < |records| ==> k !in records[i].values
    ensures SumYears(records, k, lo, hi) == 0
    decreases if lo <= hi then hi - lo + 1 else 0
  {
    if lo <= hi {
      SumYearsAbsentField(records, k, lo, hi - 1);
    }
  }
}

=== FILE: prediction_charts.dfy ===
/** The forecast chart: historical records and model predictions are merged
    into one year-ordered series, split back into a solid and a dashed line
    joined by a bridge point, and summarised in a table of at most six
    feature columns. */
module PredictionCharts {
  import opened Basics
  import opened JsNumber

  const YearKey := "Year"
  const SummaryWidth := 6

  /** One historical record: its keys in `Object.keys` order (including
      "Year"), its year and its feature values. */
  datatype Historical = Historical(keys: seq<string>, year: int, values: map<string, int>)

  /** One prediction of the forecasting service: the year and the predicted
      value of each feature. */
  datatype Prediction = Prediction(year: int, predictions: map<string, int>)

  /** One point of the combined series. */
  datatype Point = Point(year: int, values: map<string, int>, isPrediction: bool)

  /** `features`: the first historical record's keys other than "Year", in
      key order; none without history. */
  function Features(hist: seq<Historical>): (r: seq<string>)
    ensures |hist| == 0 ==> r == []
    ensures YearKey !in r
    ensures |hist| > 0 ==> forall k :: k in r <==> k in hist[0].keys && k != YearKey
    ensures |hist| > 0 ==> r == Filter(hist[0].keys, IsNot(YearKey))
  {
    if |hist| == 0 then []
    else
      WithoutIsFilter(hist[0].keys, YearKey);
      Without(hist[0].keys, YearKey)
  }

  /** `{ ...item, isPrediction: false }`. */
  function HistoricalPoint(h: Historical): Point
  {
    Point(h.year, h.values, false)
  }

  /** `{ Year: pred.year, ...pred.predictions, isPrediction: true }`: the
      spread comes after `Year`, so a "Year" entry among the predictions
      would replace the prediction's year. */
  function PredictedPoint(p: Prediction): Point
  {
    Point(if YearKey in p.predictions then p.predictions[YearKey] else p.year,
          p.predictions - {YearKey}, true)
  }

  function HistoricalPoints(hist: seq<Historical>): (r: seq<Point>)
    ensures |r| == |hist|
    ensures forall i :: 0 <= i < |r| ==> !r[i].isPrediction && r[i].year == hist[i].year && r[i].values == hist[i].values
  {
    seq(|hist|, i requires 0 <= i < |hist| => HistoricalPoint(hist[i]))
  }

  function PredictedPoints(preds: seq<Prediction>): (r: seq<Point>)
    ensures |r| == |preds|
    ensures forall j :: 0 <= j < |r| ==> r[j].isPrediction && YearKey !in r[j].values
    ensures forall j, k :: 0 <= j < |r| && k != YearKey ==>
              (k in r[j].values <==> k in preds[j].predictions) &&
              (k in r[j].values ==> r[j].values[k] == preds[j].predictions[k])
  {
    seq(|preds|, j requires 0 <= j < |preds| => PredictedPoint(preds[j]))
  }

  /** `combinedData`: every historical record, then every prediction. */
  function Combined(hist: seq<Historical>, preds: seq<Prediction>): (r: seq<Point>)
    ensures |r| == |hist| + |preds|
    ensures forall i :: 0 <= i < |r| ==> (r[i].isPrediction <==> i >= |hist|)
  {
    HistoricalPoints(hist) + PredictedPoints(preds)
  }

  /** A prediction without a "Year" entry is placed at its own year. */
  lemma PredictedYear(preds: seq<Prediction>, j: nat)
    requires j < |preds| && YearKey !in preds[j].predictions
    ensures Combined([], preds)[j].year == preds[j].year
  {
    assert Combined([], preds) == PredictedPoints(preds);
  }

  predicate IsHistory(p: Point) { !p.isPrediction }
  predicate IsPredicted(p: Point) { p.isPrediction }

  /** Splitting the combined series by `isPrediction`, as the two line
      layers do, gives back exactly the historical points and exactly the
      predicted points, each in their own order. */
  lemma {:induction false} CombinedSplits(hist: seq<Historical>, preds: seq<Prediction>)
    ensures Filter(Combined(hist, preds), IsHistory) == HistoricalPoints(hist)
    ensures Filter(Combined(hist, preds), IsPredicted) == PredictedPoints(preds)
  {
    var hs, ps := HistoricalPoints(hist), PredictedPoints(preds);
    FilterAppend(hs, ps, IsHistory);
    FilterAppend(hs, ps, IsPredicted);
    FilterAll(hs, IsHistory);
    FilterNone(ps, IsHistory);
    FilterNone(hs, IsPredicted);
    FilterAll(ps, IsPredicted);
    assert hs + [] == hs;
    assert [] + ps == ps;
  }

  function PointYears(ps: seq<Point>): (r: seq<int>)
    ensures |r| == |ps| && forall i :: 0 <= i < |ps| ==> r[i] == ps[i].year
  {
    seq(|ps|, i requires 0 <= i < |ps| => ps[i].year)
  }

  /** `lastHistoricalYear`: the latest historical year, `null` without
      history. */
  function LastHistoricalYear(hist: seq<Historical>): (r: Option<int>)
    ensures r.None? <==> |hist| == 0
    ensures r.Some? ==> (exists i :: 0 <= i < |hist| && hist[i].year == r.value)
                        && forall i :: 0 <= i < |hist| ==> hist[i].year <= r.value
  {
    if |hist| == 0 then None
    else
      var ys := PointYears(HistoricalPoints(hist));
      assert forall i :: 0 <= i < |hist| ==> hist[i].year == ys[i];
      Some(Max(ys))
  }

  /** `yearRange`: the earliest and the latest year of the combined series,
      `{ min: 0, max: 0 }` when it is empty. */
  function YearRange(ps: seq<Point>): (r: (int, int))
    ensures |ps| == 0 ==> r == (0, 0)
    ensures |ps| > 0 ==> r.0 <= r.1
    ensures |ps| > 0 ==> (exists i :: 0 <= i < |ps| && ps[i].year == r.0)
                         && (exists i :: 0 <= i < |ps| && ps[i].year == r.1)
    ensures forall i :: 0 <= i < |ps| ==> r.0 <= ps[i].year <= r.1
  {
    if |ps| == 0 then (0, 0)
    else
      var ys := PointYears(ps);
      assert ys[0] == ps[0].year;
      (Min(ys), Max(ys))
  }

  /** The title's range spans the reference line: the last historical year
      lies between the range's ends. */
  lemma RangeSpansLastHistorical(hist: seq<Historical>, preds: seq<Prediction>)
    requires |hist| > 0
    ensures var r := YearRange(Combined(hist, preds));
      r.0 <= LastHistoricalYear(hist).value <= r.1
  {
    var c := Combined(hist, preds);
    var i :| 0 <= i < |hist| && hist[i].year == LastHistoricalYear(hist).value;
    assert c[i].year == hist[i].year;
  }

  /** "No data available": no feature or no point to draw. */
  predicate NoData(hist: seq<Historical>, preds: seq<Prediction>)
  {
    |Features(hist)| == 0 || |Combined(hist, preds)| == 0
  }

  /** Predictions alone never make a chart: without history there are no
      features to draw. */
  lemma NoDataWithoutHistory(hist: seq<Historical>, preds: seq<Prediction>)
    ensures |hist| == 0 ==> NoData(hist, preds)
    ensures !NoData(hist, preds) ==> |hist| > 0 && |Features(hist)| > 0
  {
  }

  /** JavaScript truthiness of a number that may be `null`: `null` and `0`
      are falsy. */
  predicate Truthy(y: Option<int>)
  {
    y.Some? && y.value != 0
  }

  /** `predictedWithBridge`: when `lastHistoricalYear` is truthy, the
      positionally last historical point and then the predicted points;
      otherwise just the predicted points. */
  function Bridge(hist: seq<Historical>, preds: seq<Prediction>): (r: seq<Point>)
    ensures Truthy(LastHistoricalYear(hist)) ==>
              |hist| > 0 && |r| == |preds| + 1 &&
              r[0] == HistoricalPoint(hist[|hist| - 1]) && r[1..] == PredictedPoints(preds)
    ensures !Truthy(LastHistoricalYear(hist)) ==> r == PredictedPoints(preds)
  {
    var c := Combined(hist, preds);
    CombinedSplits(hist, preds);
    var hs := Filter(c, IsHistory);
    var ps := Filter(c, IsPredicted);
    if Truthy(LastHistoricalYear(hist)) then [hs[|hs| - 1]] + ps else ps
  }

  /** Years in non-decreasing order. */
  predicate Ascending(hist: seq<Historical>)
  {
    forall i, j :: 0 <= i <= j < |hist| ==> hist[i].year <= hist[j].year
  }

  /** The dashed line starts at the reference line when the history is in
      year order: the bridge point is then the latest historical year. */
  lemma BridgeStartsAtReferenceLine(hist: seq<Historical>, preds: seq<Prediction>)
    requires Ascending(hist) && Truthy(LastHistoricalYear(hist))
    ensures Bridge(hist, preds)[0].year == LastHistoricalYear(hist).value
  {
    var i :| 0 <= i < |hist| && hist[i].year == LastHistoricalYear(hist).value;
    assert hist[i].year <= hist[|hist| - 1].year;
  }

  /** Out of year order, the bridge point is not at the reference line: the
      history 2020, 2019 puts the line at 2020 and the bridge at 2019. */
  lemma BridgeFollowsPosition()
    ensures var hist := [Historical([YearKey], 2020, map[]), Historical([YearKey], 2019, map[])];
      LastHistoricalYear(hist) == Some(2020) && Bridge(hist, [])[0].year == 2019
  {
    var hist := [Historical([YearKey], 2020, map[]), Historical([YearKey], 2019, map[])];
    assert PointYears(HistoricalPoints(hist)) == [2020, 2019];
  }

  /** The summary table's feature columns: the first six features. */
  function SummaryColumns(features: seq<string>): (r: seq<string>)
    ensures |r| <= |features| && |r| <= SummaryWidth && r == features[..|r|]
    ensures |r| == |features| || |r| == SummaryWidth
  {
    if |features| <= SummaryWidth then features else features[..SummaryWidth]
  }

  /** The trailing "+k more" column, present with more than six features. */
  function MoreColumn(features: seq<string>): (r: Option<string>)
    ensures r.Some? <==> |features| > SummaryWidth
  {
    if |features| > SummaryWidth then Some("+" + IntToString(|features| - SummaryWidth) + " more")
    else None
  }

  /** "+k more" reads back as `k`. */
  lemma MoreLabelReadsBack(text: string, k: int)
    requires text == "+" + IntToString(k) + " more"
    ensures text[0] == '+' && ParseInt(text[1..]) == Some(k)
  {
    var digits := IntToString(k);
    assert text[1..] == "" + digits + " more";
    ParseIntReadsRendering("", k, " more");
  }

  /** The header accounts for every feature: the shown columns and the
      count read back from "+k more" add up to the number of features, and
      with six or fewer every feature is shown. */
  lemma SummaryAccountsForAll(features: seq<string>)
    ensures MoreColumn(features).None? ==> SummaryColumns(features) == features
    ensures MoreColumn(features).Some? ==>
              |MoreColumn(features).value| > 0 && MoreColumn(features).value[0] == '+' &&
              ParseInt(MoreColumn(features).value[1..]) == Some(|features| - |SummaryColumns(features)|)
  {
    if |features| > SummaryWidth {
      MoreLabelReadsBack(MoreColumn(features).value, |features| - SummaryWidth);
    }
  }

  /** One body row of the summary table: the prediction's own year, one
      cell per shown column (`None` renders as "-") and the trailing "..."
      cell when columns are hidden. */
  datatype SummaryRow = SummaryRow(year: int, cells: seq<Option<int>>, ellipsis: bool)

  function SummaryRowOf(p: Prediction, features: seq<string>): (r: SummaryRow)
    ensures r.year == p.year && r.ellipsis == MoreColumn(features).Some?
    ensures |r.cells| == |SummaryColumns(features)|
    ensures forall i :: 0 <= i < |r.cells| ==>
              (r.cells[i].Some? <==> features[i] in p.predictions) &&
              (r.cells[i].Some? ==> r.cells[i].value == p.predictions[features[i]])
  {
    var cols := SummaryColumns(features);
    SummaryRow(p.year,
               seq(|cols|, i requires 0 <= i < |cols| =>
                 if cols[i] in p.predictions then Some(p.predictions[cols[i]]) else None),
               |features| > SummaryWidth)
  }
}

=== FILE: province_name.dfy ===
/** `normalizeName`, shared by the province hook and the province map so
    that CSV keys and map feature ids agree: upper-case, trim, replace every
    parenthetical note together with the whitespace around it by one space,
    collapse whitespace runs to one space, trim again. */
module ProvinceName {
  import opened Basics

  /** Length of the run of whitespace that starts `s`. */
  function LeadingSpaces(s: string): (n: nat)
    ensures n <= |s|
    ensures forall i :: 0 <= i < n ==> IsSpace(s[i])
    ensures n < |s| ==> !IsSpace(s[n])
  {
    if |s| > 0 && IsSpace(s[0]) then 1 + LeadingSpaces(s[1..]) else 0
  }

  /** Index of the first `)` in `s`. */
  function FirstClose(s: string): (r: Option<nat>)
    ensures r.Some? ==> r.value < |s| && s[r.value] == ')'
    ensures r.Some? ==> forall i :: 0 <= i < r.value ==> s[i] != ')'
    ensures r.None? ==> ')' !in s
  {
    if |s| == 0 then None
    else if s[0] == ')' then Some(0)
    else match FirstClose(s[1..])
      case None => None
      case Some(j) => Some(j + 1)
  }

  /** Length of the parenthetical-note match at the start of `s`, if any:
      whitespace, `(`, everything up to the first `)`, that `)`, and the
      whitespace after it. */
  function ParenMatch(s: string): (r: Option<nat>)
    ensures r.Some? ==> 0 < r.value <= |s|
    ensures r.None? && LeadingSpaces(s) < |s| && s[LeadingSpaces(s)] == '(' ==> ')' !in s[LeadingSpaces(s) + 1..]
  {
    var w := LeadingSpaces(s);
    if w < |s| && s[w] == '(' then
      match FirstClose(s[w + 1..])
      case None => None
      case Some(j) =>
        var e := w + 2 + j;
        Some(e + LeadingSpaces(s[e..]))
    else None
  }

  /** The global replacement of parenthetical notes by `' '`: scanning left
      to right, each match becomes one space and scanning resumes after it;
      a `(` with no later `)` is kept. */
  function StripParens(s: string): string
    decreases |s|
  {
    if |s| == 0 then ""
    else match ParenMatch(s)
      case Some(n) => " " + StripParens(s[n..])
      case None => [s[0]] + StripParens(s[1..])
  }

  /** The global replacement of whitespace runs by `' '`: every maximal
      run becomes one space. */
  function CollapseSpaces(s: string): (r: string)
    ensures |r| == 0 <==> |s| == 0
    ensures |s| > 0 ==> (IsSpace(r[0]) <==> IsSpace(s[0]))
    decreases |s|
  {
    if |s| == 0 then ""
    else if IsSpace(s[0]) then " " + CollapseSpaces(s[LeadingSpaces(s)..])
    else [s[0]] + CollapseSpaces(s[1..])
  }

  /** `normalizeName(s)` on a non-empty (ASCII) string. */
  function NormalizeName(s: string): string
  {
    Trim(CollapseSpaces(StripParens(Trim(ToUpper(s)))))
  }

  predicate NoLower(s: string) { forall i :: 0 <= i < |s| ==> !IsLower(s[i]) }

  predicate Trimmed(s: string) { |s| > 0 ==> !IsSpace(s[0]) && !IsSpace(s[|s| - 1]) }

  /** The only whitespace is single `' '` characters. */
  predicate SingleSpaced(s: string)
  {
    forall i :: 0 <= i < |s| && IsSpace(s[i]) ==> s[i] == ' ' && (i + 1 < |s| ==> !IsSpace(s[i + 1]))
  }

  /** No `(` is followed, anywhere later, by a `)`. */
  predicate NoGroup(s: string)
  {
    forall i, j :: 0 <= i < j < |s| && s[i] == '(' ==> s[j] != ')'
  }

  /** The shape every normalised name has. */
  predicate Normalized(s: string)
  {
    NoLower(s) && Trimmed(s) && SingleSpaced(s) && NoGroup(s)
  }

  /** Both replacement passes only drop characters or write spaces. */
  lemma {:induction false} StripParensChars(s: string)
    ensures forall c :: c in StripParens(s) ==> c == ' ' || c in s
    decreases |s|
  {
    if |s| > 0 {
      match ParenMatch(s)
      case Some(n) => StripParensChars(s[n..]);
      case None => StripParensChars(s[1..]);
    }
  }

  lemma {:induction false} CollapseSpacesChars(s: string)
    ensures forall c :: c in CollapseSpaces(s) ==> c == ' ' || c in s
    decreases |s|
  {
    if |s| > 0 {
      if IsSpace(s[0]) {
        CollapseSpacesChars(s[LeadingSpaces(s)..]);
      } else {
        CollapseSpacesChars(s[1..]);
      }
    }
  }

  lemma NoGroupCons(c: char, t: string)
    ensures NoGroup([c] + t) <==> NoGroup(t) && (c == '(' ==> ')' !in t)
  {
    var s := [c] + t;
    if NoGroup(t) && (c == '(' ==> ')' !in t) {
      forall i, j | 0 <= i < j < |s| && s[i] == '(' ensures s[j] != ')' {
        if i == 0 {
          assert s[j] == t[j - 1];
        } else {
          assert s[i] == t[i - 1] && s[j] == t[j - 1];
        }
      }
    }
    if NoGroup(s) {
      forall i, j | 0 <= i < j < |t| && t[i] == '(' ensures t[j] != ')' {
        assert s[i + 1] == t[i] && s[j + 1] == t[j];
      }
      if c == '(' {
        forall j | 0 <= j < |t| ensures t[j] != ')' {
          assert s[0] == '(' && s[j + 1] == t[j];
        }
      }
    }
  }

  /** What the parenthesis pass leaves has no `(...)` group left. */
  lemma {:induction false} StripParensNoGroup(s: string)
    ensures NoGroup(StripParens(s))
    decreases |s|
  {
    if |s| > 0 {
      match ParenMatch(s)
      case Some(n) =>
        StripParensNoGroup(s[n..]);
        NoGroupCons(' ', StripParens(s[n..]));
      case None =>
        StripParensNoGroup(s[1..]);
        StripParensChars(s[1..]);
        NoGroupCons(s[0], StripParens(s[1..]));
        if s[0] == '(' {
          assert LeadingSpaces(s) == 0;
          assert s[1..] == s[LeadingSpaces(s) + 1..];
        }
    }
  }

  lemma {:induction false} CollapseNoGroup(s: string)
    requires NoGroup(s)
    ensures NoGroup(CollapseSpaces(s))
    decreases |s|
  {
    if |s| > 0 {
      if IsSpace(s[0]) {
        var w := LeadingSpaces(s);
        assert NoGroup(s[w..]);
        CollapseNoGroup(s[w..]);
        NoGroupCons(' ', CollapseSpaces(s[w..]));
      } else {
        NoGroupCons(s[0], s[1..]);
        assert s == [s[0]] + s[1..];
        CollapseNoGroup(s[1..]);
        CollapseSpacesChars(s[1..]);
        NoGroupCons(s[0], CollapseSpaces(s[1..]));
      }
    }
  }

  lemma {:induction false} CollapseSingleSpaced(s: string)
    ensures SingleSpaced(CollapseSpaces(s))
    decreases |s|
  {
    if |s| > 0 {
      var r := CollapseSpaces(s);
      if IsSpace(s[0]) {
        var w := LeadingSpaces(s);
        var t := CollapseSpaces(s[w..]);
        CollapseSingleSpaced(s[w..]);
        assert r == " " + t;
        forall i | 0 <= i < |r| && IsSpace(r[i]) ensures r[i] == ' ' && (i + 1 < |r| ==> !IsSpace(r[i + 1])) {
          if i > 0 {
            assert r[i] == t[i - 1];
          }
          if i + 1 < |r| {
            assert r[i + 1] == t[i];
          }
        }
      } else {
        var t := CollapseSpaces(s[1..]);
        CollapseSingleSpaced(s[1..]);
        assert r == [s[0]] + t;
        forall i | 0 <= i < |r| && IsSpace(r[i]) ensures r[i] == ' ' && (i + 1 < |r| ==> !IsSpace(r[i + 1])) {
          assert r[i] == t[i - 1];
          if i + 1 < |r| {
            assert r[i + 1] == t[i];
          }
        }
      }
    }
  }

  /** Trimming keeps a contiguous slice, so the slice-closed properties
      survive it. */
  lemma TrimKeeps(s: string)
    ensures Trimmed(Trim(s))
    ensures exists a, b :: 0 <= a <= b <= |s| && Trim(s) == s[a..b]
  {
    var r := Trim(s);
    var a: nat :| InfixAt(s, r, a);
    assert r == s[a..a + |r|];
  }

  lemma SliceKeeps(s: string, a: nat, b: nat)
    requires a <= b <= |s|
    ensures NoLower(s) ==> NoLower(s[a..b])
    ensures SingleSpaced(s) ==> SingleSpaced(s[a..b])
    ensures NoGroup(s) ==> NoGroup(s[a..b])
  {
    var t := s[a..b];
    if NoGroup(s) {
      forall i, j | 0 <= i < j < |t| && t[i] == '(' ensures t[j] != ')' {
        assert t[i] == s[a + i] && t[j] == s[a + j];
      }
    }
    if SingleSpaced(s) {
      forall i | 0 <= i < |t| && IsSpace(t[i]) ensures t[i] == ' ' && (i + 1 < |t| ==> !IsSpace(t[i + 1])) {
        assert t[i] == s[a + i];
        if i + 1 < |t| {
          assert t[i + 1] == s[a + i + 1];
        }
      }
    }
  }

  lemma NoLowerFromChars(r: string, s: string)
    requires NoLower(s)
    requires forall c :: c in r ==> c == ' ' || c in s
    ensures NoLower(r)
  {
    forall i | 0 <= i < |r| ensures !IsLower(r[i]) {
      assert r[i] in r;
    }
  }

  /** Every normalised name is upper-case, trimmed, single-spaced and free
      of parenthetical groups. */
  lemma NormalizeNameShape(s: string)
    ensures Normalized(NormalizeName(s))
  {
    var u := ToUpper(s);
    var t := Trim(u);
    var p := StripParens(t);
    var c := CollapseSpaces(p);
    var r := Trim(c);
    TrimKeeps(u);
    var a, b :| 0 <= a <= b <= |u| && t == u[a..b];
    SliceKeeps(u, a, b);
    StripParensChars(t);
    NoLowerFromChars(p, t);
    CollapseSpacesChars(p);
    NoLowerFromChars(c, p);
    StripParensNoGroup(t);
    CollapseNoGroup(p);
    CollapseSingleSpaced(p);
    TrimKeeps(c);
    var a', b' :| 0 <= a' <= b' <= |c| && r == c[a'..b'];
    SliceKeeps(c, a', b');
  }

  lemma PlainHasNoMatch(s: string)
    requires NoGroup(s)
    ensures ParenMatch(s).None?
  {
    var w := LeadingSpaces(s);
    if w < |s| && s[w] == '(' {
      var u := s[w + 1..];
      forall j | 0 <= j < |u| ensures u[j] != ')' {
        assert u[j] == s[w + 1 + j];
      }
    }
  }

  lemma {:induction false} StripParensKeepsPlain(s: string)
    requires NoGroup(s)
    ensures StripParens(s) == s
    decreases |s|
  {
    if |s| > 0 {
      PlainHasNoMatch(s);
      SliceKeeps(s, 1, |s|);
      StripParensKeepsPlain(s[1..]);
      assert s == [s[0]] + s[1..];
    }
  }

  lemma {:induction false} CollapseKeepsSingleSpaced(s: string)
    requires SingleSpaced(s)
    ensures CollapseSpaces(s) == s
    decreases |s|
  {
    if |s| > 0 {
      if IsSpace(s[0]) {
        assert LeadingSpaces(s) == 1 by {
          assert |s| > 1 ==> !IsSpace(s[1]);
          assert |s| > 1 ==> LeadingSpaces(s[1..]) == 0;
        }
      }
      SliceKeeps(s, 1, |s|);
      CollapseKeepsSingleSpaced(s[1..]);
      assert s == [s[0]] + s[1..];
    }
  }

  lemma TrimKeepsTrimmed(s: string)
    requires Trimmed(s)
    ensures Trim(s) == s
  {
  }

  lemma ToUpperKeepsUpper(s: string)
    requires NoLower(s)
    ensures ToUpper(s) == s
  {
  }

  /** A name already in normal form is its own normal form. */
  lemma NormalizeNameKeepsNormalized(s: string)
    requires Normalized(s)
    ensures NormalizeName(s) == s
  {
    ToUpperKeepsUpper(s);
    TrimKeepsTrimmed(s);
    StripParensKeepsPlain(s);
    CollapseKeepsSingleSpaced(s);
  }

  /** `normalizeName` is idempotent: normalising a feature id or a totals key
      a second time changes nothing. */
  lemma NormalizeNameIdempotent(s: string)
    ensures NormalizeName(NormalizeName(s)) == NormalizeName(s)
  {
    NormalizeNameShape(s);
    NormalizeNameKeepsNormalized(NormalizeName(s));
  }

  lemma ParenMatchExample()
    ensures ParenMatch(" (B) C") == Some(5)
  {
    var t := " (B) C";
    assert LeadingSpaces(t) == 1;
    assert t[2..] == "B) C";
    assert FirstClose("B) C") == Some(1);
    assert t[4..] == " C";
    assert LeadingSpaces(" C") == 1;
  }

  /** Worked case: the note and the whitespace around it become one
      space. */
  lemma StripParensExample()
    ensures StripParens("A (B) C") == "A C"
  {
    var s := "A (B) C";
    var t := " (B) C";
    ParenMatchExample();
    assert t[5..] == "C";
    assert StripParens(t) == " " + StripParens("C");
    assert StripParens("C") == "C";
    assert s[0] == 'A' && !IsSpace('A');
    assert LeadingSpaces(s) == 0;
    assert ParenMatch(s) == None;
    assert s[1..] == t;
  }

  /** Worked case: a `(` with no `)` after it is kept. */
  lemma StripParensKeepsUnclosed()
    ensures StripParens("(B") == "(B"
  {
    assert FirstClose("B") == None;
    assert "(B"[1..] == "B";
    assert StripParens("B") == "B";
  }
}

=== FILE: register.dfy ===
/** The registration form's submit handler: the previous error is cleared,
    then the two password rules are checked in order, and only a password
    that passes both reaches the sign-up call. */
module Register {
  const MinPasswordLength := 6
  const MismatchMessage := "Passwords do not match"
  const TooShortMessage := "Password must be at least 6 characters"
  const SignUpFailedMessage := "Failed to create account"

  /** What a submit leaves: the error shown, and the sign-up call it makes,
      if any. */
  datatype Submit = Submit(error: string, signUp: SignUpCall)

  /** The arguments of the `signUp(email, password, displayName)` call. */
  datatype SignUpCall = NoCall | Call(email: string, password: string, displayName: string)

  /** `handleSubmit` up to the sign-up call. */
  function HandleSubmit(email: string, password: string, confirm: string, displayName: string): (r: Submit)
    ensures r.signUp.Call? ==> r.error == "" && r.signUp == Call(email, password, displayName)
    ensures r.signUp.NoCall? ==> r.error != ""
  {
    if password != confirm then Submit(MismatchMessage, NoCall)
    else if |password| < MinPasswordLength then Submit(TooShortMessage, NoCall)
    else Submit("", Call(email, password, displayName))
  }

  /** Every rule the form's input breaks, in the order the handler checks
      them. */
  function Problems(password: string, confirm: string): (r: seq<string>)
    ensures |r| <= 2
  {
    (if password != confirm then [MismatchMessage] else []) +
    (if |password| < MinPasswordLength then [TooShortMessage] else [])
  }

  /** The handler reports the first broken rule and signs up exactly when
      no rule is broken. */
  lemma SubmitReportsFirstProblem(email: string, password: string, confirm: string, displayName: string)
    ensures var r, ps := HandleSubmit(email, password, confirm, displayName), Problems(password, confirm);
      (r.signUp.Call? <==> |ps| == 0) && (|ps| > 0 ==> r.error == ps[0])
  {
  }

  /** Sign-up is reached exactly for matching passwords of six or more
      characters; a mismatch is reported even when the password is also
      too short. */
  lemma SignUpExactlyWhenValid(email: string, password: string, confirm: string, displayName: string)
    ensures HandleSubmit(email, password, confirm, displayName).signUp.Call? <==>
              password == confirm && |password| >= MinPasswordLength
    ensures password != confirm ==> HandleSubmit(email, password, confirm, displayName).error == MismatchMessage
  {
  }

  /** The boundary: six characters pass, five do not. */
  lemma LengthBoundary()
    ensures HandleSubmit("", "abcdef", "abcdef", "").signUp.Call?
    ensures HandleSubmit("", "abcde", "abcde", "").error == TooShortMessage
  {
  }

  /** `err.message || 'Failed to create account'`. */
  function SignUpError(message: string): (r: string)
    ensures r != ""
    ensures message != "" ==> r == message
  {
    if message == "" then SignUpFailedMessage else message
  }
}

=== FILE: sex_data.dfy ===
/** The sex hook: a year-major table with MALE and FEMALE columns is read
    into yearly records, grouped into the eight 5-year periods 1981-1985 ...
    2016-2020, mirrored into population-pyramid rows, and turned into scatter
    points and the end points of a fitted trend line. */
module SexData {
  import opened Basics
  import opened Table
  import opened Periods

  const YearColumn := "YEAR"
  const Male := "MALE"
  const Female := "FEMALE"
  const StartYear := 1981
  const EndYear := 2020
  const PeriodLength := 5

  const Sexes: seq<string> := [Male, Female]

  /** One bar pair of the population pyramid; `maleNegative` draws the male
      bar to the left of the axis. */
  datatype PyramidRow = PyramidRow(periodLabel: string, male: int, female: int, maleNegative: int)

  /** A scatter point `{x: YEAR, y: count}`; `x` is `None` when the year
      did not parse (`NaN`). */
  datatype Point = Point(x: Option<int>, y: int)

  /** A fitted line `y = slope * x + intercept`. */
  datatype Line = Line(slope: real, intercept: real)

  datatype TrendPoint = TrendPoint(x: int, y: real)

  datatype SexData = SexData(
    chartData: seq<YearRecord>,
    groupedChartData: seq<Period>,
    populationPyramidData: seq<PyramidRow>,
    maleScatter: seq<Point>,
    femaleScatter: seq<Point>,
    maleTrend: seq<TrendPoint>,
    femaleTrend: seq<TrendPoint>,
    sexCategories: seq<string>)

  /** The grouping step: periods start with MALE and FEMALE at 0, then each
      header category is overwritten with its sum. */
  function SexPeriods(records: seq<YearRecord>, cats: seq<string>): seq<Period>
  {
    Aggregate(records, cats, Zeros(Sexes), StartYear, EndYear, PeriodLength)
  }

  /** `groupedData.map(...)`: each period as a pyramid row whose male bar is
      mirrored to the negative side. The periods of this hook always carry
      MALE and FEMALE (`SexPeriodKeys`), so the lookups never miss. */
  function Pyramid(ps: seq<Period>): (r: seq<PyramidRow>)
    ensures |r| == |ps|
    ensures forall i :: 0 <= i < |ps| ==> r[i].periodLabel == ps[i].periodLabel
    ensures forall i :: 0 <= i < |ps| ==> r[i].male == ValueOr0(ps[i].values, Male) && r[i].female == ValueOr0(ps[i].values, Female)
    ensures forall i :: 0 <= i < |ps| ==> r[i].male + r[i].maleNegative == 0
  {
    seq(|ps|, i requires 0 <= i < |ps| =>
      var m := ValueOr0(ps[i].values, Male);
      PyramidRow(ps[i].periodLabel, m, ValueOr0(ps[i].values, Female), -m))
  }

  /** `transformed.map(item => ({ x: item.YEAR, y: item[field] }))`. */
  function Scatter(records: seq<YearRecord>, field: string): (r: seq<Point>)
    ensures |r| == |records|
    ensures forall i :: 0 <= i < |records| ==> r[i].x == records[i].year
    ensures forall i :: 0 <= i < |records| ==> r[i].y == ValueOr0(records[i].values, field)
  {
    seq(|records|, i requires 0 <= i < |records| => Point(records[i].year, ValueOr0(records[i].values, field)))
  }

  /** The two end points of a trend line, at the first and last year of the
      chart. */
  function Trend(l: Line): (r: seq<TrendPoint>)
    ensures |r| == 2 && r[0].x == StartYear && r[1].x == EndYear
    ensures forall i :: 0 <= i < 2 ==> r[i].y == l.slope * (r[i].x as real) + l.intercept
  {
    [TrendPoint(StartYear, l.slope * (StartYear as real) + l.intercept),
     TrendPoint(EndYear, l.slope * (EndYear as real) + l.intercept)]
  }

  /** The `complete` callback. The least-squares fits of the male and female
      scatter points are given as `maleFit` and `femaleFit`. */
  function ParseSexData(t: Table, maleFit: Line, femaleFit: Line): (r: Option<SexData>)
    ensures r.None? <==> |t.rows| == 0
    ensures r.Some? ==> r.value.sexCategories == Without(t.keys, YearColumn)
    ensures r.Some? ==> r.value.chartData == FixedFieldRecords(t.rows, YearColumn, Sexes)
    ensures r.Some? ==> r.value.groupedChartData == SexPeriods(r.value.chartData, r.value.sexCategories)
    ensures r.Some? ==> r.value.populationPyramidData == Pyramid(r.value.groupedChartData)
    ensures r.Some? ==> r.value.maleScatter == Scatter(r.value.chartData, Male)
                        && r.value.femaleScatter == Scatter(r.value.chartData, Female)
    ensures r.Some? ==> r.value.maleTrend == Trend(maleFit) && r.value.femaleTrend == Trend(femaleFit)
  {
    if |t.rows| == 0 then None
    else
      var cats := Without(t.keys, YearColumn);
      var records := FixedFieldRecords(t.rows, YearColumn, Sexes);
      var grouped := SexPeriods(records, cats);
      Some(SexData(records, grouped, Pyramid(grouped), Scatter(records, Male), Scatter(records, Female),
                   Trend(maleFit), Trend(femaleFit), cats))
  }

  /** Exactly eight periods, labelled "1981 - 1985" through "2016 - 2020". */
  lemma SexPeriodLabels(records: seq<YearRecord>, cats: seq<string>)
    ensures var ps := SexPeriods(records, cats);
      && |ps| == 8
      && ps[0].periodLabel == "1981 - 1985"
      && ps[7].periodLabel == "2016 - 2020"
      && (forall i :: 0 <= i < 8 ==> ps[i].periodLabel == Label(1981 + 5 * i, 1985 + 5 * i))
  {
    FiveYearBounds();
    FiveYearLabels();
  }

  /** Every period carries MALE, FEMALE and every header category. */
  lemma SexPeriodKeys(records: seq<YearRecord>, cats: seq<string>)
    ensures var ps := SexPeriods(records, cats);
      forall i :: 0 <= i < |ps| ==> ps[i].values.Keys == (set s | s in Sexes) + (set c | c in cats)
  {
  }

  /** Period `i` holds, for every header category, its sum over the years
      `1981 + 5i .. 1985 + 5i`. */
  lemma SexPeriodSums(records: seq<YearRecord>, cats: seq<string>)
    ensures var ps := SexPeriods(records, cats);
      && |ps| == 8
      && (forall i, c :: 0 <= i < 8 && c in cats ==> ValueOr0(ps[i].values, c) == SumYears(records, c, 1981 + 5 * i, 1985 + 5 * i))
  {
    var ps := SexPeriods(records, cats);
    FiveYearBounds();
    AggregateSums(records, cats, Zeros(Sexes), StartYear, EndYear, PeriodLength);
    forall i, c | 0 <= i < 8 && c in cats
      ensures ValueOr0(ps[i].values, c) == SumYears(records, c, 1981 + 5 * i, 1985 + 5 * i)
    {
      assert Bounds(StartYear, EndYear, PeriodLength)[i] == (1981 + 5 * i, 1985 + 5 * i);
    }
  }

  /** The pyramid: row `i` mirrors the male sum of period `i` when the
      header has a MALE column, and is 0 on both sides otherwise. */
  lemma SexPyramidRows(records: seq<YearRecord>, cats: seq<string>)
    ensures var py := Pyramid(SexPeriods(records, cats));
      && |py| == 8
      && (forall i :: 0 <= i < 8 ==>
            py[i].maleNegative == -(if Male in cats then SumYears(records, Male, 1981 + 5 * i, 1985 + 5 * i) else 0))
  {
    SexPeriodKeys(records, cats);
    SexPeriodSums(records, cats);
  }

  /** Each scatter point reads back its CSV row: the parsed year and the
      permissively parsed count. */
  lemma SexScatterReadsRows(t: Table, maleFit: Line, femaleFit: Line)
    requires |t.rows| > 0
    ensures var d := ParseSexData(t, maleFit, femaleFit).value;
      && |d.maleScatter| == |t.rows| && |d.femaleScatter| == |t.rows|
      && (forall i :: 0 <= i < |t.rows| ==>
            d.maleScatter[i] == Point(CellYear(t.rows[i], YearColumn), CellInt(t.rows[i], Male))
            && d.femaleScatter[i] == Point(CellYear(t.rows[i], YearColumn), CellInt(t.rows[i], Female)))
  {
  }

  /** Both trend points lie on the fitted line, so the segment drawn between
      them has exactly the fitted slope. */
  lemma TrendKeepsSlope(l: Line)
    ensures var r := Trend(l);
      (r[1].y - r[0].y) == l.slope * ((r[1].x - r[0].x) as real)
  {
  }

  /** A header category other than MALE and FEMALE never reaches a record,
      so every period sums it to 0. Names inherited from `Object.prototype`
      are outside the model. */
  lemma SexUnknownCategoryIsZero(rows: seq<Row>, cats: seq<string>, c: string)
    requires c in cats && c !in Sexes
    ensures var ps := SexPeriods(FixedFieldRecords(rows, YearColumn, Sexes), cats);
      forall i :: 0 <= i < |ps| ==> ps[i].values[c] == 0
  {
    var records := FixedFieldRecords(rows, YearColumn, Sexes);
    var ps := SexPeriods(records, cats);
    forall i | 0 <= i < |ps| ensures ps[i].values[c] == 0 {
      var b := Bounds(StartYear, EndYear, PeriodLength)[i];
      SumYearsAbsentField(records, c, b.0, b.1);
    }
  }

  /** With distinct years, a category's period values add up to its sum over
      the records dated 1981..2020. */
  lemma SexPeriodsConserve(records: seq<YearRecord>, cats: seq<string>, c: string)
    requires DistinctYears(records) && c in cats
    ensures PeriodsTotal(SexPeriods(records, cats), c) == RecordsSum(records, c, StartYear, EndYear)
  {
    AggregateConservesRecords(records, cats, Zeros(Sexes), StartYear, EndYear, PeriodLength, c);
  }
}

=== FILE: tab_labels.dfy ===
/** The two tab-label formatters: chart keys are snake_case
    ("civil_status" becomes "Civil Status"), data-type keys are camelCase
    ("civilStatus" becomes "Civil Status"). */
module TabLabels {
  import opened Basics

  /** `s.replace(c, d)` with a one-character string pattern: only the first
      occurrence is replaced. */
  function ReplaceFirst(s: string, c: char, d: char): (r: string)
    ensures |r| == |s|
  {
    if |s| == 0 then s
    else if s[0] == c then [d] + s[1..]
    else [s[0]] + ReplaceFirst(s[1..], c, d)
  }

  /** `\b\w` matches at `i`: a word character that starts the string or
      follows a non-word character. */
  predicate WordStart(s: string, i: nat)
    requires i < |s|
  {
    IsWordChar(s[i]) && (i == 0 || !IsWordChar(s[i - 1]))
  }

  /** `s.replace(/\b\w/g, l => l.toUpperCase())`. */
  function CapitalizeWords(s: string): (r: string)
    ensures |r| == |s|
    ensures forall i :: 0 <= i < |s| ==> IsWordChar(r[i]) == IsWordChar(s[i])
    ensures forall i :: 0 <= i < |s| && WordStart(s, i) ==> !IsLower(r[i])
    ensures forall i :: 0 <= i < |s| && WordStart(s, i) ==> r[i] == UpperChar(s[i])
    ensures forall i :: 0 <= i < |s| && !WordStart(s, i) ==> r[i] == s[i]
  {
    seq(|s|, i requires 0 <= i < |s| => if WordStart(s, i) then UpperChar(s[i]) else s[i])
  }

  /** `formatChartName`. */
  function FormatChartName(key: string): (r: string)
    ensures |r| == |key|
  {
    CapitalizeWords(ReplaceFirst(key, '_', ' '))
  }

  function LowerChar(c: char): char
  {
    if IsUpper(c) then (c as int - 'A' as int + 'a' as int) as char else c
  }

  /** Back from a chart label to its key: spaces to underscores, letters to
      lower case. */
  function ToSnake(s: string): (r: string)
    ensures |r| == |s|
  {
    seq(|s|, i requires 0 <= i < |s| => if s[i] == ' ' then '_' else LowerChar(s[i]))
  }

  predicate SnakeKey(key: string)
  {
    forall i :: 0 <= i < |key| ==> IsLower(key[i]) || key[i] == '_'
  }

  lemma {:induction false} ReplaceFirstChars(s: string, c: char, d: char)
    requires c != d
    ensures forall i :: 0 <= i < |s| ==> ReplaceFirst(s, c, d)[i] == s[i] || (s[i] == c && ReplaceFirst(s, c, d)[i] == d)
  {
    if |s| > 0 && s[0] != c {
      ReplaceFirstChars(s[1..], c, d);
      forall i | 0 < i < |s| ensures ReplaceFirst(s, c, d)[i] == s[i] || (s[i] == c && ReplaceFirst(s, c, d)[i] == d) {
        assert ReplaceFirst(s, c, d)[i] == ReplaceFirst(s[1..], c, d)[i - 1];
      }
    }
  }

  /** The chart label keeps the key's letters and underscores up to case
      and space: lower-casing it and turning spaces back into underscores
      gives the key again. */
  lemma ChartNameRoundTrip(key: string)
    requires SnakeKey(key)
    ensures ToSnake(FormatChartName(key)) == key
  {
    var t := ReplaceFirst(key, '_', ' ');
    ReplaceFirstChars(key, '_', ' ');
    var r := FormatChartName(key);
    forall i | 0 <= i < |key| ensures ToSnake(r)[i] == key[i] {
      assert r[i] == (if WordStart(t, i) then UpperChar(t[i]) else t[i]);
    }
  }

  /** The first occurrence is the one replaced. */
  lemma {:induction false} ReplaceFirstAt(p: string, c: char, d: char, rest: string)
    requires c !in p
    ensures ReplaceFirst(p + [c] + rest, c, d) == p + [d] + rest
  {
    if |p| > 0 {
      ReplaceFirstAt(p[1..], c, d, rest);
      assert (p + [c] + rest)[1..] == p[1..] + [c] + rest;
    }
  }

  /** Capitalising words changes lower-case letters only. */
  lemma CapitalizeKeeps(t: string)
    ensures forall i :: 0 <= i < |t| && !IsLower(t[i]) ==> CapitalizeWords(t)[i] == t[i]
  {
  }

  /** Only the first underscore becomes a space: with `p` free of
      underscores, the one after `p` turns into a space and every later
      underscore stays. */
  lemma ChartNameFirstUnderscore(p: string, rest: string)
    requires '_' !in p
    ensures FormatChartName(p + "_" + rest)[|p|] == ' '
    ensures forall i :: 0 <= i < |rest| && rest[i] == '_' ==> FormatChartName(p + "_" + rest)[|p| + 1 + i] == '_'
  {
    var key := p + "_" + rest;
    ReplaceFirstAt(p, '_', ' ', rest);
    var t := p + " " + rest;
    assert ReplaceFirst(key, '_', ' ') == t;
    CapitalizeKeeps(t);
    assert t[|p|] == ' ';
    assert forall i :: 0 <= i < |rest| ==> t[|p| + 1 + i] == rest[i];
  }

  /** A key without an underscore is left alone by the replacement. */
  lemma ReplaceFirstAbsent(s: string, c: char, d: char)
    requires c != d && c !in s
    ensures ReplaceFirst(s, c, d) == s
  {
    ReplaceFirstChars(s, c, d);
  }

  /** A snake_case word: lower-case letters only. */
  predicate LowerWord(w: string)
  {
    forall i :: 0 <= i < |w| ==> IsLower(w[i])
  }

  /** A one-word key becomes the word with its first letter in upper case. */
  lemma ChartNameOneWord(w: string)
    requires LowerWord(w)
    ensures FormatChartName(w) == CapitalizeFirst(w)
  {
    ReplaceFirstAbsent(w, '_', ' ');
    var r := FormatChartName(w);
    forall i | 0 <= i < |w| ensures r[i] == CapitalizeFirst(w)[i] {
      assert WordStart(w, i) <==> i == 0;
    }
  }

  /** A key with an underscore: the part before the first underscore and
      the rest each get an upper-case first letter, and a single space
      stands between them; later underscores stay, since `_` is a word
      character and starts no word. */
  lemma ChartNameSplit(a: string, b: string)
    requires LowerWord(a) && SnakeKey(b)
    ensures FormatChartName(a + "_" + b) == CapitalizeFirst(a) + " " + CapitalizeFirst(b)
  {
    ReplaceFirstAt(a, '_', ' ', b);
    var t := a + " " + b;
    var r := CapitalizeWords(t);
    var e := CapitalizeFirst(a) + " " + CapitalizeFirst(b);
    forall i | 0 <= i < |t| ensures r[i] == e[i] {
      if i < |a| {
        SplitLeft(a, b, i);
      } else if i == |a| {
        assert t[i] == ' ';
      } else {
        SplitRight(a, b, i - |a| - 1);
      }
    }
  }

  /** In "a b", the letters of `a` are capitalised as `a` alone is. */
  lemma SplitLeft(a: string, b: string, i: nat)
    requires LowerWord(a) && i < |a|
    ensures CapitalizeWords(a + " " + b)[i] == CapitalizeFirst(a)[i]
  {
    var t := a + " " + b;
    assert t[i] == a[i];
    if i > 0 {
      assert t[i - 1] == a[i - 1];
    }
  }

  /** In "a b", the characters of `b` are capitalised as `b` alone is. */
  lemma SplitRight(a: string, b: string, i: nat)
    requires SnakeKey(b) && i < |b|
    ensures CapitalizeWords(a + " " + b)[|a| + 1 + i] == CapitalizeFirst(b)[i]
  {
    var t := a + " " + b;
    assert t[|a| + 1 + i] == b[i];
    if i > 0 {
      assert t[|a| + i] == b[i - 1];
    } else {
      assert t[|a|] == ' ';
    }
  }

  /** `s.replace(/([A-Z])/g, ' $1')`: a space before every capital. */
  function SpaceBeforeCapitals(s: string): (r: string)
    ensures |r| >= |s|
    ensures |s| > 0 ==> |r| > 0 && (r[0] == s[0] || (IsUpper(s[0]) && r[0] == ' '))
    ensures forall j :: 0 <= j < |r| && IsUpper(r[j]) ==> j > 0 && r[j - 1] == ' '
  {
    if |s| == 0 then s
    else
      var h := if IsUpper(s[0]) then [' ', s[0]] else [s[0]];
      var t := SpaceBeforeCapitals(s[1..]);
      assert forall j :: |h| <= j < |h| + |t| ==> (h + t)[j] == t[j - |h|];
      h + t
  }

  /** The replacement works character by character: a capital becomes a
      space and itself, any other character stays as it is. */
  lemma {:induction false} SpaceBeforeCapitalsAppend(a: string, c: char)
    ensures SpaceBeforeCapitals(a + [c]) == SpaceBeforeCapitals(a) + (if IsUpper(c) then [' ', c] else [c])
  {
    var tail: string := if IsUpper(c) then [' ', c] else [c];
    if |a| == 0 {
      assert a + [c] == [c];
      assert SpaceBeforeCapitals([c]) == tail + SpaceBeforeCapitals([]);
    } else {
      assert (a + [c])[0] == a[0];
      assert (a + [c])[1..] == a[1..] + [c];
      SpaceBeforeCapitalsAppend(a[1..], c);
      var h: string := if IsUpper(a[0]) then [' ', a[0]] else [a[0]];
      ConcatAssoc(h, SpaceBeforeCapitals(a[1..]), tail);
    }
  }

  /** `s.replace(/^./, c => c.toUpperCase())`: the first character upper-
      cased, unless it is a line terminator, which `.` does not match. */
  function CapitalizeFirst(s: string): (r: string)
    ensures |r| == |s|
    ensures |s| > 0 ==> r[1..] == s[1..]
    ensures |s| > 0 && s[0] != '\n' && s[0] != '\r' ==> r[0] == UpperChar(s[0])
    ensures |s| > 0 && (s[0] == '\n' || s[0] == '\r') ==> r == s
  {
    if |s| == 0 || s[0] == '\n' || s[0] == '\r' then s else [UpperChar(s[0])] + s[1..]
  }

  /** `formatDataTypeName`. */
  function FormatDataTypeName(key: string): string
  {
    Trim(CapitalizeFirst(SpaceBeforeCapitals(key)))
  }

  /** Drops every space. */
  function RemoveSpaces(s: string): (r: string)
    ensures |r| <= |s|
  {
    if |s| == 0 then s
    else (if s[0] == ' ' then [] else [s[0]]) + RemoveSpaces(s[1..])
  }

  /** A camelCase key: letters only, the first one lower-case. */
  predicate CamelKey(key: string)
  {
    |key| > 0 && IsLower(key[0]) && forall i :: 0 <= i < |key| ==> IsLower(key[i]) || IsUpper(key[i])
  }

  /** No character is a space. */
  predicate NoSpace(s: string)
  {
    forall i :: 0 <= i < |s| ==> s[i] != ' '
  }

  lemma {:induction false} SpaceBeforeCapitalsUnspaced(s: string)
    requires NoSpace(s)
    ensures RemoveSpaces(SpaceBeforeCapitals(s)) == s
  {
    if |s| > 0 {
      var h := if IsUpper(s[0]) then [' ', s[0]] else [s[0]];
      SpaceBeforeCapitalsUnspaced(s[1..]);
      RemoveSpacesAppend(h, SpaceBeforeCapitals(s[1..]));
      assert RemoveSpaces(h) == [s[0]] by {
        if IsUpper(s[0]) {
          assert h[1..] == [s[0]];
        }
      }
      assert [s[0]] + s[1..] == s;
    }
  }

  lemma {:induction false} RemoveSpacesAppend(a: string, b: string)
    ensures RemoveSpaces(a + b) == RemoveSpaces(a) + RemoveSpaces(b)
  {
    if |a| == 0 {
      assert a + b == b;
    } else {
      assert (a + b)[1..] == a[1..] + b;
      RemoveSpacesAppend(a[1..], b);
      var h: string := if a[0] == ' ' then [] else [a[0]];
      ConcatAssoc(h, RemoveSpaces(a[1..]), RemoveSpaces(b));
    }
  }

  /** For a camelCase key the spaced form starts and ends with a letter. */
  lemma SpacedEnds(key: string)
    requires CamelKey(key)
    ensures var t := SpaceBeforeCapitals(key);
      |t| > 0 && t[0] == key[0] && IsWordChar(t[|t| - 1])
  {
    SpacedLast(key);
  }

  lemma {:induction false} SpacedLast(s: string)
    requires |s| > 0 && forall i :: 0 <= i < |s| ==> IsLower(s[i]) || IsUpper(s[i])
    ensures |SpaceBeforeCapitals(s)| > 0
    ensures SpaceBeforeCapitals(s)[|SpaceBeforeCapitals(s)| - 1] == s[|s| - 1]
  {
    var h := if IsUpper(s[0]) then [' ', s[0]] else [s[0]];
    if |s| > 1 {
      SpacedLast(s[1..]);
    } else {
      assert SpaceBeforeCapitals(s[1..]) == [];
      assert SpaceBeforeCapitals(s) == h + [];
    }
  }

  /** Trimming a string with non-space ends changes nothing. */
  lemma TrimUnpadded(s: string)
    requires |s| > 0 && !IsSpace(s[0]) && !IsSpace(s[|s| - 1])
    ensures Trim(s) == s
  {
    assert TrimStart(s) == s;
  }

  lemma RemoveSpacesHead(c: char, rest: string)
    requires c != ' '
    ensures RemoveSpaces([c] + rest) == [c] + RemoveSpaces(rest)
  {
    assert ([c] + rest)[1..] == rest;
  }

  lemma CamelTailNoSpace(key: string)
    requires CamelKey(key)
    ensures NoSpace(key[1..])
  {
    assert forall i :: 0 <= i < |key[1..]| ==> key[1..][i] == key[i + 1];
  }

  lemma RemoveSpacesLabel(c: char, tail: string)
    requires c != ' ' && NoSpace(tail)
    ensures RemoveSpaces([c] + SpaceBeforeCapitals(tail)) == [c] + tail
  {
    SpaceBeforeCapitalsUnspaced(tail);
    RemoveSpacesHead(c, SpaceBeforeCapitals(tail));
  }

  /** The data-type label of a camelCase key is the key's first letter in
      upper case followed by the rest of the key with a space before every
      capital: trimming removes nothing. */
  lemma DataTypeNameExact(key: string)
    requires CamelKey(key)
    ensures FormatDataTypeName(key) == [UpperChar(key[0])] + SpaceBeforeCapitals(key[1..])
  {
    var t := SpaceBeforeCapitals(key);
    SpacedEnds(key);
    assert t == [key[0]] + SpaceBeforeCapitals(key[1..]);
    var u := CapitalizeFirst(t);
    assert u == [UpperChar(key[0])] + t[1..];
    assert u[|u| - 1] == t[|t| - 1] || |t| == 1;
    TrimUnpadded(u);
  }

  /** The data-type label only inserts spaces and capitalises the first
      letter: removing its spaces gives the camelCase key with its first
      letter in upper case. */
  lemma DataTypeNameRoundTrip(key: string)
    requires CamelKey(key)
    ensures FormatDataTypeName(key) == [UpperChar(key[0])] + SpaceBeforeCapitals(key[1..])
    ensures RemoveSpaces(FormatDataTypeName(key)) == [UpperChar(key[0])] + key[1..]
  {
    DataTypeNameExact(key);
    CamelTailNoSpace(key);
    RemoveSpacesLabel(UpperChar(key[0]), key[1..]);
  }
}

=== FILE: table.dfy ===
/** The parsed CSV every hook receives, and the two record shapes the hooks
    build from it: a category-major table is pivoted into one record per year
    column, a year-major table maps each row to one record with fixed fields. */
module Table {
  import opened Basics
  import opened JsNumber

  /** One parsed CSV row: header name to cell text. A header the row lacks
      reads as `undefined`. */
  type Row = map<string, string>

  /** The result of parsing a CSV with a header line: `keys` lists the keys of
      the first row in the order `Object.keys` reports them, `rows` are the
      data rows in file order. */
  datatype Table = Table(keys: seq<string>, rows: seq<Row>)

  /** `row[k]`, with `None` for `undefined`. */
  function Cell(row: Row, k: string): Option<string>
  {
    if k in row then Some(row[k]) else None
  }

  /** `parseInt(row[k], 10) || 0`. */
  function CellInt(row: Row, k: string): int
  {
    IntOrZero(Cell(row, k))
  }

  /** `parseInt(row[k], 10)` with no default: `None` stands for `NaN`. */
  function CellYear(row: Row, k: string): Option<int>
  {
    match Cell(row, k)
    case None => None
    case Some(s) => ParseInt(s)
  }

  /** A year-indexed record: its year (`None` when the year text did not
      parse) and its named integer fields. */
  datatype YearRecord = YearRecord(year: Option<int>, values: map<string, int>)

  /** The index `records.find(r => r.Year === y)` stops at: the first record
      whose year is `y`. */
  function FirstWithYear(records: seq<YearRecord>, y: int): (r: Option<nat>)
    ensures r.Some? ==> r.value < |records| && records[r.value].year == Some(y)
    ensures r.Some? ==> forall j :: 0 <= j < r.value ==> records[j].year != Some(y)
    ensures r.None? ==> forall j :: 0 <= j < |records| ==> records[j].year != Some(y)
  {
    if |records| == 0 then None
    else if records[0].year == Some(y) then Some(0)
    else match FirstWithYear(records[1..], y)
      case None => None
      case Some(i) => Some(i + 1)
  }

  /** The value a period sum adds for year `y` and field `k`:
      `yearData && yearData[k]` on the first record with that year,
      so a missing year or a missing field adds 0. */
  function ValueAt(records: seq<YearRecord>, k: string, y: int): int
  {
    match FirstWithYear(records, y)
    case None => 0
    case Some(i) => ValueOr0(records[i].values, k)
  }

  /** How the identifying column of a category-major table names a row. */
  datatype LabelRule =
    | SkipBlank  // `if (label) yearData[label] = ...`: rows without a label are skipped
    | Stringify  // `yearData[label] = ...` for every row: `undefined` becomes the key "undefined"

  function RowLabel(row: Row, idCol: string, rule: LabelRule): Option<string>
  {
    match rule
    case SkipBlank => if idCol in row && row[idCol] != "" then Some(row[idCol]) else None
    case Stringify => if idCol in row then Some(row[idCol]) else Some("undefined")
  }

  /** `rows.map(row => row[idCol]).filter(Boolean)`: the category
      vocabulary, non-empty labels in row order, duplicates kept. */
  function Vocabulary(rows: seq<Row>, idCol: string): (v: seq<string>)
    ensures |v| <= |rows|
    ensures forall k :: k in v <==> exists i :: 0 <= i < |rows| && RowLabel(rows[i], idCol, SkipBlank) == Some(k)
    ensures forall k :: k in v ==> k != ""
  {
    if |rows| == 0 then []
    else
      var rest := Vocabulary(rows[1..], idCol);
      assert forall i :: 0 < i < |rows| ==> rows[i] == rows[1..][i - 1];
      match RowLabel(rows[0], idCol, SkipBlank)
      case None => rest
      case Some(l) => [l] + rest
  }

  /** What one row adds to the vocabulary: its label, if it has one. */
  function LabelOf(row: Row, idCol: string): seq<string>
  {
    match RowLabel(row, idCol, SkipBlank)
    case None => []
    case Some(l) => [l]
  }

  /** The vocabulary grows row by row: a later row appends its label, so
      labels keep their row order and a repeated label is listed again. */
  lemma {:induction false} VocabularyAppend(rows: seq<Row>, row: Row, idCol: string)
    ensures Vocabulary(rows + [row], idCol) == Vocabulary(rows, idCol) + LabelOf(row, idCol)
  {
    if |rows| == 0 {
      assert rows + [row] == [row];
      assert Vocabulary([row], idCol) == LabelOf(row, idCol) + Vocabulary([], idCol);
    } else {
      assert (rows + [row])[0] == rows[0];
      assert (rows + [row])[1..] == rows[1..] + [row];
      VocabularyAppend(rows[1..], row, idCol);
      ConcatAssoc(LabelOf(rows[0], idCol), Vocabulary(rows[1..], idCol), LabelOf(row, idCol));
    }
  }

  /** The values one year column contributes to its pivoted record: each
      labelled row, in order, stores its parsed cell under its label, so a
      later row with the same label overwrites an earlier one. */
  function PivotColumn(rows: seq<Row>, idCol: string, rule: LabelRule, col: string): (m: map<string, int>)
    ensures forall k :: k in m <==> exists i :: 0 <= i < |rows| && RowLabel(rows[i], idCol, rule) == Some(k)
    ensures forall i :: 0 <= i < |rows| && RowLabel(rows[i], idCol, rule).Some? &&
                (forall j :: i < j < |rows| ==> RowLabel(rows[j], idCol, rule) != RowLabel(rows[i], idCol, rule))
              ==> m[RowLabel(rows[i], idCol, rule).value] == CellInt(rows[i], col)
  {
    if |rows| == 0 then map[]
    else
      var m := PivotColumn(rows[..|rows| - 1], idCol, rule, col);
      PivotColumnStep(rows, idCol, rule, col, m);
      WriteRow(m, rows[|rows| - 1], idCol, rule, col)
  }

  /** `yearData[label] = cell` for one row, when it has a label. */
  function WriteRow(m: map<string, int>, row: Row, idCol: string, rule: LabelRule, col: string): map<string, int>
  {
    match RowLabel(row, idCol, rule)
    case None => m
    case Some(l) => m[l := CellInt(row, col)]
  }

  /** The keys of `m` are the labels of `rows`. */
  ghost predicate KeysAreLabels(m: map<string, int>, rows: seq<Row>, idCol: string, rule: LabelRule)
  {
    forall k :: k in m <==> exists i :: 0 <= i < |rows| && RowLabel(rows[i], idCol, rule) == Some(k)
  }

  /** Row `i` has a label and no later row has the same one. */
  ghost predicate LastLabelled(rows: seq<Row>, i: nat, idCol: string, rule: LabelRule)
    requires i < |rows|
  {
    RowLabel(rows[i], idCol, rule).Some? &&
    forall j :: i < j < |rows| ==> RowLabel(rows[j], idCol, rule) != RowLabel(rows[i], idCol, rule)
  }

  /** Each label holds the cell of the last row carrying it. */
  ghost predicate LastRowValues(m: map<string, int>, rows: seq<Row>, idCol: string, rule: LabelRule, col: string)
  {
    forall i :: 0 <= i < |rows| && LastLabelled(rows, i, idCol, rule) ==>
      RowLabel(rows[i], idCol, rule).value in m && m[RowLabel(rows[i], idCol, rule).value] == CellInt(rows[i], col)
  }

  /** One more row: writing its label keeps both properties. */
  lemma PivotColumnStep(rows: seq<Row>, idCol: string, rule: LabelRule, col: string, m: map<string, int>)
    requires |rows| > 0
    requires KeysAreLabels(m, rows[..|rows| - 1], idCol, rule)
    requires LastRowValues(m, rows[..|rows| - 1], idCol, rule, col)
    ensures KeysAreLabels(WriteRow(m, rows[|rows| - 1], idCol, rule, col), rows, idCol, rule)
    ensures LastRowValues(WriteRow(m, rows[|rows| - 1], idCol, rule, col), rows, idCol, rule, col)
  {
    WriteRowKeys(rows, idCol, rule, col, m);
    WriteRowValues(rows, idCol, rule, col, m);
  }

  lemma WriteRowValues(rows: seq<Row>, idCol: string, rule: LabelRule, col: string, m: map<string, int>)
    requires |rows| > 0
    requires LastRowValues(m, rows[..|rows| - 1], idCol, rule, col)
    ensures LastRowValues(WriteRow(m, rows[|rows| - 1], idCol, rule, col), rows, idCol, rule, col)
  {
    var m' := WriteRow(m, rows[|rows| - 1], idCol, rule, col);
    forall i | 0 <= i < |rows| && LastLabelled(rows, i, idCol, rule)
      ensures RowLabel(rows[i], idCol, rule).value in m'
      ensures m'[RowLabel(rows[i], idCol, rule).value] == CellInt(rows[i], col)
    {
      if i < |rows| - 1 {
        EarlierRowValue(rows, idCol, rule, col, m, i);
      }
    }
  }

  /** A row whose label no later row repeats keeps its value when the last
      row is written. */
  lemma EarlierRowValue(rows: seq<Row>, idCol: string, rule: LabelRule, col: string, m: map<string, int>, i: nat)
    requires i < |rows| - 1
    requires LastRowValues(m, rows[..|rows| - 1], idCol, rule, col)
    requires LastLabelled(rows, i, idCol, rule)
    ensures var l := RowLabel(rows[i], idCol, rule).value;
      l in WriteRow(m, rows[|rows| - 1], idCol, rule, col) && WriteRow(m, rows[|rows| - 1], idCol, rule, col)[l] == CellInt(rows[i], col)
  {
    var l := RowLabel(rows[i], idCol, rule).value;
    LastLabelledInit(rows, i, idCol, rule);
    assert rows[..|rows| - 1][i] == rows[i];
    WriteRowOther(m, rows[|rows| - 1], idCol, rule, col, l);
  }

  lemma LastLabelledInit(rows: seq<Row>, i: nat, idCol: string, rule: LabelRule)
    requires i < |rows| - 1 && LastLabelled(rows, i, idCol, rule)
    ensures LastLabelled(rows[..|rows| - 1], i, idCol, rule)
  {
    var init := rows[..|rows| - 1];
    forall j | i < j < |init| ensures RowLabel(init[j], idCol, rule) != RowLabel(init[i], idCol, rule) {
      assert init[j] == rows[j];
    }
  }

  /** Writing a row leaves every other label as it was. */
  lemma WriteRowOther(m: map<string, int>, row: Row, idCol: string, rule: LabelRule, col: string, l: string)
    requires RowLabel(row, idCol, rule) != Some(l)
    ensures var m' := WriteRow(m, row, idCol, rule, col);
      (l in m' <==> l in m) && (l in m ==> m'[l] == m[l])
  {
  }

  lemma WriteRowKeys(rows: seq<Row>, idCol: string, rule: LabelRule, col: string, m: map<string, int>)
    requires |rows| > 0
    requires KeysAreLabels(m, rows[..|rows| - 1], idCol, rule)
    ensures KeysAreLabels(WriteRow(m, rows[|rows| - 1], idCol, rule, col), rows, idCol, rule)
  {
    var init := rows[..|rows| - 1];
    forall k ensures k in WriteRow(m, rows[|rows| - 1], idCol, rule, col) <==>
                          exists i :: 0 <= i < |rows| && RowLabel(rows[i], idCol, rule) == Some(k)
    {
      if exists i :: 0 <= i < |init| && RowLabel(init[i], idCol, rule) == Some(k) {
        var i :| 0 <= i < |init| && RowLabel(init[i], idCol, rule) == Some(k);
        assert rows[i] == init[i];
      }
      if exists i :: 0 <= i < |rows| && RowLabel(rows[i], idCol, rule) == Some(k) {
        var i :| 0 <= i < |rows| && RowLabel(rows[i], idCol, rule) == Some(k);
        if i < |init| {
          assert rows[i] == init[i];
        }
      }
    }
  }

  /** The pivot: one record per key of the first row other than `idCol`, in
      key order, with `Year = parseInt(key, 10)`. */
  function Pivot(t: Table, idCol: string, rule: LabelRule): (r: seq<YearRecord>)
    ensures |r| == |Without(t.keys, idCol)|
    ensures forall i :: 0 <= i < |r| ==>
              r[i] == YearRecord(ParseInt(Without(t.keys, idCol)[i]),
                                 PivotColumn(t.rows, idCol, rule, Without(t.keys, idCol)[i]))
  {
    var cols := Without(t.keys, idCol);
    seq(|cols|, i requires 0 <= i < |cols| =>
      YearRecord(ParseInt(cols[i]), PivotColumn(t.rows, idCol, rule, cols[i])))
  }

  /** With the blank-skipping rule, every pivoted record has exactly the
      vocabulary as its fields, and a label used by one row only carries that
      row's parsed cell (0 when unparseable). */
  lemma PivotCells(t: Table, idCol: string, i: nat, r: nat)
    requires i < |Without(t.keys, idCol)| && r < |t.rows|
    requires RowLabel(t.rows[r], idCol, SkipBlank).Some?
    requires forall j :: r < j < |t.rows| ==> RowLabel(t.rows[j], idCol, SkipBlank) != RowLabel(t.rows[r], idCol, SkipBlank)
    ensures Pivot(t, idCol, SkipBlank)[i].values.Keys == set k | k in Vocabulary(t.rows, idCol)
    ensures Pivot(t, idCol, SkipBlank)[i].values[t.rows[r][idCol]]
            == IntOrZero(Cell(t.rows[r], Without(t.keys, idCol)[i]))
    ensures Pivot(t, idCol, SkipBlank)[i].year == ParseInt(Without(t.keys, idCol)[i])
  {
    var m := Pivot(t, idCol, SkipBlank)[i].values;
    forall k | k in m ensures k in Vocabulary(t.rows, idCol) {
      var j :| 0 <= j < |t.rows| && RowLabel(t.rows[j], idCol, SkipBlank) == Some(k);
    }
  }

  /** With the blank-skipping rule, every pivoted record carries exactly the
      vocabulary as its fields. */
  lemma PivotFieldsAreVocabulary(t: Table, idCol: string)
    ensures forall i :: 0 <= i < |Without(t.keys, idCol)| ==>
              Pivot(t, idCol, SkipBlank)[i].values.Keys == set g | g in Vocabulary(t.rows, idCol)
  {
    var cols := Without(t.keys, idCol);
    forall i | 0 <= i < |cols|
      ensures Pivot(t, idCol, SkipBlank)[i].values.Keys == set g | g in Vocabulary(t.rows, idCol)
    {
      var m := Pivot(t, idCol, SkipBlank)[i].values;
      forall k | k in m ensures k in Vocabulary(t.rows, idCol) {
        var j :| 0 <= j < |t.rows| && RowLabel(t.rows[j], idCol, SkipBlank) == Some(k);
      }
    }
  }

  /** A record of a year-major table: the year from `yearCol` with no
      default, and each fixed field as `parseInt(row[f], 10) || 0`. */
  function FixedFieldRecord(row: Row, yearCol: string, fields: seq<string>): (r: YearRecord)
    ensures r.year == CellYear(row, yearCol)
    ensures r.values.Keys == set f | f in fields
    ensures forall f :: f in fields ==> r.values[f] == CellInt(row, f)
  {
    YearRecord(CellYear(row, yearCol), map f | f in fields :: CellInt(row, f))
  }

  /** `rows.map(...)`: one fixed-field record per row, in row order. */
  function FixedFieldRecords(rows: seq<Row>, yearCol: string, fields: seq<string>): (r: seq<YearRecord>)
    ensures |r| == |rows|
    ensures forall i :: 0 <= i < |rows| ==> r[i] == FixedFieldRecord(rows[i], yearCol, fields)
  {
    seq(|rows|, i requires 0 <= i < |rows| => FixedFieldRecord(rows[i], yearCol, fields))
  }
}

=== FILE: totals.dfy ===
/** The per-category totals of the occupation and region charts:
    `totals[c] = 0` for every vocabulary entry, then, for every yearly record
    in order and every vocabulary entry in order, `totals[c] += record[c]`.
    A label listed twice in the vocabulary is added once per listing. */
module Totals {
  import opened Basics
  import opened Table

  /** Sum of one field over the records, in record order (a missing field
      adds 0). */
  function ColumnSum(records: seq<YearRecord>, k: string): int
  {
    if |records| == 0 then 0
    else ColumnSum(records[..|records| - 1], k) + ValueOr0(records[|records| - 1].values, k)
  }

  /** The inner loop for one record: every vocabulary entry, in order, adds
      the record's value for it. */
  function AddRecord(totals: map<string, int>, values: map<string, int>, vocab: seq<string>): (r: map<string, int>)
    ensures r.Keys == totals.Keys + set c | c in vocab
  {
    if |vocab| == 0 then totals
    else
      var c := vocab[|vocab| - 1];
      var t := AddRecord(totals, values, vocab[..|vocab| - 1]);
      assert vocab == vocab[..|vocab| - 1] + [c];
      t[c := ValueOr0(t, c) + ValueOr0(values, c)]
  }

  /** The outer loop: the records in order. */
  function Accumulate(totals: map<string, int>, records: seq<YearRecord>, vocab: seq<string>): (r: map<string, int>)
    ensures |records| > 0 ==> r.Keys == totals.Keys + set c | c in vocab
    ensures |records| == 0 ==> r == totals
  {
    if |records| == 0 then totals
    else AddRecord(Accumulate(totals, records[..|records| - 1], vocab), records[|records| - 1].values, vocab)
  }

  /** One record adds its value once per listing of the label. */
  lemma {:induction false} AddRecordValue(totals: map<string, int>, values: map<string, int>, vocab: seq<string>, k: string)
    ensures ValueOr0(AddRecord(totals, values, vocab), k) == ValueOr0(totals, k) + Count(vocab, k) * ValueOr0(values, k)
  {
    if |vocab| > 0 {
      var init := vocab[..|vocab| - 1];
      var t := AddRecord(totals, values, init);
      AddRecordValue(totals, values, init, k);
      var n := Count(init, k);
      var x := ValueOr0(values, k);
      if vocab[|vocab| - 1] == k {
        assert Count(vocab, k) == n + 1;
        assert ValueOr0(AddRecord(totals, values, vocab), k) == ValueOr0(t, k) + x;
        MulSucc(n, x);
      } else {
        assert Count(vocab, k) == n;
        assert ValueOr0(AddRecord(totals, values, vocab), k) == ValueOr0(t, k);
      }
    }
  }

  /** After the records, each label holds its column sum once per listing. */
  lemma {:induction false} AccumulateValue(totals: map<string, int>, records: seq<YearRecord>, vocab: seq<string>, k: string)
    ensures ValueOr0(Accumulate(totals, records, vocab), k) == ValueOr0(totals, k) + Count(vocab, k) * ColumnSum(records, k)
  {
    if |records| > 0 {
      var init := records[..|records| - 1];
      var v := records[|records| - 1].values;
      AccumulateValue(totals, init, vocab, k);
      AddRecordValue(Accumulate(totals, init, vocab), v, vocab, k);
      MulAdd(Count(vocab, k), ColumnSum(init, k), ValueOr0(v, k));
    }
  }

  lemma MulSucc(n: int, x: int)
    ensures (n + 1) * x == n * x + x
  {
  }

  lemma MulAdd(n: int, a: int, b: int)
    ensures n * (a + b) == n * a + n * b
  {
  }

  /** The totals object after both loops. */
  function CategoryTotals(records: seq<YearRecord>, vocab: seq<string>): (r: map<string, int>)
    ensures r.Keys == set c | c in vocab
    ensures forall c :: c in vocab ==> r[c] == Count(vocab, c) * ColumnSum(records, c)
  {
    var r := Accumulate(map c | c in vocab :: 0, records, vocab);
    forall c | c in vocab ensures r[c] == Count(vocab, c) * ColumnSum(records, c) {
      AccumulateValue(map c | c in vocab :: 0, records, vocab, c);
    }
    r
  }

  /** A label listed once in the vocabulary totals to its column sum. */
  lemma TotalOfSingleListing(records: seq<YearRecord>, vocab: seq<string>, c: string)
    requires Count(vocab, c) == 1
    ensures c in CategoryTotals(records, vocab) && CategoryTotals(records, vocab)[c] == ColumnSum(records, c)
  {
    CountPositiveMeansIn(vocab, c);
  }

  lemma {:induction false} CountPositiveMeansIn(xs: seq<string>, x: string)
    ensures Count(xs, x) > 0 <==> x in xs
  {
    if |xs| > 0 {
      CountPositiveMeansIn(xs[..|xs| - 1], x);
      assert xs == xs[..|xs| - 1] + [xs[|xs| - 1]];
    }
  }

  /** Sum of one CSV row's parsed cells over the given columns. */
  function RowSum(row: Row, cols: seq<string>): int
  {
    if |cols| == 0 then 0 else RowSum(row, cols[..|cols| - 1]) + CellInt(row, cols[|cols| - 1])
  }

  lemma {:induction false} ColumnSumOfCells(records: seq<YearRecord>, k: string, row: Row, cols: seq<string>)
    requires |records| == |cols|
    requires forall i :: 0 <= i < |records| ==> ValueOr0(records[i].values, k) == CellInt(row, cols[i])
    ensures ColumnSum(records, k) == RowSum(row, cols)
  {
    if |records| > 0 {
      ColumnSumOfCells(records[..|records| - 1], k, row, cols[..|cols| - 1]);
    }
  }

  /** Over the pivoted records, a label's column sum is the sum of the year
      cells of the last row carrying that label: the "total across all
      years" of that category. */
  lemma ColumnSumOfPivot(t: Table, idCol: string, rule: LabelRule, r: nat)
    requires r < |t.rows| && RowLabel(t.rows[r], idCol, rule).Some?
    requires forall j :: r < j < |t.rows| ==> RowLabel(t.rows[j], idCol, rule) != RowLabel(t.rows[r], idCol, rule)
    ensures ColumnSum(Pivot(t, idCol, rule), RowLabel(t.rows[r], idCol, rule).value) == RowSum(t.rows[r], Without(t.keys, idCol))
  {
    var records := Pivot(t, idCol, rule);
    var cols := Without(t.keys, idCol);
    var k := RowLabel(t.rows[r], idCol, rule).value;
    forall i | 0 <= i < |records| ensures ValueOr0(records[i].values, k) == CellInt(t.rows[r], cols[i]) {
      assert records[i].values == PivotColumn(t.rows, idCol, rule, cols[i]);
    }
    ColumnSumOfCells(records, k, t.rows[r], cols);
  }
}
